=== FILE: README.md ===
# pharma_trade core, modelled in Dafny

pharma_trade collects biotech catalysts and trades straddles on them. This model covers:

- **Regulatory decisions.** A calendar entry is scraped into a `RegulatoryDecision`:
  - a company name and ticker;
  - a PDUFA date read from free text by five regular expressions;
  - a decision and status classified from the outcome text.

  The records are then de-duplicated, sorted into previous and impending decisions, and written to the
  `regulatory_decisions` table with insert-or-ignore.
- **Clinical trials.** A study from the registry's v2 API is parsed into a `Study`. Studies pass a phase and
  date-window screen and are written to `clinical_trials` with insert-or-ignore on `nctid`.
- **The order placer.** It selects untraded catalysts in the next 15 days. It picks the strike nearest the
  price and the expiration nearest the target. It then buys the first two contracts the untyped at-strike request
  returns, and tries to flag the row as traded. As written, the flag's UPDATE never matches the row (see
  Findings), and a failed contract lookup ends the whole batch.
- **The screener.** It filters tickers already stored and looks up broker tradability. It buckets companies by
  market cap and attaches clinical-trial search phrases.
- **The dashboard's pure logic.** This covers the OCC option-symbol parser, the stock-or-option test and the
  option payoff at expiry.

Everything is a pure function over immutable datatypes. The two loop methods are `PdufaScraper.Deduplicate` and
`PdufaManager.SortRecords`.

Outside inputs are parameters:

| outside input | modelled as |
|---|---|
| current time | an instant `now` or `today` in microsecond ticks since 0001-01-01 |
| database | a map from the table's unique key to the rest of the row |
| query results | any list the query's `WHERE` and `ORDER BY` allow |
| broker and price feed | a `Market` value of three oracle functions: price, contract listing, order submission |
| the price feed's company `info` | an oracle function from ticker to the dictionary's fields, or `None` where fetching raised |
| broker asset list | a value |
| set iteration order | a given listing |

Dates are `CalendarDate` values in Python's `datetime` range, years 1 to 9999. Money is integer
millidollars, the unit of the option-symbol strike. `_parse_date` either returns `ParseDate` or raises
(`ParseDateRaises`). It raises when `datetime` is given a month of 2^31 or more: that is an `OverflowError`,
which its `except ValueError` does not catch.

Modules follow the source files:

| module | file | models |
|---|---|---|
| `Wrappers` | `wrappers.dfy` | `Option` |
| `Text` | `text.dfy` | the `str` operations used: `lower`, `strip`, `in`, `replace`, `join`, `split`, `int` |
| `Calendar` | `calendar.dfy` | `datetime` construction, day ordinals, the `YYYY-MM-DD` text form |
| `Regex` | `regex.dfy` | a backtracking matcher for the sequences of counted character classes the scraper's patterns use, with `re.search` semantics: leftmost start, greedy with backtracking |
| `RegulatoryDecisions`, `Studies`, `Companies` | | the data models |
| `FirstByKey` | `dedup.dfy` | keep the first element of each key, shared by the de-duplication and every insert-or-ignore |
| `PdufaScraper`, `PdufaDates` | | `pdufa_scraper.py`: ticker extraction, classification, entry parsing, de-duplication; and `_parse_date` |
| `PdufaManager` | | `pdufa_manager.py` |
| `ClinicalTrials` | | `clinical_trials.py` |
| `OrderPlacer` | | `order_placer.py` as written |
| `CorrectedOrderPlacer` | | its evidently intended behaviour; see Findings |
| `TrialSearchTags` | | `add_clinical_trials_tags.py` |
| `BiotechScreener` | | `biotech_screener.py` |
| `Dashboard` | | the pure parts of `dashboard.py` |

## Model

| member | source | states |
|---|---|---|
| Text.Lower | src/data_inflows/pdufa_scraper.py:96 | lower-casing keeps the length and maps each character on its own, upper-case letters to lower-case and everything else unchanged |
| Text.LowerIdempotent | src/data_inflows/pdufa_scraper.py:192 | lower-casing twice is lower-casing once |
| Text.Strip | src/data_inflows/pdufa_scraper.py:141 | the stripped text is no longer than the input, neither starts nor ends with whitespace, and has only characters of the input |
| Text.StripIsInfix | src/data_inflows/pdufa_scraper.py:141 | the stripped text is the infix of the input left after removing exactly the leading and the trailing whitespace |
| Text.StripUnchanged | src/data_inflows/pdufa_scraper.py:141 | text with no whitespace at either end is left as it is |
| Text.Before | src/data_inflows/clinical_trials.py:85 | `split("T")[0]` is a prefix without `T`, and is followed by a `T` whenever it is shorter than the text |
| Text.BeforeConcat | src/data_inflows/clinical_trials.py:85 | a `T`-free head followed by a `T` part splits back into that head |
| Text.PyIntOfDigits | src/data_inflows/pdufa_scraper.py:156-157 | `int` of a non-empty digit string is its decimal value |
| Text.PadDigitsValue | src/frontend/dashboard.py:99-101 | a number written in a fixed number of zero-padded digits reads back as the number |
| Calendar.MakeDate | src/data_inflows/pdufa_scraper.py:171 | `datetime(year, month, day)` gives that date exactly when the date is valid, and raises otherwise |
| Calendar.OrdinalMonotone | src/data_inflows/pdufa_manager.py:36 | an earlier date has a smaller day ordinal, so comparing dates is comparing ordinals |
| Calendar.OrdinalInjective | src/data_inflows/pdufa_manager.py:36 | two dates with the same ordinal are the same date |
| Calendar.FullDateRoundTrip | src/data_inflows/clinical_trials.py:85 | formatting a date as `YYYY-MM-DD` and reading it back gives the date |
| Calendar.FullDateCanonical | src/data_inflows/clinical_trials.py:85 | a text that reads as a date is that date's formatted text, so the reading is injective |
| Regex.SearchGroups | src/data_inflows/pdufa_scraper.py:152-153 | the groups exist exactly when the search finds a match, and there is one per capturing group |
| Regex.SearchSound | src/data_inflows/pdufa_scraper.py:152 | a match that is found is a match of the pattern at some start: every span has its class and count, and the spans are contiguous |
| Regex.SearchComplete | src/data_inflows/pdufa_scraper.py:152 | when the pattern matches at any position, the search finds a match |
| Regex.SearchNeedsClass | src/data_inflows/pdufa_scraper.py:152 | a text with no character of a required class has no match |
| Regex.GreedySearch | src/data_inflows/pdufa_scraper.py:152 | when greedy runs from the start fit the pattern, the search returns exactly those spans and their groups |
| RegulatoryDecisions.NewDecision | src/data_models/RegulatoryDecision.py:6-14 | every field of the record is the argument given for it |
| RegulatoryDecisions.NewDecisionDefaults | src/data_models/RegulatoryDecision.py:11-14 | the defaults: no decision, empty description, status `pending`, region `US` |
| Companies.NewCompany | src/data_models/Company.py:2-16 | the constructor stores every argument: ticker, name, sector, industry, exchange, cap, category and the four broker flags. It starts with no search phrases and an empty primary phrase |
| Companies.NewCompanyDefaults | src/data_models/Company.py:2 | the defaults: category `Unknown` and all four broker flags false |
| Companies.SetSearchPhrases | src/data_models/Company.py:22-25 | the phrases are stored; the primary phrase is the first one, or the company name when there are none; nothing else changes |
| Companies.SetThenGet | src/data_models/Company.py:22-29 | the getter returns what the setter stored, and a second set overrides the first |
| Companies.PrimaryPhraseIsKnown | src/data_models/Company.py:25 | the primary phrase is one of the phrases, or the name when the list is empty |
| FirstByKey.Keys | src/data_inflows/pdufa_scraper.py:207-209 | the key set holds exactly the keys of the list's elements |
| FirstByKey.KeepFirstDistinct | src/data_inflows/pdufa_scraper.py:202-212 | keeping the first of each key leaves no two elements with one key and loses no key |
| FirstByKey.KeepFirstIsFirst | src/data_inflows/pdufa_scraper.py:202-212 | everything kept comes from the input, and every first occurrence of a key is kept |
| FirstByKey.KeepFirstOfDistinct | src/data_inflows/pdufa_scraper.py:202-212 | a list with distinct keys is left as it is |
| FirstByKey.KeepFirstInOrder | src/data_inflows/pdufa_scraper.py:202-212 | the result is a subsequence of the input, in input order |
| FirstByKey.KeepFirstIdempotent | src/data_inflows/pdufa_scraper.py:202-212 | de-duplicating twice is de-duplicating once |
| PdufaScraper.ParenTicker | src/data_inflows/pdufa_scraper.py:125-127 | a ticker found in parentheses is 1 to 5 capitals and appears in the text between `(` and `)` |
| PdufaScraper.ParenGroupSound | src/data_inflows/pdufa_scraper.py:125-127 | the parenthesis pattern has one group, and its text is such a ticker |
| PdufaScraper.ParenTickerComplete | src/data_inflows/pdufa_scraper.py:125-126 | any 1 to 5 capitals in parentheses in the text are found |
| PdufaScraper.LastWordTicker | src/data_inflows/pdufa_scraper.py:130-132 | the fallback ticker is 2 to 5 capitals |
| PdufaScraper.LastWordTickerNone | src/data_inflows/pdufa_scraper.py:130-136 | there is no fallback ticker exactly when no whole word of 2 to 5 capitals occurs |
| PdufaScraper.LastWordTickerIsLast | src/data_inflows/pdufa_scraper.py:130-132 | the fallback ticker is the text of a whole-word match that starts after every other match |
| PdufaScraper.WordMatchesAll | src/data_inflows/pdufa_scraper.py:130 | `findall` lists every whole-word match of 2 to 5 capitals |
| PdufaScraper.ExtractTickerCases | src/data_inflows/pdufa_scraper.py:124-138 | the ticker is the parenthesised one if any, else the last capital word, else empty; it is empty only when neither occurs, and then the name is the whole text |
| PdufaScraper.ExtractNameChars | src/data_inflows/pdufa_scraper.py:128-136 | the company name uses only characters of the company text |
| PdufaScraper.ClassifyCases | src/data_inflows/pdufa_scraper.py:94-105 | outcome text mentioning `approved` in any case gives approved and decided; else a denial word gives denied and decided; else it is pending with no decision |
| PdufaScraper.ClassifyDecidedIffDecision | src/data_inflows/pdufa_scraper.py:94-105 | the status is `decided` exactly when there is a decision, and is otherwise `pending` |
| PdufaScraper.NotApprovedIsApproved | src/data_inflows/pdufa_scraper.py:98-101 | an outcome saying `not approved` is classified as approved, because the approval test comes first |
| PdufaScraper.ClassifyIgnoresCase | src/data_inflows/pdufa_scraper.py:96 | the classification of a text and of its lower-case form agree |
| PdufaScraper.ExtractCompanyAndTicker | src/data_inflows/pdufa_scraper.py:124-138 | the ticker is empty or 1 to 5 capitals, and with no ticker the name is the whole company text |
| PdufaScraper.Classify | src/data_inflows/pdufa_scraper.py:94-105 | the status is `decided` or `pending`, and `decided` exactly when there is a decision, which is `approved` or `denied` |
| PdufaScraper.ParseEntry | src/data_inflows/pdufa_scraper.py:71-122 | an entry keeps the drug cell and has region `US`, and its status is `decided` exactly when it carries a decision. An event parse that raises gives no entry. A readable event date whose parse does not raise gives an entry on that date. Otherwise an entry exists exactly when the outcome's parse gives a date without raising, and it carries that date |
| PdufaScraper.SlashEventEntry | src/data_inflows/pdufa_scraper.py:84-118 | an event cell `MM/DD/YYYY` gives an entry on that date whatever the outcome cell holds. An outcome saying `approved` gives an approved, decided entry, and one with no approval or denial word a pending entry with no decision |
| PdufaScraper.UndatedEventFallsBack | src/data_inflows/pdufa_scraper.py:84-91 | an event cell without a digit gives no date, so an entry exists exactly when the outcome cell has a date and its parse does not raise, and it carries that date |
| PdufaScraper.UndatedCellsNoEntry | src/data_inflows/pdufa_scraper.py:84-91 | with no digit in either cell the entry is dropped |
| PdufaScraper.UndatedEventMonthYear | src/data_inflows/pdufa_scraper.py:84-91 | an undated event with a `Month YYYY` outcome gives an entry on the 15th of that month |
| PdufaScraper.OverflowEventNoEntry | src/data_inflows/pdufa_scraper.py:84-86 | an event cell such as `2147483648 1, 2024` gives no entry whatever the outcome cell holds: the event parse raises `OverflowError`, which the entry's handler at :120-122 turns into no entry, so the outcome's date is never tried |
| PdufaScraper.KeyOfSame | src/data_inflows/pdufa_scraper.py:207 | two records share a de-duplication key exactly when ticker, drug name and date all agree |
| PdufaScraper.Deduplicate | src/data_inflows/pdufa_scraper.py:202-212 | the loop with its `seen` set returns the first record of each key, in input order |
| PdufaScraper.DedupNoTwins | src/data_inflows/pdufa_scraper.py:202-212 | no two records of the result share ticker, drug name and date |
| PdufaDates.MonthNumber | src/data_inflows/pdufa_scraper.py:184-192 | a month name is known exactly when its lower-case form is a table entry, and its number is 1 to 12 |
| PdufaDates.MonthEntry | src/data_inflows/pdufa_scraper.py:185-191 | every table entry maps to 1..12 and is at least three lower-case letters without `q` |
| PdufaDates.QuarterDate | src/data_inflows/pdufa_scraper.py:155-159 | quarter `q` of year `y` is the 15th of month `3q - 1`; it is a date exactly for quarters 1 to 4 of years 1 to 9999 |
| PdufaDates.FirstSomeWins | src/data_inflows/pdufa_scraper.py:151-182 | the pattern loop returns the first attempt that gives a date, and nothing when none does |
| PdufaDates.ParseDateNone | src/data_inflows/pdufa_scraper.py:151-182 | no date is read exactly when every one of the five patterns, tried on the stripped text, gives none |
| PdufaDates.ParseDateFirstWins | src/data_inflows/pdufa_scraper.py:151-182 | the date read is the one the first successful pattern gives, and every earlier pattern gives none |
| PdufaDates.ParseDateLastTwo | src/data_inflows/pdufa_scraper.py:151-182 | when the first three patterns give nothing, the result is the quarter reading, else the month-year reading |
| PdufaDates.NoPatternNoDate | src/data_inflows/pdufa_scraper.py:151-182 | when no pattern gives a date, `None` is returned |
| PdufaDates.NoDigitsNoDate | src/data_inflows/pdufa_scraper.py:140-182 | every pattern needs a digit, so a text without digits reads as no date and does not raise |
| PdufaDates.BadMonthGroup | src/data_inflows/pdufa_scraper.py:166-171 | a three-group match whose first group is a number above 12 gives no date. With day and year groups of at most four digits, a month below 2^31 makes `datetime` raise `ValueError` and the loop moves on; a month from 2^31 makes it raise `OverflowError`, which escapes |
| PdufaDates.HugeMonthGroup | src/data_inflows/pdufa_scraper.py:166-171 | digit groups whose month is at least 2^31 make the attempt raise |
| PdufaDates.TryReading | src/data_inflows/pdufa_scraper.py:152-179 | one attempt's outcome: a date, moving on, or a raise that escapes; its date is the attempt's reading |
| PdufaDates.FirstDecidedIs | src/data_inflows/pdufa_scraper.py:151-182 | the loop ends at the first attempt that does not move on, and runs out only when every attempt moves on |
| PdufaDates.FirstDecidedDate | src/data_inflows/pdufa_scraper.py:151-182 | when no attempt raises before the loop ends, the loop's date is the first present date |
| PdufaDates.ParseDateReturned | src/data_inflows/pdufa_scraper.py:151-182 | when `_parse_date` does not raise, it returns `ParseDate`, the first attempt that does not move on |
| PdufaDates.OnlyMonthDayYearRaises | src/data_inflows/pdufa_scraper.py:143-171 | only the month-day-year attempt can raise: every other pattern's digit groups have at most four digits, and month names and quarters give small months |
| PdufaDates.MonthDayYearRaises | src/data_inflows/pdufa_scraper.py:146-171 | the month-day-year attempt raises exactly when it matches with a digit-only first group worth at least 2^31 |
| PdufaDates.MonthDayYearGroupsRaise | src/data_inflows/pdufa_scraper.py:166-178 | with day and year groups of at most four digits, the three-group branch raises exactly when its first group is digits worth at least 2^31 |
| PdufaDates.ParseDateRaisesIff | src/data_inflows/pdufa_scraper.py:151-182 | `_parse_date` raises exactly when neither the slash nor the ISO pattern gives a date and the month-day-year match has such a month |
| PdufaDates.NoRaiseCases | src/data_inflows/pdufa_scraper.py:151-182 | text cannot make `_parse_date` raise when the slash or ISO attempt gives a date, or when the month-day-year attempt gives a date or finds no match |
| PdufaDates.HugeMonthTextRaises | src/data_inflows/pdufa_scraper.py:143-182 | `N D, YYYY` whose first field is digits worth at least 2^31 makes `_parse_date` raise |
| PdufaDates.IsoPatternRejects | src/data_inflows/pdufa_scraper.py:145 | the ISO pattern on a `YYYY-MM-DD` text with a year from 1000 reads the year as the month, and so never gives a date |
| PdufaDates.IsoTextYieldsNothing | src/data_inflows/pdufa_scraper.py:143-171 | a bare `YYYY-MM-DD` date with a year from 1000 is not read at all: no pattern gives a date, and none raises |
| PdufaDates.SlashTextParses | src/data_inflows/pdufa_scraper.py:144 | every date written `MM/DD/YYYY` reads back as itself, and reading it does not raise |
| PdufaDates.SlashShapeParses | src/data_inflows/pdufa_scraper.py:144 | a `MM/DD/YYYY` text with a valid date reads as that month, day and year, and reading it does not raise |
| PdufaDates.QuarterTextParses | src/data_inflows/pdufa_scraper.py:147 | `Qn YYYY` reads as the 15th of the quarter's middle month for quarters 1 to 4, and as nothing for other digits; reading it does not raise |
| PdufaDates.QuarterShapeParses | src/data_inflows/pdufa_scraper.py:147 | every text of the quarter shape reads as `QuarterDate` of its digits, and reading it does not raise |
| PdufaDates.QuarterNotMonth | src/data_inflows/pdufa_scraper.py:160-165 | the month-year pattern also matches a quarter text, but `Qn` is no month name, so it gives nothing |
| PdufaDates.InterpretQuarter | src/data_inflows/pdufa_scraper.py:155-159 | the quarter groups read as the quarter's date |
| PdufaDates.InterpretMonthYear | src/data_inflows/pdufa_scraper.py:160-165 | two groups, a month name and a year, read as the 15th of that month |
| PdufaDates.InterpretNamedMonth | src/data_inflows/pdufa_scraper.py:172-178 | three groups led by a month name read as that month, day and year |
| PdufaDates.MonthYearTextParses | src/data_inflows/pdufa_scraper.py:148 | `Month YYYY`, for any month name in the table, reads as the 15th of that month, and reading it does not raise |
| PdufaDates.MonthDayYearTextParses | src/data_inflows/pdufa_scraper.py:146 | `Month D, YYYY` with a valid date reads as that date, and reading it does not raise |
| PdufaDates.MonthDayYearShapeParses | src/data_inflows/pdufa_scraper.py:146 | any text of the shape name, space, day, comma, space, year reads as the named month, day and year, and reading it does not raise |
| PdufaManager.TickersOf | src/data_inflows/pdufa_manager.py:33-40 | the company set holds exactly the records' tickers |
| PdufaManager.SortRecords | src/data_inflows/pdufa_manager.py:28-50 | the loop returns the count, the records, the previous and impending lists and the ticker set |
| PdufaManager.SortPartition | src/data_inflows/pdufa_manager.py:35-39 | the previous and impending lists split the records: a record is previous exactly when its date is before now or it is decided, and every record lands in exactly one list |
| PdufaManager.SortKeepsOrder | src/data_inflows/pdufa_manager.py:35-39 | both lists keep the input order |
| PdufaManager.TodayIsPrevious | src/data_inflows/pdufa_manager.py:36 | a decision dated today counts as previous once midnight has passed, because the date compares as its midnight |
| PdufaManager.LaterPendingIsImpending | src/data_inflows/pdufa_manager.py:36 | a pending decision dated from now on is impending |
| PdufaManager.WriteRecords | src/data_inflows/pdufa_manager.py:107-117 | the insert-or-ignore loop never removes a key, and writing no records leaves the table as it is |
| PdufaManager.WriteKeepsRows | src/data_inflows/pdufa_manager.py:107-117 | stored rows are never changed, and the table gains exactly the records' keys |
| PdufaManager.WriteFirstWins | src/data_inflows/pdufa_manager.py:107-117 | a new key is stored with the row of the first record that has it |
| PdufaManager.WriteKnownKeys | src/data_inflows/pdufa_manager.py:113 | writing only known keys changes nothing |
| PdufaManager.WriteIdempotent | src/data_inflows/pdufa_manager.py:107-117 | writing the same records twice is writing them once |
| PdufaManager.WrittenRowsHaveStatus | src/data_inflows/pdufa_manager.py:111-115 | a write keeps every row's status non-null when it was so before |
| PdufaManager.StatusSplit | src/data_inflows/pdufa_manager.py:53-86 | the pending and non-pending reads are disjoint, and together they cover exactly the rows with a non-null status |
| PdufaManager.NullStatusUnread | src/data_inflows/pdufa_manager.py:53-86 | a row with a null status is returned by neither read |
| ClinicalTrials.ParseDate | src/data_inflows/clinical_trials.py:82-87 | a date read is the date whose `YYYY-MM-DD` text is the part before the first `T` |
| ClinicalTrials.ParseStudy | src/data_inflows/clinical_trials.py:47-80 | a study is parsed exactly when it has a non-empty first phase and a non-empty date text, and its phase is the first listed |
| ClinicalTrials.ScreenStudy | src/data_inflows/clinical_trials.py:141-146 | a written study has a trial phase and a date in `[today, today + window]`; a crash needs a trial phase; any other phase is skipped |
| ClinicalTrials.InsertStudy | src/data_inflows/clinical_trials.py:90-104 | insert-or-ignore on `nctid`: the key set gains the study's key, a stored row is kept, and a new row is the study's row, not traded |
| ClinicalTrials.IngestStudies | src/data_inflows/clinical_trials.py:136-146 | the fetch loop never removes a stored key |
| ClinicalTrials.ParseDateExact | src/data_inflows/clinical_trials.py:82-87 | a text reads as a date exactly when its part before the first `T` is that date's `YYYY-MM-DD` text |
| ClinicalTrials.ParseDateWithTime | src/data_inflows/clinical_trials.py:85 | a date text followed by a `T` time part reads as the date |
| ClinicalTrials.PaddedDate | src/data_inflows/clinical_trials.py:63-65 | a `YYYY-MM` text gets `-01` appended, and any other text is left as it is |
| ClinicalTrials.ParseStudyNone | src/data_inflows/clinical_trials.py:59-67 | a study is dropped exactly when it has no first phase, an empty first phase, or an empty date text |
| ClinicalTrials.ParseStudyFields | src/data_inflows/clinical_trials.py:69-80 | the fields come from their keys, with `""` for an absent one. The phase is the first listed, the conditions are joined with `, `, and the date is present exactly when the padded text reads as a date |
| ClinicalTrials.YearMonthIsFirstOfMonth | src/data_inflows/clinical_trials.py:63-69 | a `YYYY-MM` completion date reads as the first of that month |
| ClinicalTrials.ScreenWriteIff | src/data_inflows/clinical_trials.py:141-146 | a study is written exactly when its phase is 2, 3 or 2/3 and its date falls in `[today, today + window]` |
| ClinicalTrials.ScreenCrashIff | src/data_inflows/clinical_trials.py:141-145 | within a representable window, a study ends the fetch exactly when it has a trial phase and no readable date: comparing the missing date raises |
| ClinicalTrials.InsertStudyFirstWins | src/data_inflows/clinical_trials.py:93-97 | of two studies with one `nctid`, the first one written keeps the row |
| ClinicalTrials.IngestKeepsRows | src/data_inflows/clinical_trials.py:136-146 | the fetch loop never changes a stored row, and every new row is the fresh row of a written study of the response |
| ClinicalTrials.IngestWritesAll | src/data_inflows/clinical_trials.py:136-146 | every study that passes the screen is stored unless a crash ended the fetch before it; a fetch that did not raise stores all of them |
| ClinicalTrials.IngestCrashStops | src/data_inflows/clinical_trials.py:136-146 | a fetch that raised did so at a study without a date, and the table is what the studies before it left |
| ClinicalTrials.WrittenInWindow | src/data_inflows/clinical_trials.py:141-146 | every written study has a trial phase and a date inside the window |
| OrderPlacer.GetBestContract | src/trading/order_placer.py:86-113 | a missing price raises; "no contracts" means the range request returned an empty list; a lookup that does not raise had its 15-day window inside the calendar |
| OrderPlacer.BestContractCases | src/trading/order_placer.py:86-113 | every outcome of the lookup: a missing price, a window outside the calendar, a failed request or no strike raise; an empty range listing gives no contracts; fewer than two at-strike contracts raise at the second index; otherwise the first two symbols |
| OrderPlacer.PlaceOptionOrders | src/trading/order_placer.py:115-151 | placement raises exactly when the lookup raises, outside the order `try`; it places at most two orders, and only for a contract pair |
| OrderPlacer.TargetDay | src/trading/order_placer.py:173 | the target day is the date's ordinal plus the offset, and there is none exactly when that passes the last representable day |
| OrderPlacer.StudyStep | src/trading/order_placer.py:167-181 | one study adds no key and at most two orders, and a raise leaves the table unchanged |
| OrderPlacer.StudyStepTargets | src/trading/order_placer.py:169-181 | a study with a ticker aims at its completion date plus 60 days. Its orders are the placement's, and it stops the loop exactly when the lookup raises or the first row binds no `nctid` |
| OrderPlacer.StudiesLoop | src/trading/order_placer.py:167-181 | the loop adds no key and places at most two orders per study |
| OrderPlacer.LoopStopAt | src/trading/order_placer.py:157-185 | a loop whose step stops at a row ends there: the result is that step's table and the orders placed up to it |
| OrderPlacer.StudiesStopAt | src/trading/order_placer.py:167-185 | a study that stops the loop ends the batch: later studies are not processed |
| OrderPlacer.StudiesRaiseStops | src/trading/order_placer.py:167-185 | a contract lookup that raises for a study ends the batch with the table and orders of the studies before it |
| OrderPlacer.TradeOnStudies | src/trading/order_placer.py:153-185 | the study pass adds no key and places at most two orders per study |
| OrderPlacer.DecisionStep | src/trading/order_placer.py:201-219 | one decision adds no key and at most two orders, and a raise leaves the table unchanged |
| OrderPlacer.DecisionStepTargets | src/trading/order_placer.py:204-219 | a decision with a ticker aims at its PDUFA date plus 14 days. Its orders are the placement's, and it stops the loop exactly when the lookup raises or the drug name does not read as a date |
| OrderPlacer.NoDecisionTickerSkipped | src/trading/order_placer.py:204-207 | a decision without a ticker places nothing and changes nothing |
| OrderPlacer.DecisionFlagIgnoresOrders | src/trading/order_placer.py:212-219 | the regulatory update does not depend on whether any order went through: a decision with no orders placed updates the table just as one with orders does |
| OrderPlacer.TradeOnDecisions | src/trading/order_placer.py:187-223 | the regulatory pass adds no key and places at most two orders per decision |
| OrderPlacer.DecisionsStopAt | src/trading/order_placer.py:201-223 | a decision that stops the loop ends the batch: later decisions are not processed |
| OrderPlacer.DecisionsRaiseStops | src/trading/order_placer.py:201-223 | a contract lookup that raises for a decision ends the batch with the table and orders of the decisions before it |
| OrderPlacer.RunAsWritten | src/trading/order_placer.py:225-230 | `run` leaves the regulatory table as it is, adds no study key, and places at most two orders per study |
| OrderPlacer.TradedNeverSelected | src/trading/order_placer.py:45-68 | neither query returns a row already flagged traded, and every regulatory row returned is dated 1 to 15 days ahead |
| OrderPlacer.FirstNearestChoice | src/trading/order_placer.py:103-105 | `min` by distance picks a value no farther from the target than any other, and nearer than every value before it |
| OrderPlacer.FirstNearestUnique | src/trading/order_placer.py:103 | those two properties determine the position picked |
| OrderPlacer.StrikesExact | src/trading/order_placer.py:103 | the strikes considered are exactly the non-missing strikes of the listing |
| OrderPlacer.ExpirationsExact | src/trading/order_placer.py:105 | every listed contract's expiration is considered, whatever its strike |
| OrderPlacer.NearestStrikeChoice | src/trading/order_placer.py:103 | there is an at-the-money strike exactly when some strike is present. It is a listed strike nearest the price, the first such in listing order |
| OrderPlacer.NearestExpirationChoice | src/trading/order_placer.py:105 | the chosen expiration is the first listed one nearest the target |
| OrderPlacer.ChoiceWithinBounds | src/trading/order_placer.py:90-96 | when the listing honours the range request, the strike is within $5 of the price and the expiration within 15 days of the target |
| OrderPlacer.PlacementShape | src/trading/order_placer.py:115-151 | only the contract lookup can raise out of placement. Orders are the first symbol then the second, each one contract bought for the day, stopping at the first failed submission; no contracts means no orders |
| OrderPlacer.StudiesLoopFlagsOnly | src/trading/order_placer.py:167-181 | the study loop adds no rows and changes none except the one row its fixed parameter names |
| OrderPlacer.StudiesNeverFlagged | src/trading/order_placer.py:177-179 | when the first row, bound as the parameter, names no stored study, the loop flags nothing: the next query returns the same studies, and a rerun does the same again |
| OrderPlacer.StudyFlagIgnoresOrders | src/trading/order_placer.py:175-181 | whether the flag is set does not depend on whether any order went through: a study with no orders placed is flagged just the same |
| OrderPlacer.NoTickerSkipped | src/trading/order_placer.py:169-172 | a study without a ticker places nothing and changes nothing |
| OrderPlacer.IngestedStudiesSkipped | src/trading/order_placer.py:169-172 | studies the ingestion writes have no sponsor ticker, so the study loop skips them all |
| OrderPlacer.DecisionsFlagOnlyShifted | src/trading/order_placer.py:201-219 | the regulatory loop adds no rows, and changes only rows whose key is some processed row's shifted key `(useu, ticker, drug as date)` |
| OrderPlacer.OwnKeyNeedsCoincidence | src/trading/order_placer.py:215-217 | a row's update reaches its own row only when its region equals its ticker, its ticker its drug name, and the drug name reads as its date |
| OrderPlacer.DecisionsNeverFlagged | src/trading/order_placer.py:215-217 | when no shifted key is stored, the regulatory pass flags nothing and the next query returns the same rows |
| OrderPlacer.RunSkipsDecisions | src/trading/order_placer.py:225-230 | `run` leaves the regulatory table untouched and places only the study orders |
| CorrectedOrderPlacer.StudiesFixedFlagsFilled | src/trading/order_placer.py:175-181 | with each row's own key bound and the flag set after two filled legs, exactly the filled studies are flagged |
| CorrectedOrderPlacer.StudiesNoDoubleTrade | src/trading/order_placer.py:153-185 | a study traded in full is selected by no later query |
| CorrectedOrderPlacer.DecisionsFixedFlagsFilled | src/trading/order_placer.py:212-219 | binding `(ticker, drug_name, date)` flags exactly the filled decisions |
| CorrectedOrderPlacer.DecisionsNoDoubleTrade | src/trading/order_placer.py:187-223 | a decision traded in full is selected by no later query |
| CorrectedOrderPlacer.RunFixedNoDoubleTrade | src/trading/order_placer.py:225-230 | the corrected run places study and regulatory orders, and a second run selects none of the rows traded in full |
| TrialSearchTags.SearchPhrases | src/utils/add_clinical_trials_tags.py:10-31 | there are no phrases exactly when the name is absent, empty or `N/A`; otherwise the cleaned name is one, and every phrase starts with it |
| TrialSearchTags.Enhance | src/utils/add_clinical_trials_tags.py:33-55 | the company gets the listing of the generated phrases, one entry per phrase, and keeps its name and ticker |
| TrialSearchTags.CleanName | src/utils/add_clinical_trials_tags.py:21 | the cleaned name has no comma |
| TrialSearchTags.SearchPhrasesContents | src/utils/add_clinical_trials_tags.py:10-31 | there are no phrases for an absent, empty or `N/A` name. Otherwise there are at most three: the cleaned name, its `Pharma` form exactly when the name says `Pharmaceuticals`, and its `Tx` form exactly when it says `Therapeutics` |
| TrialSearchTags.PhrasesHaveNoComma | src/utils/add_clinical_trials_tags.py:21-28 | no phrase contains a comma, so the comma-joined stored column splits back into the phrases |
| TrialSearchTags.EnhanceSetsPhrases | src/utils/add_clinical_trials_tags.py:33-55 | the company gets exactly the generated phrases. Its primary phrase is one of them, or the name when there are none; nothing else changes |
| BiotechScreener.CategorizeByMarketCap | src/utils/biotech_screener.py:97-108 | the bucket is one of the five names, `Unknown` exactly for a zero cap, and Micro for a negative one |
| BiotechScreener.CheckAlpacaTradability | src/utils/biotech_screener.py:70-95 | the result always has a `tradable` flag. It is true exactly when the listing holds an asset with the ticker's symbol, and there is an `error` entry exactly when the listing failed |
| BiotechScreener.BuildCompany | src/utils/biotech_screener.py:133-145 | the company keeps ticker, name and cap, is bucketed by its cap, is tradable exactly when the `tradable` flag is true, and has no phrases yet |
| BiotechScreener.GetCompanyInfo | src/utils/biotech_screener.py:39-57 | there is a record exactly when the `info` fetch did not raise. It carries the ticker it was asked for, and a missing name or cap takes its default, `N/A` or 0 |
| BiotechScreener.Screen | src/utils/biotech_screener.py:110-155 | both returned lists are empty, and no more companies are written than tickers screened |
| BiotechScreener.ScreenWritesTickers | src/utils/biotech_screener.py:120-150 | the written companies' tickers are exactly the screened tickers whose `info` could be fetched, in screening order; so distinct tickers give distinct companies |
| BiotechScreener.MarketCapBands | src/utils/biotech_screener.py:97-108 | zero is `Unknown`; otherwise the bucket is Micro below 300M, Small below 2B, Mid below 10B and Large from there, both directions |
| BiotechScreener.MarketCapMonotone | src/utils/biotech_screener.py:97-108 | for positive caps a larger cap never falls in a smaller bucket |
| BiotechScreener.FirstAsset | src/utils/biotech_screener.py:81-89 | the asset found is the first with the ticker's symbol, and none is found only when no asset has it |
| BiotechScreener.TradabilityCases | src/utils/biotech_screener.py:70-95 | a listed ticker is tradable with the first matching asset's flags. An unlisted one gives only `tradable: False`, and a failed listing also gives the error text |
| BiotechScreener.UntradableFlagsOff | src/utils/biotech_screener.py:141-144 | when the ticker is not listed or the listing failed, all four flags read false through `get` with a default |
| BiotechScreener.FilterAsWritten | src/utils/biotech_screener.py:59-68 | the filter as written returns a subset of its input |
| BiotechScreener.FilterRemovesNothing | src/utils/biotech_screener.py:59-68 | because each fetched row is a one-element tuple and never equals a ticker string, the filter returns every ticker it was given |
| BiotechScreener.FilterOfTuples | src/utils/biotech_screener.py:64-66 | a set of strings is left whole by any list of tuples |
| BiotechScreener.FilterAlreadyInDb | src/utils/biotech_screener.py:59-68 | the corrected filter returns a subset of its input |
| BiotechScreener.FilterAlreadyInDbExact | src/utils/biotech_screener.py:59-68 | the corrected filter keeps exactly the given tickers that are not stored |
| BiotechScreener.BuildCompanyFlags | src/utils/biotech_screener.py:133-145 | the company is bucketed by its cap and is tradable exactly when the ticker is listed. An untradable company has every other flag false, and it starts with no phrases |
| BiotechScreener.ScreenResults | src/utils/biotech_screener.py:110-155 | both returned lists are always empty. Every company written is bucketed by its cap and carries exactly the generated phrases |
| Dashboard.UnderlyingEnd | src/frontend/dashboard.py:88-92 | the underlying ends at the first digit, or is empty when there is no digit |
| Dashboard.FirstDigit | src/frontend/dashboard.py:89-92 | the position found holds a digit with none before it, and nothing is found only when there is no digit |
| Dashboard.ParseOptionSymbol | src/frontend/dashboard.py:79-120 | symbols shorter than 15 characters are rejected. A parsed underlying is the digit-free head of the symbol, and the days to expiry are counted from today |
| Dashboard.ParseOptionSymbolCases | src/frontend/dashboard.py:88-120 | a long enough symbol fails to parse when its six date characters do not read as a date, when nothing follows them, or when the strike text is no integer. Otherwise it parses to the digit-free head, that date and that strike |
| Dashboard.ParseRemainder | src/frontend/dashboard.py:97-117 | the parsed option keeps the given underlying and counts the days to expiry from today |
| Dashboard.ParseEncodeRoundTrip | src/frontend/dashboard.py:82-117 | encoding a digit-free root, a 21st-century expiry, a kind and a strike below 100000 dollars, then parsing, gives them back |
| Dashboard.RemainderRoundTrip | src/frontend/dashboard.py:97-117 | the date, kind letter and 8-digit strike part parses back to its fields |
| Dashboard.RemainderAccepts | src/frontend/dashboard.py:97-117 | a remainder whose date, letter and strike read as given parses to exactly that option |
| Dashboard.EncodedExpiration | src/frontend/dashboard.py:98-102 | the six date digits of an encoded symbol read as its expiry |
| Dashboard.ExpirationAccepts | src/frontend/dashboard.py:98-102 | six characters whose three pairs read as year, month and day give that date |
| Dashboard.ExpirationOfDate | src/frontend/dashboard.py:99-102 | year since 2000, month and day of a date rebuild the date |
| Dashboard.NoDigitNoParse | src/frontend/dashboard.py:88-102 | a symbol without a digit is rejected |
| Text.PyIntNeedsDigit | src/frontend/dashboard.py:99 | `int` accepts only text with a digit |
| Dashboard.KindFromLetter | src/frontend/dashboard.py:105-114 | the option is a call exactly when the letter after the date is `C`; any other letter is a put |
| Dashboard.EncodedIsOption | src/frontend/dashboard.py:349 | every encoded option symbol counts as an option |
| Dashboard.StockTickers | src/frontend/dashboard.py:349 | a symbol of at most six characters, or one without digits, counts as a stock |
| Dashboard.Payoff | src/frontend/dashboard.py:240-243 | the payoff is at least minus the premium, and is either that or the intrinsic value less the premium |
| Dashboard.KindOfText | src/frontend/dashboard.py:240 | the type is a call exactly when the text is `call` in any case |
| Dashboard.PayoffShape | src/frontend/dashboard.py:238-243 | the call payoff rises with the price and the put payoff falls, and call minus put is the price less the strike |
| Dashboard.BreakEven | src/frontend/dashboard.py:240-243 | the call breaks even at strike plus premium and the put at strike minus premium |

## Left out

- The network: page scraping, the registry's paging and HTTP errors, the broker and price-feed APIs. Their
  results are parameters; HTML is given as the four cell texts of an entry.
- The openFDA lookup `verify_decisions` (pdufa_manager.py:133-175). `pull_records` (pdufa_manager.py:177-180)
  runs it between scraping and sorting. It sets `status` to `decided` and `decision` to `Approved` for every
  record whose drug name the FDA search finds. The sort is modelled on the records as scraped, before that
  lookup.
- The database connection, commits and rollbacks. A table is a map on its unique key; a SELECT is any list its
  `WHERE`/`ORDER BY` allows; a rejected statement is the `None` of an oracle.
- Column positions: rows are records with named columns. The positional reads of the order placer are modelled
  by what they bind, not by index.
- Floating point: money is integer millidollars and prices are integers. `np.linspace`, plotting, Streamlit
  and the random implied volatility are not modelled.
- `datetime.now()` and `datetime.today()` are the parameters `now` and `today`.
- Python sets: `list(set(...))` and set iteration order are a given listing of the set.
- Unicode: `\d` and `isdigit` are ASCII digits, `lower` and `upper` are ASCII case mapping, and `\w` is ASCII
  letters, digits, `_` and Latin letters U+00C0..U+024F. The words compared contain no letter whose Unicode case
  mapping differs from ASCII's.
- The hard-coded file read in `enhance_with_clinical_trials_tags` (add_clinical_trials_tags.py:39-40): its
  result is unused; a missing file would raise.
- `get_upcoming_by_ticker`, `get_decisions_by_date_range`, `print_summary`, `print_search_phrases_summary`,
  `save_results`, `get_stock_price` and `main`: reporting or I/O. The price and the `info` feed are oracles.
- `data_gather.py`, `main.py`, and the rest of `dashboard.py`: `calculate_option_pnl`,
  `calculate_position_pnl`, the database reads and the page layout. These are I/O or floating-point display.
- `write_company_to_db`: the written companies are listed in order; the plain INSERT's failure on a duplicate
  ticker, and its rollback, are not modelled.
- BiotechScreener.Screen: is given the ticker list the filter left, not composed with one of the two filters.
- A `marketCap` key that is present but null: `info.get('marketCap', 0)` then gives `None`, and
  `categorize_by_market_cap` raises `TypeError` at biotech_screener.py:101, ending the screen. The model's cap is
  an integer or absent, so this raise is not modelled.
- `write_to_db`'s handler (clinical_trials.py:100-103): a rejected INSERT is rolled back and the loop continues.
  `InsertStudy` cannot fail, so a study the database rejects is modelled as stored.
- Dashboard.ParseOptionSymbol: reads the strike digits with `int` as integer millidollars, not with `float` and
  a division by 1000; exponent, `inf`/`nan` and fractional strike texts are not modelled.
- ClinicalTrials.ParseDate: accepts only `YYYY-MM-DD` before the first `T`. From Python 3.7,
  `datetime.fromisoformat` also reads `YYYY-MM-DD`, any single separator, then `HH[:MM[:SS…]]`; from 3.11 it
  also reads the basic and week-date forms. So a time after a separator other than `T` is read by the code and
  rejected by the model. The registry's completion dates are `YYYY-MM-DD` or `YYYY-MM`, so this does not
  arise.
- PdufaDates.IsoTextYieldsNothing: the `YYYY-MM-DD` reading failure is the code's behaviour and is kept as is. A
  year below 1000 written with a leading zero is not covered.
- `_parse_date`'s `int` calls: from Python 3.11 `int` raises `ValueError` on a digit string longer than
  4300 characters, which the loop catches. The model reads such a string as its number, so a month group that
  long raises `OverflowError` in the model. This depends on the interpreter version and is not modelled.
- `datetime` is CPython's C implementation: a year, month or day outside the C `int` range raises
  `OverflowError` before any range check. The pure-Python fallback raises `ValueError` instead, and is not
  modelled.
- An expiry date past `date.max` raises `OverflowError` in the trading loops; it is modelled as a raise that
  stops the loop, without its message.
- Overflow of `datetime.now() + timedelta(days=15)` near year 9999 is not modelled in the candidate windows.

## Findings

| source | as written | input that shows it | evidently intended | confidence | as-written member | corrected member |
|---|---|---|---|---|---|---|
| src/trading/order_placer.py:179 | the UPDATE binds `studies[0]`, the whole first fetched row, as `nctid` for every study | any non-empty batch: a row tuple never equals a stored `nctid`, so no study is flagged and the same studies are traded again on the next run | bind the current study's own `nctid` | high, not executed | OrderPlacer.StudiesNeverFlagged | CorrectedOrderPlacer.StudiesNoDoubleTrade |
| src/trading/order_placer.py:216-217 | binds `(useu, ticker, drug_name)` to `ticker`, `drug_name` and `date` | row `('US', 'ABC', 'Drug X', d)`: the WHERE asks for ticker `US` and a date read from `Drug X`, so the UPDATE raises or flags nothing | bind `(ticker, drug_name, date)` | high, not executed | OrderPlacer.DecisionsNeverFlagged | CorrectedOrderPlacer.DecisionsNoDoubleTrade |
| src/trading/order_placer.py:230 | `self.trade_on_regulatory_decisions` without parentheses | any call of `run`: regulatory catalysts are never traded | call the method | high, not executed | OrderPlacer.RunSkipsDecisions | CorrectedOrderPlacer.RunFixedNoDoubleTrade |
| src/trading/order_placer.py:175-181 | the row is flagged traded whatever `place_option_orders` achieved | once :179 binds the study's own `nctid`, a study with no contracts in range would be flagged and never retried | flag only after both legs went through | medium, not executed | OrderPlacer.StudyFlagIgnoresOrders | CorrectedOrderPlacer.StudiesFixedFlagsFilled |
| src/utils/biotech_screener.py:64-66 | compares each fetched row, a tuple `('ABC',)`, with ticker strings | stored `ABC` and input `{'ABC'}`: the result is still `{'ABC'}` | compare the row's ticker, `tick[0]` | high, not executed | BiotechScreener.FilterRemovesNothing | BiotechScreener.FilterAlreadyInDbExact |

=== FILE: biotech_screener.dfy ===
/**
 * The company screener's pure parts: market-cap buckets, the tradability
 * lookup over the broker's asset list, the filter against tickers already
 * stored, and the company record each screened ticker becomes.
 *
 * The asset listing and the price feed's company `info` are oracle inputs. Database rows
 * and dictionary values are modelled as the Python values they are, so
 * that comparisons between a row and a string mean what they mean in Python.
 */
module BiotechScreener {
  import opened Wrappers
  import opened Companies
  import opened TrialSearchTags

  // ---------------------------------------------------------------------
  // `categorize_by_market_cap`

  const Unknown: string := "Unknown"
  const MicroCap: string := "Micro-cap"
  const SmallCap: string := "Small-cap"
  const MidCap: string := "Mid-cap"
  const LargeCap: string := "Large-cap"

  function CategorizeByMarketCap(cap: int): (r: string)
    ensures r == Unknown <==> cap == 0
    ensures r in {Unknown, MicroCap, SmallCap, MidCap, LargeCap}
    ensures cap < 0 ==> r == MicroCap
  {
    if cap == 0 then Unknown
    else if cap < 300_000_000 then MicroCap
    else if cap < 2_000_000_000 then SmallCap
    else if cap < 10_000_000_000 then MidCap
    else LargeCap
  }

  /** The position of a bucket in size order; "Unknown" comes first. */
  function BucketRank(bucket: string): int {
    if bucket == MicroCap then 1
    else if bucket == SmallCap then 2
    else if bucket == MidCap then 3
    else if bucket == LargeCap then 4
    else 0
  }

  /**
   * Each bucket is a half-open band of caps, every boundary value falling
   * in the higher bucket; zero is "Unknown" and a negative cap is "Micro-cap".
   */
  lemma MarketCapBands(cap: int)
    ensures CategorizeByMarketCap(cap) in {Unknown, MicroCap, SmallCap, MidCap, LargeCap}
    ensures CategorizeByMarketCap(cap) == Unknown <==> cap == 0
    ensures CategorizeByMarketCap(cap) == MicroCap <==> cap != 0 && cap < 300_000_000
    ensures CategorizeByMarketCap(cap) == SmallCap <==> 300_000_000 <= cap < 2_000_000_000
    ensures CategorizeByMarketCap(cap) == MidCap <==> 2_000_000_000 <= cap < 10_000_000_000
    ensures CategorizeByMarketCap(cap) == LargeCap <==> 10_000_000_000 <= cap
  {
  }

  /** For positive caps, a larger company never lands in a smaller bucket. */
  lemma MarketCapMonotone(a: int, b: int)
    requires 0 < a <= b
    ensures 1 <= BucketRank(CategorizeByMarketCap(a)) <= BucketRank(CategorizeByMarketCap(b))
  {
  }

  // ---------------------------------------------------------------------
  // `check_alpaca_tradability`

  /** An active US-equity asset as the broker lists it; `optionsTrading` is `None` where the attribute is missing. */
  datatype Asset = Asset(symbol: string, shortable: bool, marginable: bool, fractionable: bool, optionsTrading: Option<bool>)

  /** The broker's asset listing: the assets, or the error text of the exception it raised. */
  datatype Listing = Assets(assets: seq<Asset>) | ListingFailed(message: string)

  /** A dictionary value: the flags are booleans, the error is a string. */
  datatype Value = Flag(b: bool) | Text(s: string)

  type Info = map<string, Value>

  /** The first asset with the symbol, as the `for` loop finds it. */
  function FirstAsset(assets: seq<Asset>, ticker: string): (r: Option<Asset>)
    ensures r.None? <==> forall a :: a in assets ==> a.symbol != ticker
    ensures r.Some? ==> exists i :: 0 <= i < |assets| && assets[i] == r.value && assets[i].symbol == ticker
                                    && forall j :: 0 <= j < i ==> assets[j].symbol != ticker
  {
    if assets == [] then None
    else if assets[0].symbol == ticker then Some(assets[0])
    else
      var r := FirstAsset(assets[1..], ticker);
      assert forall j :: 0 < j < |assets| ==> assets[1..][j - 1] == assets[j];
      assert forall a :: a in assets ==> a == assets[0] || a in assets[1..];
      r
  }

  function CheckAlpacaTradability(listing: Listing, ticker: string): (r: Info)
    ensures "tradable" in r && r["tradable"].Flag?
    ensures r["tradable"] == Flag(true) <==> listing.Assets? && exists a :: a in listing.assets && a.symbol == ticker
    ensures "error" in r <==> listing.ListingFailed?
  {
    match listing
    case ListingFailed(msg) => map["tradable" := Flag(false), "error" := Text(msg)]
    case Assets(assets) =>
      match FirstAsset(assets, ticker)
      case None => map["tradable" := Flag(false)]
      case Some(a) =>
        map["tradable" := Flag(true), "shortable" := Flag(a.shortable), "marginable" := Flag(a.marginable),
            "fractionable" := Flag(a.fractionable), "options_trading" := Flag(a.optionsTrading.GetOr(false))]
  }

  /** `info.get(key, False)` for a flag. */
  function GetFlag(info: Info, key: string): Value {
    if key in info then info[key] else Flag(false)
  }

  /**
   * A listed symbol is tradable with the flags of its first listing; an
   * unlisted symbol gets exactly `{'tradable': False}`; a failed listing
   * gets `tradable` False and the error text.
   */
  lemma TradabilityCases(listing: Listing, ticker: string)
    ensures listing.Assets? && (exists a :: a in listing.assets && a.symbol == ticker) ==>
              var info := CheckAlpacaTradability(listing, ticker);
              exists i :: 0 <= i < |listing.assets| && listing.assets[i].symbol == ticker
                && (forall j :: 0 <= j < i ==> listing.assets[j].symbol != ticker)
                && info["tradable"] == Flag(true)
                && info["shortable"] == Flag(listing.assets[i].shortable)
                && info["marginable"] == Flag(listing.assets[i].marginable)
                && info["fractionable"] == Flag(listing.assets[i].fractionable)
    ensures listing.Assets? && (forall a :: a in listing.assets ==> a.symbol != ticker) ==>
              CheckAlpacaTradability(listing, ticker) == map["tradable" := Flag(false)]
    ensures listing.ListingFailed? ==>
              && CheckAlpacaTradability(listing, ticker)["tradable"] == Flag(false)
              && CheckAlpacaTradability(listing, ticker)["error"] == Text(listing.message)
  {
  }

  /** When the symbol is not tradable, every flag the screener reads defaults to off. */
  lemma UntradableFlagsOff(listing: Listing, ticker: string)
    requires listing.ListingFailed? || forall a :: a in listing.assets ==> a.symbol != ticker
    ensures forall key :: key in {"tradable", "shortable", "marginable", "fractionable"} ==>
              GetFlag(CheckAlpacaTradability(listing, ticker), key) == Flag(false)
  {
  }

  // ---------------------------------------------------------------------
  // `filter_already_in_db`

  /** The Python values involved: strings, and the tuples `fetchall` returns rows as. */
  datatype PyValue = Str(s: string) | Tuple(items: seq<PyValue>)

  /**
   * `filter_already_in_db` as written: each fetched row, a one-column
   * tuple, is looked up in the set of ticker strings and removed if found.
   */
  function FilterAsWritten(rows: seq<PyValue>, tickers: set<PyValue>): (r: set<PyValue>)
    ensures r <= tickers
  {
    if rows == [] then tickers
    else FilterAsWritten(rows[1..], if rows[0] in tickers then tickers - {rows[0]} else tickers)
  }

  /** The rows of `SELECT ticker FROM companies`. */
  function TickerRows(stored: seq<string>): (rows: seq<PyValue>)
    ensures |rows| == |stored| && forall i :: 0 <= i < |stored| ==> rows[i] == Tuple([Str(stored[i])])
  {
    seq(|stored|, i requires 0 <= i < |stored| => Tuple([Str(stored[i])]))
  }

  function Strs(tickers: set<string>): (r: set<PyValue>)
    ensures forall v :: v in r <==> v.Str? && v.s in tickers
  {
    set t | t in tickers :: Str(t)
  }

  /**
   * A tuple never equals a string, so the filter as written removes
   * nothing: every stored ticker is screened again.
   */
  lemma {:induction false} FilterRemovesNothing(stored: seq<string>, tickers: set<string>)
    ensures FilterAsWritten(TickerRows(stored), Strs(tickers)) == Strs(tickers)
  {
    var rows := TickerRows(stored);
    FilterOfTuples(rows, Strs(tickers));
  }

  lemma {:induction false} FilterOfTuples(rows: seq<PyValue>, ts: set<PyValue>)
    requires forall i :: 0 <= i < |rows| ==> rows[i].Tuple?
    requires forall v :: v in ts ==> v.Str?
    ensures FilterAsWritten(rows, ts) == ts
  {
    if rows != [] {
      assert rows[0] !in ts;
      assert forall i :: 0 <= i < |rows[1..]| ==> rows[1..][i] == rows[i + 1];
      FilterOfTuples(rows[1..], ts);
    }
  }

  /** The evident intent: drop every ticker already stored, comparing the row's one column. */
  function FilterAlreadyInDb(stored: seq<string>, tickers: set<string>): (r: set<string>)
    ensures r <= tickers
  {
    if stored == [] then tickers else FilterAlreadyInDb(stored[1..], tickers - {stored[0]})
  }

  /** The corrected filter keeps exactly the tickers not stored. */
  lemma {:induction false} FilterAlreadyInDbExact(stored: seq<string>, tickers: set<string>)
    ensures forall t :: t in FilterAlreadyInDb(stored, tickers) <==> t in tickers && t !in stored
  {
    if stored != [] {
      FilterAlreadyInDbExact(stored[1..], tickers - {stored[0]});
      assert forall t :: t in stored <==> t == stored[0] || t in stored[1..];
    }
  }

  // ---------------------------------------------------------------------
  // `screen_biotech_companies`

  /** What `get_company_info` returns, its defaults applied. */
  datatype CompanyInfo = CompanyInfo(ticker: string, companyName: string, marketCap: int,
                                     sector: string, industry: string, exchange: string)

  /**
   * The keys of the price feed's `info` dictionary that the screener reads;
   * `None` is a key the dictionary lacks.
   */
  datatype FeedInfo = FeedInfo(longName: Option<string>, marketCap: Option<int>, sector: Option<string>,
                               industry: Option<string>, exchange: Option<string>)

  /**
   * `get_company_info`: `feed` is the ticker's `info` dictionary, or `None`
   * when fetching it raised. The record carries the ticker it was asked
   * for, and each missing key takes its default: `N/A` for text, 0 for the cap.
   */
  function GetCompanyInfo(ticker: string, feed: Option<FeedInfo>): (r: Option<CompanyInfo>)
    ensures r.Some? <==> feed.Some?
    ensures r.Some? ==> r.value.ticker == ticker
    ensures r.Some? && feed.value.marketCap.None? ==> r.value.marketCap == 0
    ensures r.Some? && feed.value.longName.None? ==> r.value.companyName == "N/A"
    ensures r.Some? && feed.value.longName.Some? ==> r.value.companyName == feed.value.longName.value
  {
    match feed
    case None => None
    case Some(f) =>
      Some(CompanyInfo(ticker, f.longName.GetOr("N/A"), f.marketCap.GetOr(0),
                       f.sector.GetOr("N/A"), f.industry.GetOr("N/A"), f.exchange.GetOr("N/A")))
  }

  function FlagOf(v: Value): bool {
    v.Flag? && v.b
  }

  /** The company record built for one ticker, before its phrases are attached. */
  function BuildCompany(info: CompanyInfo, alpaca: Info): (c: Company)
    ensures c.ticker == info.ticker && c.companyName == info.companyName && c.marketCap == info.marketCap
    ensures c.marketCapCategory == CategorizeByMarketCap(info.marketCap)
    ensures c.alpacaTradable <==> GetFlag(alpaca, "tradable") == Flag(true)
    ensures c.searchPhrases == [] && c.primarySearchPhrase == ""
  {
    NewCompany(info.ticker, info.companyName, info.sector, info.industry, info.exchange, info.marketCap,
               CategorizeByMarketCap(info.marketCap),
               FlagOf(GetFlag(alpaca, "tradable")), FlagOf(GetFlag(alpaca, "shortable")),
               FlagOf(GetFlag(alpaca, "marginable")), FlagOf(GetFlag(alpaca, "fractionable")))
  }

  /**
   * The record's category is the cap's bucket; it is tradable exactly when
   * the broker lists the symbol, and an untradable record has every flag off.
   */
  lemma BuildCompanyFlags(info: CompanyInfo, listing: Listing, ticker: string)
    ensures var c := BuildCompany(info, CheckAlpacaTradability(listing, ticker));
      && c.marketCapCategory == CategorizeByMarketCap(info.marketCap)
      && (c.alpacaTradable <==> listing.Assets? && exists a :: a in listing.assets && a.symbol == ticker)
      && (!c.alpacaTradable ==> !c.alpacaShortable && !c.alpacaMarginable && !c.alpacaFractionable)
      && c.searchPhrases == []
  {
    if listing.Assets? {
      var _ := FirstAsset(listing.assets, ticker);
    }
  }

  /** The two lists the screener returns, and the companies it writes on the way. */
  datatype Screening = Screening(results: seq<Company>, tradable: seq<Company>, written: seq<Company>)

  /**
   * The loop over the tickers left after the filter, in the order the set
   * yields them; `feed` is the price feed's `info` for a ticker, `listing` the broker's
   * asset list as fetched for a ticker (it is fetched anew for each one),
   * `listings` the phrase list `list(set(...))` produced for a name (see
   * `Enhance`).
   */
  function Screen(order: seq<string>, feed: string -> Option<FeedInfo>, listing: string -> Listing,
                  listings: string -> seq<string>): (r: Screening)
    ensures r.results == [] && r.tradable == []
    ensures |r.written| <= |order|
    decreases |order|
  {
    if order == [] then Screening([], [], [])
    else
      var rest := Screen(order[1..], feed, listing, listings);
      match GetCompanyInfo(order[0], feed(order[0]))
      case None => rest
      case Some(info) =>
        var c := BuildCompany(info, CheckAlpacaTradability(listing(order[0]), order[0]));
        Screening(rest.results, rest.tradable, [SetSearchPhrases(c, listings(c.companyName))] + rest.written)
  }

  /**
   * Nothing is ever appended to the returned lists, so both are empty
   * whatever was screened; every written company is bucketed by its cap and
   * carries the generated phrases.
   */
  lemma {:induction false} ScreenResults(order: seq<string>, feed: string -> Option<FeedInfo>, listing: string -> Listing,
                                         listings: string -> seq<string>)
    requires forall name :: Enumerates(listings(name), SearchPhrases(Some(name)))
    ensures Screen(order, feed, listing, listings).results == []
    ensures Screen(order, feed, listing, listings).tradable == []
    ensures forall c :: c in Screen(order, feed, listing, listings).written ==>
              && c.marketCapCategory == CategorizeByMarketCap(c.marketCap)
              && forall p :: p in c.searchPhrases <==> p in SearchPhrases(Some(c.companyName))
    decreases |order|
  {
    if order != [] {
      ScreenResults(order[1..], feed, listing, listings);
      match GetCompanyInfo(order[0], feed(order[0]))
      case None =>
      case Some(info) =>
        var c := BuildCompany(info, CheckAlpacaTradability(listing(order[0]), order[0]));
        EnhanceSetsPhrases(c, listings(c.companyName));
    }
  }

  /** The tickers of a list of companies, in order. */
  function CompanyTickers(cs: seq<Company>): (r: seq<string>)
    ensures |r| == |cs| && forall i :: 0 <= i < |cs| ==> r[i] == cs[i].ticker
  {
    if cs == [] then [] else [cs[0].ticker] + CompanyTickers(cs[1..])
  }

  /** The tickers whose `info` could be fetched, in screening order. */
  function Fetched(order: seq<string>, feed: string -> Option<FeedInfo>): (r: seq<string>)
    ensures forall t :: t in r ==> t in order && feed(t).Some?
    ensures forall t :: t in order && feed(t).Some? ==> t in r
  {
    if order == [] then []
    else (if feed(order[0]).Some? then [order[0]] else []) + Fetched(order[1..], feed)
  }

  /** No ticker occurs twice. */
  predicate Distinct(xs: seq<string>) {
    forall i, j :: 0 <= i < j < |xs| ==> xs[i] != xs[j]
  }

  /** Keeping some of distinct tickers keeps them distinct. */
  lemma {:induction false} FetchedDistinct(order: seq<string>, feed: string -> Option<FeedInfo>)
    requires Distinct(order)
    ensures Distinct(Fetched(order, feed))
    decreases |order|
  {
    if order != [] {
      assert Distinct(order[1..]) by {
        forall i, j | 0 <= i < j < |order[1..]|
          ensures order[1..][i] != order[1..][j]
        {
          assert order[1..][i] == order[i + 1] && order[1..][j] == order[j + 1];
        }
      }
      FetchedDistinct(order[1..], feed);
      assert order[0] !in order[1..] by {
        forall k | 0 <= k < |order[1..]|
          ensures order[1..][k] != order[0]
        {
          assert order[1..][k] == order[k + 1];
        }
      }
      var fs := Fetched(order, feed);
      var rest := Fetched(order[1..], feed);
      forall i, j | 0 <= i < j < |fs|
        ensures fs[i] != fs[j]
      {
        if feed(order[0]).Some? {
          assert fs == [order[0]] + rest;
          if i == 0 {
            assert fs[j] == rest[j - 1];
          } else {
            assert fs[i] == rest[i - 1] && fs[j] == rest[j - 1];
          }
        } else {
          assert fs == rest;
        }
      }
    }
  }

  /**
   * The companies written are one per fetched ticker, in screening order,
   * each carrying the ticker it was screened for; so screening the distinct
   * tickers of a set writes no ticker twice.
   */
  lemma {:induction false} ScreenWritesTickers(order: seq<string>, feed: string -> Option<FeedInfo>, listing: string -> Listing,
                                               listings: string -> seq<string>)
    ensures CompanyTickers(Screen(order, feed, listing, listings).written) == Fetched(order, feed)
    ensures Distinct(order) ==> Distinct(CompanyTickers(Screen(order, feed, listing, listings).written))
    decreases |order|
  {
    if order != [] {
      ScreenWritesTickers(order[1..], feed, listing, listings);
      var w := Screen(order, feed, listing, listings).written;
      var rest := Screen(order[1..], feed, listing, listings).written;
      if feed(order[0]).Some? {
        assert w == [w[0]] + rest;
        assert CompanyTickers(w) == [order[0]] + CompanyTickers(rest);
      } else {
        assert w == rest;
      }
    }
    if Distinct(order) {
      FetchedDistinct(order, feed);
    }
  }
}

=== FILE: calendar.dfy ===
/**
 * Proleptic Gregorian dates with Python's `datetime` range, day numbers
 * (`date.toordinal()`), instants as whole microseconds, and the
 * `full-date` text form of section 5.6 of RFC 3339 (`YYYY-MM-DD`).
 */
module Calendar {
  import opened Wrappers
  import opened Text

  datatype Date = Date(year: int, month: int, day: int)

  const MinYear: int := 1
  const MaxYear: int := 9999

  predicate IsLeapYear(y: int) {
    y % 4 == 0 && (y % 100 != 0 || y % 400 == 0)
  }

  function DaysInMonth(y: int, m: int): int
    requires 1 <= m <= 12
  {
    if m == 2 then (if IsLeapYear(y) then 29 else 28)
    else if m == 4 || m == 6 || m == 9 || m == 11 then 30
    else 31
  }

  predicate ValidDate(d: Date) {
    && MinYear <= d.year <= MaxYear
    && 1 <= d.month <= 12
    && 1 <= d.day <= DaysInMonth(d.year, d.month)
  }

  /** A date Python's `datetime` accepts. */
  type CalendarDate = d: Date | ValidDate(d) witness Date(1, 1, 1)

  /** `datetime(year, month, day)`: the date, or `None` where Python raises `ValueError`. */
  function MakeDate(year: int, month: int, day: int): (r: Option<CalendarDate>)
    ensures r.Some? <==> ValidDate(Date(year, month, day))
    ensures r.Some? ==> r.value == Date(year, month, day)
  {
    if ValidDate(Date(year, month, day)) then Some(Date(year, month, day)) else None
  }

  function DaysBeforeYear(y: int): int
    requires y >= 1
  {
    (y - 1) * 365 + (y - 1) / 4 - (y - 1) / 100 + (y - 1) / 400
  }

  function DaysBeforeMonth(y: int, m: int): int
    requires 1 <= m <= 12
  {
    if m == 1 then 0 else DaysBeforeMonth(y, m - 1) + DaysInMonth(y, m - 1)
  }

  /** `date.toordinal()`: 0001-01-01 is day 1. */
  function Ordinal(d: CalendarDate): int {
    DaysBeforeYear(d.year) + DaysBeforeMonth(d.year, d.month) + d.day
  }

  /** Instants are whole microseconds since 0001-01-01T00:00 (day 1 at midnight is one day of ticks). */
  const TicksPerDay: int := 86_400_000_000

  /** The instant a stored date stands for when compared with a timestamp: its midnight. */
  function Midnight(d: CalendarDate): int {
    Ordinal(d) * TicksPerDay
  }

  /** `date.max.toordinal()`: the day number of 9999-12-31. */
  const MaxOrdinal: int := 3_652_059

  lemma LastDayOrdinal()
    ensures Ordinal(Date(MaxYear, 12, 31)) == MaxOrdinal
  {
    assert DaysBeforeMonth(MaxYear, 12) == 334;
  }

  /** The last instant `datetime` can hold, 9999-12-31T23:59:59.999999. */
  const MaxInstant: int := (MaxOrdinal + 1) * TicksPerDay - 1

  function YearLength(y: int): int {
    if IsLeapYear(y) then 366 else 365
  }

  lemma DaysBeforeDecember(y: int)
    ensures DaysBeforeMonth(y, 12) + DaysInMonth(y, 12) == YearLength(y)
  {
    var leap := if IsLeapYear(y) then 1 else 0;
    assert DaysBeforeMonth(y, 2) == 31;
    assert DaysBeforeMonth(y, 3) == 59 + leap;
    assert DaysBeforeMonth(y, 4) == 90 + leap;
    assert DaysBeforeMonth(y, 5) == 120 + leap;
    assert DaysBeforeMonth(y, 6) == 151 + leap;
    assert DaysBeforeMonth(y, 7) == 181 + leap;
    assert DaysBeforeMonth(y, 8) == 212 + leap;
    assert DaysBeforeMonth(y, 9) == 243 + leap;
    assert DaysBeforeMonth(y, 10) == 273 + leap;
    assert DaysBeforeMonth(y, 11) == 304 + leap;
    assert DaysBeforeMonth(y, 12) == 334 + leap;
  }

  lemma {:induction false} DaysBeforeMonthSum(y: int, m: int)
    requires 1 <= m <= 12
    ensures 0 <= DaysBeforeMonth(y, m)
    ensures DaysBeforeMonth(y, m) + DaysInMonth(y, m) <= YearLength(y)
  {
    if m > 1 {
      DaysBeforeMonthSum(y, m - 1);
    }
    DaysBeforeDecember(y);
    if m < 12 {
      DaysBeforeMonthMono(y, m, 12);
    }
  }

  lemma DaysBeforeYearStep(y: int)
    requires y >= 1
    ensures DaysBeforeYear(y + 1) == DaysBeforeYear(y) + YearLength(y)
  {
    DivStep(y, 4);
    DivStep(y, 100);
    DivStep(y, 400);
    CenturyMultiples(y);
  }

  /** Stepping past a multiple of `d` adds one to the quotient; any other step leaves it. */
  lemma DivStep(y: int, d: int)
    requires d > 0
    ensures y / d == (y - 1) / d + (if y % d == 0 then 1 else 0)
  {
    var q, r := (y - 1) / d, (y - 1) % d;
    assert y == q * d + (r + 1) && 0 <= r < d;
    if r + 1 == d {
      assert y == (q + 1) * d + 0;
      DivUnique(y, d, q + 1, 0);
    } else {
      DivUnique(y, d, q, r + 1);
    }
  }

  lemma DivUnique(x: int, d: int, q: int, r: int)
    requires d > 0 && x == q * d + r && 0 <= r < d
    ensures x / d == q && x % d == r
  {
    var q', r' := x / d, x % d;
    assert x == q' * d + r' && 0 <= r' < d;
    if q' < q {
      MulLe(q' + 1, q, d);
    } else if q < q' {
      MulLe(q + 1, q', d);
    }
  }

  lemma MulLe(a: int, b: int, d: int)
    requires a <= b && d >= 0
    ensures a * d <= b * d
  {
    assert b * d - a * d == (b - a) * d;
  }

  /** A multiple of 400 is a multiple of 100, and a multiple of 100 a multiple of 4. */
  lemma CenturyMultiples(y: int)
    ensures y % 400 == 0 ==> y % 100 == 0
    ensures y % 100 == 0 ==> y % 4 == 0
  {
    if y % 400 == 0 {
      DivUnique(y, 400, y / 400, 0);
      DivUnique(y, 100, 4 * (y / 400), 0);
    }
    if y % 100 == 0 {
      DivUnique(y, 100, y / 100, 0);
      DivUnique(y, 4, 25 * (y / 100), 0);
    }
  }

  lemma {:induction false} DaysBeforeMonthMono(y: int, m1: int, m2: int)
    requires 1 <= m1 < m2 <= 12
    ensures DaysBeforeMonth(y, m1) + DaysInMonth(y, m1) <= DaysBeforeMonth(y, m2)
    decreases m2 - m1
  {
    if m1 + 1 < m2 {
      DaysBeforeMonthMono(y, m1 + 1, m2);
    }
  }

  lemma {:induction false} DaysBeforeYearMono(y1: int, y2: int)
    requires 1 <= y1 < y2
    ensures DaysBeforeYear(y1) + YearLength(y1) <= DaysBeforeYear(y2)
    decreases y2 - y1
  {
    DaysBeforeYearStep(y1);
    if y1 + 1 < y2 {
      DaysBeforeYearMono(y1 + 1, y2);
      DaysBeforeYearStep(y1 + 1);
    }
  }

  /** Calendar order: earlier year, then earlier month, then earlier day. */
  predicate DateBefore(a: Date, b: Date) {
    || a.year < b.year
    || (a.year == b.year && a.month < b.month)
    || (a.year == b.year && a.month == b.month && a.day < b.day)
  }

  /** Day numbers follow calendar order, so comparing dates and comparing day numbers agree. */
  lemma OrdinalMonotone(a: CalendarDate, b: CalendarDate)
    requires DateBefore(a, b)
    ensures Ordinal(a) < Ordinal(b)
  {
    DaysBeforeMonthSum(a.year, a.month);
    if a.year < b.year {
      DaysBeforeYearMono(a.year, b.year);
      DaysBeforeMonthSum(b.year, b.month);
    } else if a.month < b.month {
      DaysBeforeMonthMono(a.year, a.month, b.month);
    }
  }

  /** Different dates have different day numbers. */
  lemma OrdinalInjective(a: CalendarDate, b: CalendarDate)
    requires Ordinal(a) == Ordinal(b)
    ensures a == b
  {
    if DateBefore(a, b) {
      OrdinalMonotone(a, b);
    } else if DateBefore(b, a) {
      OrdinalMonotone(b, a);
    }
  }

  /** `YYYY-MM-DD` with every other position a decimal digit. */
  predicate FullDateShape(s: string) {
    && |s| == 10
    && s[4] == '-' && s[7] == '-'
    && AllDigits(s[0..4]) && AllDigits(s[5..7]) && AllDigits(s[8..10])
  }

  /** RFC 3339 `full-date`, as `datetime.fromisoformat` reads it: the date, or `None`. */
  function ParseFullDate(s: string): Option<CalendarDate> {
    if FullDateShape(s) then
      MakeDate(DigitsValue(s[0..4]), DigitsValue(s[5..7]), DigitsValue(s[8..10]))
    else None
  }

  /** `date.strftime('%Y-%m-%d')` for the four-digit years Python supports. */
  function FormatFullDate(d: CalendarDate): (r: string)
    ensures FullDateShape(r)
  {
    var r := PadDigits(d.year, 4) + "-" + PadDigits(d.month, 2) + "-" + PadDigits(d.day, 2);
    assert r[0..4] == PadDigits(d.year, 4);
    assert r[5..7] == PadDigits(d.month, 2);
    assert r[8..10] == PadDigits(d.day, 2);
    r
  }

  /** Formatting a date and reading it back gives the same date. */
  lemma FullDateRoundTrip(d: CalendarDate)
    ensures ParseFullDate(FormatFullDate(d)) == Some(d)
  {
    var r := FormatFullDate(d);
    assert r[0..4] == PadDigits(d.year, 4);
    assert r[5..7] == PadDigits(d.month, 2);
    assert r[8..10] == PadDigits(d.day, 2);
    assert Pow10(4) == 10000 && Pow10(2) == 100;
    PadDigitsValue(d.year, 4);
    PadDigitsValue(d.month, 2);
    PadDigitsValue(d.day, 2);
  }

  /** Zero-padding the value of a digit string of the same width gives the string back. */
  lemma {:induction false} PadDigitsOfValue(s: string)
    requires AllDigits(s)
    ensures PadDigits(DigitsValue(s), |s|) == s
  {
    if s != [] {
      var p := s[..|s| - 1];
      var v := DigitsValue(s);
      assert v / 10 == DigitsValue(p) && v % 10 == DigitValue(s[|s| - 1]);
      PadDigitsOfValue(p);
      assert s == p + [s[|s| - 1]];
    }
  }

  lemma SplitFullDate(s: string)
    requires FullDateShape(s)
    ensures s == s[0..4] + "-" + s[5..7] + "-" + s[8..10]
  {
  }

  /** Every text the parser accepts is the canonical text of the date it yields. */
  lemma FullDateCanonical(s: string, d: CalendarDate)
    requires ParseFullDate(s) == Some(d)
    ensures FormatFullDate(d) == s
  {
    var ys, ms, ds := s[0..4], s[5..7], s[8..10];
    assert d == Date(DigitsValue(ys), DigitsValue(ms), DigitsValue(ds));
    PadDigitsOfValue(ys);
    PadDigitsOfValue(ms);
    PadDigitsOfValue(ds);
    SplitFullDate(s);
  }
}

=== FILE: clinical_trials.dfy ===
/**
 * The clinical-trials ingestion: turning one registry study (the JSON object
 * of the registry's v2 API) into a `Study`, reading its primary completion
 * date, the phase and date-window screen, and the insert-or-ignore on
 * `nctid` into the `clinical_trials` table.
 *
 * A registry study is given with each looked-up key present or absent; an
 * absent module or key reads as the default the code passes to `get`.
 */
module ClinicalTrials {
  import opened Wrappers
  import opened Text
  import opened Calendar
  import opened Studies

  /** The fields `parse_study` looks up; `None` where the key (or its module) is absent. */
  datatype RegistryStudy = RegistryStudy(
    nctId: Option<string>,
    briefTitle: Option<string>,
    phases: Option<seq<string>>,
    primaryCompletionDate: Option<string>,
    leadSponsorName: Option<string>,
    conditions: Option<seq<string>>)

  // ---------------------------------------------------------------------
  // `parse_date`

  /**
   * `datetime.fromisoformat(s.split("T")[0])`, or `None` where it raises:
   * the text before the first `T` must be an RFC 3339 `full-date`.
   */
  function ParseDate(s: string): (r: Option<CalendarDate>)
    ensures r.Some? ==> FormatFullDate(r.value) == Before(s, 'T')
  {
    var r := ParseFullDate(Before(s, 'T'));
    if r.Some? then FullDateCanonical(Before(s, 'T'), r.value); r else r
  }

  /** A date is read exactly when the text before the first `T` is that date's canonical text. */
  lemma ParseDateExact(s: string, d: CalendarDate)
    ensures ParseDate(s) == Some(d) <==> Before(s, 'T') == FormatFullDate(d)
  {
    if ParseDate(s) == Some(d) {
      FullDateCanonical(Before(s, 'T'), d);
    }
    if Before(s, 'T') == FormatFullDate(d) {
      FullDateRoundTrip(d);
    }
  }

  /** A date followed by a time part (`T...`) reads as the date. */
  lemma ParseDateWithTime(d: CalendarDate, time: string)
    requires time == [] || time[0] == 'T'
    ensures ParseDate(FormatFullDate(d) + time) == Some(d)
  {
    var f := FormatFullDate(d);
    assert 'T' !in f by {
      assert forall i :: 0 <= i < |f| ==> f[i] == '-' || IsDigit(f[i]) by {
        assert f[0..4] == f[..4] && f[5..7] == f[5..][..2] && f[8..10] == f[8..];
        forall i | 0 <= i < |f|
          ensures f[i] == '-' || IsDigit(f[i])
        {
          if i < 4 {
            assert f[i] == f[0..4][i];
          } else if 5 <= i < 7 {
            assert f[i] == f[5..7][i - 5];
          } else if 8 <= i {
            assert f[i] == f[8..10][i - 8];
          }
        }
      }
    }
    BeforeConcat(f, time, 'T');
    FullDateRoundTrip(d);
  }

  // ---------------------------------------------------------------------
  // `parse_study`

  /**
   * `re.match(r"^\d{4}-\d{2}$", s)`: four digits, a hyphen, two digits,
   * where `$` also matches just before a final newline.
   */
  predicate YearMonthShape(s: string) {
    var core := if |s| == 8 && s[7] == '\n' then s[..7] else s;
    && |core| == 7
    && AllDigits(core[0..4]) && core[4] == '-' && AllDigits(core[5..7])
  }

  /** The completion-date text after a `YYYY-MM` value is padded to the first of the month. */
  function PaddedDate(s: string): (r: string)
    ensures YearMonthShape(s) ==> r == s + "-01"
    ensures !YearMonthShape(s) ==> r == s
  {
    if YearMonthShape(s) then s + "-01" else s
  }

  /** The first listed phase, or the empty string. */
  function FirstPhase(raw: RegistryStudy): string {
    var phases := raw.phases.GetOr([]);
    if phases != [] then phases[0] else ""
  }

  /** The completion-date text, empty when absent. */
  function DateText(raw: RegistryStudy): string {
    raw.primaryCompletionDate.GetOr("")
  }

  /** `parse_study` */
  function ParseStudy(raw: RegistryStudy): (r: Option<Study>)
    ensures r.Some? <==> FirstPhase(raw) != "" && DateText(raw) != ""
    ensures r.Some? ==> r.value.phase == raw.phases.value[0]
  {
    var phase := FirstPhase(raw);
    var pcdText := PaddedDate(DateText(raw));
    if phase == "" || pcdText == "" then None
    else
      Some(Study(
        nctid := raw.nctId.GetOr(""),
        title := raw.briefTitle.GetOr(""),
        phase := phase,
        pcd := ParseDate(pcdText),
        primarySponsor := raw.leadSponsorName.GetOr(""),
        conditions := Join(raw.conditions.GetOr([]), ", ")))
  }

  /**
   * No study exactly when the phase list is empty or absent, or the date
   * text is empty or absent; an unreadable date does not drop the study.
   */
  lemma ParseStudyNone(raw: RegistryStudy)
    ensures ParseStudy(raw).None? <==>
              raw.phases.GetOr([]) == [] || raw.phases.GetOr([])[0] == "" || DateText(raw) == ""
  {
  }

  /** A parsed study carries the looked-up fields, defaults for absent ones, and the date read from the padded text. */
  lemma ParseStudyFields(raw: RegistryStudy)
    requires ParseStudy(raw).Some?
    ensures var s := ParseStudy(raw).value;
      && s.nctid == raw.nctId.GetOr("")
      && s.title == raw.briefTitle.GetOr("")
      && s.phase == raw.phases.value[0]
      && s.primarySponsor == raw.leadSponsorName.GetOr("")
      && s.conditions == Join(raw.conditions.GetOr([]), ", ")
      && (s.pcd.Some? <==> exists d: CalendarDate :: Before(PaddedDate(DateText(raw)), 'T') == FormatFullDate(d))
  {
    var t := PaddedDate(DateText(raw));
    var s := ParseStudy(raw).value;
    if s.pcd.Some? {
      ParseDateExact(t, s.pcd.value);
    }
    if exists d: CalendarDate :: Before(t, 'T') == FormatFullDate(d) {
      var d: CalendarDate :| Before(t, 'T') == FormatFullDate(d);
      ParseDateExact(t, d);
    }
  }

  /** A `YYYY-MM` completion date becomes the first day of that month, when the month is valid. */
  lemma YearMonthIsFirstOfMonth(raw: RegistryStudy, y: string, m: string)
    requires FirstPhase(raw) != ""
    requires |y| == 4 && |m| == 2 && AllDigits(y) && AllDigits(m)
    requires DateText(raw) == y + "-" + m
    ensures ParseStudy(raw).Some?
    ensures ParseStudy(raw).value.pcd == MakeDate(DigitsValue(y), DigitsValue(m), 1)
  {
    var s := y + "-" + m;
    assert s[0..4] == y && s[5..7] == m;
    assert YearMonthShape(s);
    var t := s + "-01";
    assert PaddedDate(s) == t;
    assert 'T' !in t by {
      assert forall i :: 0 <= i < |t| ==> t[i] == '-' || IsDigit(t[i]) by {
        forall i | 0 <= i < |t|
          ensures t[i] == '-' || IsDigit(t[i])
        {
          if i < 4 {
            assert t[i] == y[i];
          } else if 5 <= i < 7 {
            assert t[i] == m[i - 5];
          }
        }
      }
    }
    BeforeConcat(t, [], 'T');
    assert t + [] == t;
    assert t[0..4] == y && t[5..7] == m && t[8..10] == "01";
    assert DigitsValue("01") == 1 by {
      assert "01"[..1] == "0";
      assert "0"[..0] == "";
    }
  }

  // ---------------------------------------------------------------------
  // The screen in `fetch_upcoming_trials_v2`

  /** The phases written to the table. */
  const TrialPhases: set<string> := {"PHASE2", "PHASE3", "PHASE2/PHASE3"}

  /**
   * What the fetch loop does with one parsed study: write it, skip it, or
   * raise `TypeError` comparing a missing date with `TODAY`, which ends the
   * whole fetch. An end of window past `datetime.max` raises too.
   */
  datatype Screen = Write | Skip | Crash

  function ScreenStudy(s: Study, today: int, windowDays: nat): (r: Screen)
    ensures r == Write ==> s.phase in TrialPhases && s.pcd.Some? && today <= Midnight(s.pcd.value) <= today + windowDays * TicksPerDay
    ensures r == Crash ==> s.phase in TrialPhases
    ensures s.phase !in TrialPhases ==> r == Skip
  {
    if s.phase !in TrialPhases then Skip
    else if s.pcd.None? then Crash
    else if today + windowDays * TicksPerDay > MaxInstant then
      (if today <= Midnight(s.pcd.value) then Crash else Skip)
    else if today <= Midnight(s.pcd.value) <= today + windowDays * TicksPerDay then Write
    else Skip
  }

  /** A study is written exactly when its phase is a trial phase and its date falls within the window. */
  lemma ScreenWriteIff(s: Study, today: int, windowDays: nat)
    requires today + windowDays * TicksPerDay <= MaxInstant
    ensures ScreenStudy(s, today, windowDays) == Write <==>
              && s.phase in TrialPhases
              && s.pcd.Some?
              && today <= Midnight(s.pcd.value)
              && Midnight(s.pcd.value) <= today + windowDays * TicksPerDay
  {
  }

  /** Only a trial-phase study without a date (or a window past the last instant) ends the fetch. */
  lemma ScreenCrashIff(s: Study, today: int, windowDays: nat)
    requires today + windowDays * TicksPerDay <= MaxInstant
    ensures ScreenStudy(s, today, windowDays) == Crash <==> s.phase in TrialPhases && s.pcd.None?
  {
  }

  // ---------------------------------------------------------------------
  // The `clinical_trials` table and `write_to_db`

  /**
   * The stored columns besides the unique `nctid`. `primary_sponsor_ticker`
   * is never filled by this code; `traded` takes its column default, FALSE.
   */
  datatype StudyRow = StudyRow(
    title: string,
    phase: string,
    pcd: Option<CalendarDate>,
    primarySponsor: string,
    sponsorTicker: Option<string>,
    conditions: string,
    traded: bool)

  type StudyTable = map<string, StudyRow>

  function NewStudyRow(s: Study): StudyRow {
    StudyRow(s.title, s.phase, s.pcd, s.primarySponsor, None, s.conditions, false)
  }

  /** `INSERT ... ON CONFLICT (nctid) DO NOTHING` */
  function InsertStudy(t: StudyTable, s: Study): (r: StudyTable)
    ensures r.Keys == t.Keys + {s.nctid}
    ensures s.nctid in t ==> r[s.nctid] == t[s.nctid]
    ensures s.nctid !in t ==> r[s.nctid] == NewStudyRow(s) && !r[s.nctid].traded
  {
    if s.nctid in t then t else t[s.nctid := NewStudyRow(s)]
  }

  /** Of two studies with the same `nctid`, the first one written keeps the row. */
  lemma InsertStudyFirstWins(t: StudyTable, a: Study, b: Study)
    requires a.nctid == b.nctid
    ensures InsertStudy(InsertStudy(t, a), b) == InsertStudy(t, a)
    ensures a.nctid !in t ==> InsertStudy(InsertStudy(t, a), b)[a.nctid] == NewStudyRow(a)
  {
  }

  /** The outcome of a fetch: the table, and whether the loop ended by raising. */
  datatype Ingest = Ingest(table: StudyTable, crashed: bool)

  /** The per-study loop of `fetch_upcoming_trials_v2` over the studies of one response, in order. */
  function IngestStudies(t: StudyTable, raws: seq<RegistryStudy>, today: int, windowDays: nat): (r: Ingest)
    ensures t.Keys <= r.table.Keys
    decreases |raws|
  {
    if raws == [] then Ingest(t, false)
    else
      match ParseStudy(raws[0])
      case None => IngestStudies(t, raws[1..], today, windowDays)
      case Some(s) =>
        match ScreenStudy(s, today, windowDays)
        case Skip => IngestStudies(t, raws[1..], today, windowDays)
        case Crash => Ingest(t, true)
        case Write => IngestStudies(InsertStudy(t, s), raws[1..], today, windowDays)
  }

  /** The studies the loop writes when it meets no crash, in order. */
  predicate Written(raw: RegistryStudy, today: int, windowDays: nat) {
    ParseStudy(raw).Some? && ScreenStudy(ParseStudy(raw).value, today, windowDays) == Write
  }

  /** Study `i` of the list was written and its fresh row is stored under `k`. */
  predicate RowFrom(raws: seq<RegistryStudy>, i: int, today: int, windowDays: nat, k: string, row: StudyRow) {
    && 0 <= i < |raws|
    && Written(raws[i], today, windowDays)
    && ParseStudy(raws[i]).value.nctid == k
    && row == NewStudyRow(ParseStudy(raws[i]).value)
  }

  /** Every row of `r` that is not in `t` is the fresh row of a written study of the list. */
  ghost predicate AddedFrom(t: StudyTable, r: StudyTable, raws: seq<RegistryStudy>, today: int, windowDays: nat) {
    forall k :: k in r && k !in t ==> exists i :: RowFrom(raws, i, today, windowDays, k, r[k])
  }

  /**
   * Insert-or-ignore: rows already stored keep their values, and every row
   * the fetch adds is a fresh row of a study that passed the screen.
   */
  lemma {:induction false} IngestKeepsRows(t: StudyTable, raws: seq<RegistryStudy>, today: int, windowDays: nat)
    ensures var r := IngestStudies(t, raws, today, windowDays).table;
      (forall k :: k in t ==> k in r && r[k] == t[k]) && AddedFrom(t, r, raws, today, windowDays)
    decreases |raws|
  {
    if raws != [] {
      var tail := raws[1..];
      var r := IngestStudies(t, raws, today, windowDays).table;
      var s := ParseStudy(raws[0]);
      if s.Some? && ScreenStudy(s.value, today, windowDays) == Write {
        var t1 := InsertStudy(t, s.value);
        IngestKeepsRows(t1, tail, today, windowDays);
        AddedShift(t1, r, raws, today, windowDays);
        AddedFirst(t, t1, r, raws, today, windowDays);
      } else if s.Some? && ScreenStudy(s.value, today, windowDays) == Crash {
      } else {
        IngestKeepsRows(t, tail, today, windowDays);
        AddedShift(t, r, raws, today, windowDays);
      }
    }
  }

  /**
   * The converse of `IngestKeepsRows`: every study that passes the screen
   * is stored, unless a crash ended the fetch before it. So a fetch that
   * did not raise stores every study of the list that passes the screen.
   */
  lemma {:induction false} IngestWritesAll(t: StudyTable, raws: seq<RegistryStudy>, today: int, windowDays: nat)
    ensures forall i :: 0 <= i < |raws| && Written(raws[i], today, windowDays)
                          && !IngestStudies(t, raws[..i], today, windowDays).crashed ==>
              ParseStudy(raws[i]).value.nctid in IngestStudies(t, raws, today, windowDays).table
    ensures !IngestStudies(t, raws, today, windowDays).crashed ==>
              forall i :: 0 <= i < |raws| && Written(raws[i], today, windowDays) ==>
                ParseStudy(raws[i]).value.nctid in IngestStudies(t, raws, today, windowDays).table
    decreases |raws|
  {
    if raws != [] {
      var tail := raws[1..];
      var s := ParseStudy(raws[0]);
      var crash := s.Some? && ScreenStudy(s.value, today, windowDays) == Crash;
      var t1 := if s.Some? && ScreenStudy(s.value, today, windowDays) == Write then InsertStudy(t, s.value) else t;
      var r := IngestStudies(t, raws, today, windowDays);
      if !crash {
        assert r == IngestStudies(t1, tail, today, windowDays);
        IngestWritesAll(t1, tail, today, windowDays);
      }
      forall i | 0 <= i < |raws| && Written(raws[i], today, windowDays)
                 && !IngestStudies(t, raws[..i], today, windowDays).crashed
        ensures ParseStudy(raws[i]).value.nctid in r.table
      {
        if i == 0 {
          assert t1.Keys <= r.table.Keys;
        } else {
          IngestPrefix(t, raws, i, today, windowDays);
          assert tail[i - 1] == raws[i];
        }
      }
      if !r.crashed {
        forall i | 0 <= i < |raws| && Written(raws[i], today, windowDays)
          ensures ParseStudy(raws[i]).value.nctid in r.table
        {
          if i == 0 {
            assert t1.Keys <= r.table.Keys;
          } else {
            assert tail[i - 1] == raws[i];
          }
        }
      }
    }
  }

  /** A prefix of the list runs its head first, like the whole list. */
  lemma IngestPrefix(t: StudyTable, raws: seq<RegistryStudy>, i: nat, today: int, windowDays: nat)
    requires 0 < i <= |raws|
    ensures var s := ParseStudy(raws[0]);
            var t1 := if s.Some? && ScreenStudy(s.value, today, windowDays) == Write then InsertStudy(t, s.value) else t;
            IngestStudies(t, raws[..i], today, windowDays) ==
              if s.Some? && ScreenStudy(s.value, today, windowDays) == Crash then Ingest(t, true)
              else IngestStudies(t1, raws[1..][..i - 1], today, windowDays)
  {
    var pre := raws[..i];
    assert pre[0] == raws[0] && pre[1..] == raws[1..][..i - 1];
  }

  /** A row added by the tail of the list was added by the list. */
  lemma AddedShift(t: StudyTable, r: StudyTable, raws: seq<RegistryStudy>, today: int, windowDays: nat)
    requires raws != [] && AddedFrom(t, r, raws[1..], today, windowDays)
    ensures AddedFrom(t, r, raws, today, windowDays)
  {
    forall k | k in r && k !in t
      ensures exists i :: RowFrom(raws, i, today, windowDays, k, r[k])
    {
      var i :| RowFrom(raws[1..], i, today, windowDays, k, r[k]);
      assert raws[1..][i] == raws[i + 1];
      assert RowFrom(raws, i + 1, today, windowDays, k, r[k]);
    }
  }

  /** The head of the list, when written, accounts for the one row it inserts. */
  lemma AddedFirst(t: StudyTable, t1: StudyTable, r: StudyTable, raws: seq<RegistryStudy>, today: int, windowDays: nat)
    requires raws != [] && Written(raws[0], today, windowDays)
    requires t1 == InsertStudy(t, ParseStudy(raws[0]).value)
    requires forall k :: k in t1 ==> k in r && r[k] == t1[k]
    requires AddedFrom(t1, r, raws, today, windowDays)
    ensures AddedFrom(t, r, raws, today, windowDays)
  {
    var s := ParseStudy(raws[0]).value;
    forall k | k in r && k !in t
      ensures exists i :: RowFrom(raws, i, today, windowDays, k, r[k])
    {
      if k == s.nctid {
        assert RowFrom(raws, 0, today, windowDays, k, r[k]);
      }
    }
  }

  /** A trial-phase study without a date: the study the fetch loop raises on. */
  predicate CrashesOn(raw: RegistryStudy) {
    ParseStudy(raw).Some? && ParseStudy(raw).value.phase in TrialPhases && ParseStudy(raw).value.pcd.None?
  }

  /**
   * A crash ends the fetch at the first trial-phase study without a date:
   * the table is what the studies before it wrote, and nothing after it is written.
   */
  lemma {:induction false} IngestCrashStops(t: StudyTable, raws: seq<RegistryStudy>, today: int, windowDays: nat)
    returns (i: nat)
    requires today + windowDays * TicksPerDay <= MaxInstant
    requires IngestStudies(t, raws, today, windowDays).crashed
    ensures i < |raws| && CrashesOn(raws[i])
    ensures !IngestStudies(t, raws[..i], today, windowDays).crashed
    ensures IngestStudies(t, raws, today, windowDays) == Ingest(IngestStudies(t, raws[..i], today, windowDays).table, true)
    decreases |raws|
  {
    var tail := raws[1..];
    var s := ParseStudy(raws[0]);
    if s.Some? && ScreenStudy(s.value, today, windowDays) == Crash {
      ScreenCrashIff(s.value, today, windowDays);
      i := 0;
      assert raws[..0] == [];
    } else {
      var t1 := if s.Some? && ScreenStudy(s.value, today, windowDays) == Write then InsertStudy(t, s.value) else t;
      assert IngestStudies(t, raws, today, windowDays) == IngestStudies(t1, tail, today, windowDays);
      var j := IngestCrashStops(t1, tail, today, windowDays);
      i := j + 1;
      var pre := raws[..i];
      assert pre[0] == raws[0] && pre[1..] == tail[..j];
      assert IngestStudies(t, pre, today, windowDays) == IngestStudies(t1, tail[..j], today, windowDays);
      assert tail[j] == raws[i];
    }
  }

  /** A study that reaches the table has a trial phase and a date inside the window. */
  lemma WrittenInWindow(raw: RegistryStudy, today: int, windowDays: nat)
    requires today + windowDays * TicksPerDay <= MaxInstant
    requires Written(raw, today, windowDays)
    ensures var s := ParseStudy(raw).value;
      && s.phase in TrialPhases && s.pcd.Some?
      && today <= Midnight(s.pcd.value) <= today + windowDays * TicksPerDay
  {
    ScreenWriteIff(ParseStudy(raw).value, today, windowDays);
  }
}

=== FILE: clinical_trials_tags.dfy ===
/**
 * Search phrases for the clinical-trials registry, generated from a company
 * name by deleting corporate suffixes, and attached to a company.
 *
 * `list(set(...))` leaves the order of the phrases to the set's iteration
 * order, so the generator is a set here, and attaching it takes the list the
 * set happened to produce.
 */
module TrialSearchTags {
  import opened Wrappers
  import opened Text
  import opened Companies

  /** The company name with the suffixes deleted, in the order the code deletes them, and every comma removed. */
  function CleanName(name: string): (r: string)
    ensures ',' !in r
  {
    var s := Replace(name, " Inc.", "");
    var s := Replace(s, " Corporation", "");
    var s := Replace(s, " Pharmaceuticals", "");
    var s := Replace(s, " Therapeutics", "");
    var s := Replace(s, " AG", "");
    var s := Replace(s, " Plc", "");
    ReplaceRemovesChar(s, ',');
    Replace(s, ",", "")
  }

  /** A name the generator works on: present, not empty, and not the "N/A" placeholder. */
  predicate UsableName(name: Option<string>) {
    name.Some? && name.value != "" && name.value != "N/A"
  }

  /** `get_clinical_trials_search_phrases`, as the set its result lists. */
  function SearchPhrases(name: Option<string>): (r: set<string>)
    ensures r == {} <==> !UsableName(name)
    ensures UsableName(name) ==> CleanName(name.value) in r && forall p :: p in r ==> StartsWith(p, CleanName(name.value))
  {
    if !UsableName(name) then {}
    else
      var clean := CleanName(name.value);
      {clean}
      + (if Contains(name.value, "Pharmaceuticals") then {clean + " Pharma"} else {})
      + (if Contains(name.value, "Therapeutics") then {clean + " Tx"} else {})
  }

  /**
   * No phrases for an absent, empty or "N/A" name; otherwise the cleaned
   * name is a phrase, the "Pharma" form is one exactly when the name says
   * "Pharmaceuticals", the "Tx" form exactly when it says "Therapeutics",
   * and there is nothing else.
   */
  lemma SearchPhrasesContents(name: Option<string>)
    ensures !UsableName(name) <==> SearchPhrases(name) == {}
    ensures UsableName(name) ==>
              var clean := CleanName(name.value);
              var ps := SearchPhrases(name);
              && clean in ps
              && (clean + " Pharma" in ps <==> Contains(name.value, "Pharmaceuticals"))
              && (clean + " Tx" in ps <==> Contains(name.value, "Therapeutics"))
              && (forall p :: p in ps ==> p == clean || p == clean + " Pharma" || p == clean + " Tx")
              && |ps| <= 3
  {
    if UsableName(name) {
      var clean := CleanName(name.value);
      assert clean + " Pharma" != clean && clean + " Pharma" != clean + " Tx" by {
        assert |clean + " Pharma"| != |clean| && |clean + " Pharma"| != |clean + " Tx"|;
      }
      assert clean + " Tx" != clean by {
        assert |clean + " Tx"| != |clean|;
      }
      var ps := SearchPhrases(name);
      assert ps <= {clean, clean + " Pharma", clean + " Tx"};
      SetSizeBound(ps, clean, clean + " Pharma", clean + " Tx");
    }
  }

  lemma SetSizeBound<T>(s: set<T>, a: T, b: T, c: T)
    requires s <= {a, b, c}
    ensures |s| <= 3
  {
    var all := {a, b, c};
    assert |all| <= 3;
    SubsetSize(s, all);
  }

  lemma {:induction false} SubsetSize<T>(s: set<T>, t: set<T>)
    requires s <= t
    ensures |s| <= |t|
    decreases t
  {
    if s != {} {
      var x :| x in s;
      SubsetSize(s - {x}, t - {x});
    }
  }

  /** No phrase contains a comma: the cleaned name has none, and neither added suffix brings one. */
  lemma PhrasesHaveNoComma(name: Option<string>)
    ensures forall p :: p in SearchPhrases(name) ==> ',' !in p
  {
    if UsableName(name) {
      var clean := CleanName(name.value);
      SearchPhrasesContents(name);
      assert ',' !in clean + " Pharma" by {
        assert forall i :: 0 <= i < |clean| ==> (clean + " Pharma")[i] == clean[i];
      }
      assert ',' !in clean + " Tx" by {
        assert forall i :: 0 <= i < |clean| ==> (clean + " Tx")[i] == clean[i];
      }
    }
  }

  /** `list` is one duplicate-free listing of the set `s`. */
  predicate Enumerates(list: seq<string>, s: set<string>) {
    |list| == |s| && (forall p :: p in list ==> p in s) && (forall p :: p in s ==> p in list)
  }

  /**
   * `enhance_with_clinical_trials_tags` without its file read: the company
   * gets the generated phrases, in the order `listing` gives them.
   */
  function Enhance(c: Company, listing: seq<string>): (r: Company)
    requires Enumerates(listing, SearchPhrases(Some(c.companyName)))
    ensures r.searchPhrases == listing && |r.searchPhrases| == |SearchPhrases(Some(c.companyName))|
    ensures r.companyName == c.companyName && r.ticker == c.ticker
  {
    SetSearchPhrases(c, listing)
  }

  /**
   * The enhanced company is the same company with the generated phrases:
   * its phrases are exactly the generator's, its primary phrase is one of
   * them (or the name when there are none), and nothing else changes.
   */
  lemma EnhanceSetsPhrases(c: Company, listing: seq<string>)
    requires Enumerates(listing, SearchPhrases(Some(c.companyName)))
    ensures var r := Enhance(c, listing);
      && (forall p :: p in GetSearchPhrases(r) <==> p in SearchPhrases(Some(c.companyName)))
      && (r.searchPhrases != [] ==> r.primarySearchPhrase in SearchPhrases(Some(c.companyName)))
      && (SearchPhrases(Some(c.companyName)) == {} ==> r.primarySearchPhrase == c.companyName)
      && r.(searchPhrases := c.searchPhrases, primarySearchPhrase := c.primarySearchPhrase) == c
  {
    if SearchPhrases(Some(c.companyName)) == {} {
      assert listing == [];
    }
  }
}

=== FILE: company.dfy ===
/** A listed company with its screening flags and its clinical-trial search phrases. */
module Companies {

  /** Market capitalisation is kept in whole dollars. */
  datatype Company = Company(
    ticker: string,
    companyName: string,
    sector: string,
    industry: string,
    exchange: string,
    marketCap: int,
    marketCapCategory: string,
    alpacaTradable: bool,
    alpacaShortable: bool,
    alpacaMarginable: bool,
    alpacaFractionable: bool,
    searchPhrases: seq<string>,
    primarySearchPhrase: string)

  /** The constructor: category and flags have defaults, the phrase fields always start empty. */
  function NewCompany(
    ticker: string, companyName: string, sector: string, industry: string, exchange: string,
    marketCap: int, marketCapCategory: string := "Unknown",
    alpacaTradable: bool := false, alpacaShortable: bool := false,
    alpacaMarginable: bool := false, alpacaFractionable: bool := false): (c: Company)
    ensures c.searchPhrases == [] && c.primarySearchPhrase == ""
    ensures c.ticker == ticker && c.companyName == companyName && c.marketCap == marketCap
    ensures c.sector == sector && c.industry == industry && c.exchange == exchange
    ensures c.marketCapCategory == marketCapCategory
    ensures c.alpacaTradable == alpacaTradable && c.alpacaShortable == alpacaShortable
    ensures c.alpacaMarginable == alpacaMarginable && c.alpacaFractionable == alpacaFractionable
  {
    Company(ticker, companyName, sector, industry, exchange, marketCap, marketCapCategory,
            alpacaTradable, alpacaShortable, alpacaMarginable, alpacaFractionable, [], "")
  }

  /** Without the optional arguments the category is "Unknown" and every flag is off. */
  lemma NewCompanyDefaults(ticker: string, companyName: string, sector: string, industry: string, exchange: string, marketCap: int)
    ensures var c := NewCompany(ticker, companyName, sector, industry, exchange, marketCap);
            && c.marketCapCategory == "Unknown"
            && !c.alpacaTradable && !c.alpacaShortable && !c.alpacaMarginable && !c.alpacaFractionable
            && c.searchPhrases == [] && c.primarySearchPhrase == ""
  {
  }

  /** Stores the phrases as given; the primary phrase is the first one, or the company name when there are none. */
  function SetSearchPhrases(c: Company, phrases: seq<string>): (r: Company)
    ensures r.searchPhrases == phrases
    ensures phrases != [] ==> r.primarySearchPhrase == phrases[0]
    ensures phrases == [] ==> r.primarySearchPhrase == c.companyName
    ensures r.(searchPhrases := c.searchPhrases, primarySearchPhrase := c.primarySearchPhrase) == c
  {
    c.(searchPhrases := phrases, primarySearchPhrase := if phrases != [] then phrases[0] else c.companyName)
  }

  function GetSearchPhrases(c: Company): seq<string> {
    c.searchPhrases
  }

  /** Reading the phrases back gives what was last set, whatever was set before. */
  lemma SetThenGet(c: Company, first: seq<string>, phrases: seq<string>)
    ensures GetSearchPhrases(SetSearchPhrases(c, phrases)) == phrases
    ensures SetSearchPhrases(SetSearchPhrases(c, first), phrases) == SetSearchPhrases(c, phrases)
  {
  }

  /** The primary phrase is always one of the phrases, or the name when the list is empty. */
  lemma PrimaryPhraseIsKnown(c: Company, phrases: seq<string>)
    ensures var r := SetSearchPhrases(c, phrases);
            r.primarySearchPhrase in r.searchPhrases || (phrases == [] && r.primarySearchPhrase == r.companyName)
  {
  }
}

=== FILE: dashboard.dfy ===
/**
 * The dashboard's reading of broker positions: the OCC option symbol in its
 * unpadded-root form (root, `YYMMDD`, `C`/`P`, strike in thousandths of a
 * dollar), the test that tells an option position from a stock position, and
 * the payoff at expiry the payoff diagram plots.
 *
 * Prices are integer millidollars, and "today" is a day number
 * (`date.toordinal()`), because the dashboard reads the clock.
 */
module Dashboard {
  import opened Wrappers
  import opened Text
  import opened Calendar

  /**
   * Where the scan for the root's end stops: the index of the first digit,
   * or 0 when the symbol has none (the loop leaves its start value).
   */
  function UnderlyingEnd(s: string): (i: nat)
    ensures i <= |s|
    ensures (exists j :: 0 <= j < |s| && IsDigit(s[j])) ==> i < |s| && IsDigit(s[i])
    ensures (forall j :: 0 <= j < |s| ==> !IsDigit(s[j])) ==> i == 0
    ensures forall j :: 0 <= j < i ==> !IsDigit(s[j])
  {
    match FirstDigit(s)
    case Some(i) => i
    case None => 0
  }

  function FirstDigit(s: string): (r: Option<nat>)
    ensures r.Some? ==> r.value < |s| && IsDigit(s[r.value]) && forall j :: 0 <= j < r.value ==> !IsDigit(s[j])
    ensures r.None? ==> forall j :: 0 <= j < |s| ==> !IsDigit(s[j])
  {
    if s == [] then None
    else if IsDigit(s[0]) then Some(0)
    else match FirstDigit(s[1..])
      case Some(i) => Some(i + 1)
      case None => None
  }

  datatype OptionKind = Call | Put

  /** What `parse_option_symbol` returns; the strike is the number of thousandths the symbol states. */
  datatype ParsedOption = ParsedOption(
    underlying: string,
    expiration: CalendarDate,
    kind: OptionKind,
    strikeMillis: int,
    daysToExpiration: int)

  /**
   * `AlpacaDataManager.parse_option_symbol`. A symbol shorter than 15
   * characters, a date field `int` rejects, a date `datetime` rejects, a
   * missing type character or a strike text that does not read as a number
   * gives `None`, where the dashboard reports the exception and returns `None`.
   */
  function ParseOptionSymbol(symbol: string, today: int): (r: Option<ParsedOption>)
    ensures |symbol| < 15 ==> r.None?
    ensures r.Some? ==>
      && |r.value.underlying| < |symbol|
      && symbol[..|r.value.underlying|] == r.value.underlying
      && (forall j :: 0 <= j < |r.value.underlying| ==> !IsDigit(r.value.underlying[j]))
      && r.value.daysToExpiration == Ordinal(r.value.expiration) - today
  {
    if |symbol| < 15 then None
    else
      var cut := UnderlyingEnd(symbol);
      var underlying := symbol[..cut];
      var remainder := symbol[cut..];
      ParseRemainder(underlying, remainder, today)
  }

  /** Everything after the root: the date fields, the type character and the strike. */
  function ParseRemainder(underlying: string, remainder: string, today: int): (r: Option<ParsedOption>)
    ensures r.Some? ==> r.value.underlying == underlying && r.value.daysToExpiration == Ordinal(r.value.expiration) - today
  {
    match ParseExpiration(remainder)
    case None => None
    case Some(exp) =>
      if |remainder| <= 6 then None
      else
        var kind := if remainder[6] == 'C' then Call else Put;
        match PyInt(Drop(remainder, 7))
        case None => None
        case Some(strike) => Some(ParsedOption(underlying, exp, kind, strike, Ordinal(exp) - today))
  }

  /** The first six characters as `YYMMDD` in the 2000s: each field read by `int`, then checked by `datetime`. */
  function ParseExpiration(remainder: string): Option<CalendarDate> {
    var dateText := Slice(remainder, 0, 6);
    ExpirationOf(PyInt(Slice(dateText, 0, 2)), PyInt(Slice(dateText, 2, 4)), PyInt(Slice(dateText, 4, 6)))
  }

  /** The date the three fields name, when all three read and `datetime` accepts them. */
  function ExpirationOf(yy: Option<int>, mm: Option<int>, dd: Option<int>): Option<CalendarDate> {
    if yy.None? || mm.None? || dd.None? then None
    else MakeDate(2000 + yy.value, mm.value, dd.value)
  }

  /** The symbol the broker issues: root, two-digit year, month, day, `C` or `P`, and the strike's thousandths in eight digits. */
  function EncodeOptionSymbol(root: string, exp: CalendarDate, kind: OptionKind, strikeMillis: nat): (r: string)
    requires 2000 <= exp.year <= 2099
    ensures |r| == |root| + 15
  {
    root + DateDigits(exp) + [if kind == Call then 'C' else 'P'] + PadDigits(strikeMillis, 8)
  }

  function DateDigits(exp: CalendarDate): (r: string)
    requires 2000 <= exp.year <= 2099
    ensures |r| == 6 && AllDigits(r)
  {
    PadDigits(exp.year - 2000, 2) + PadDigits(exp.month, 2) + PadDigits(exp.day, 2)
  }

  /** A two-digit field reads back as its value. */
  lemma TwoDigits(n: nat)
    requires n < 100
    ensures PyInt(PadDigits(n, 2)) == Some(n)
  {
    assert Pow10(2) == 100;
    PadDigitsValue(n, 2);
    PyIntOfDigits(PadDigits(n, 2));
  }

  /**
   * Encoding a root without digits, an expiration in the 2000s, a type and a
   * strike below 100 000 dollars, and parsing the symbol back, gives the
   * same root, expiration, type and strike.
   */
  lemma ParseEncodeRoundTrip(root: string, exp: CalendarDate, kind: OptionKind, strikeMillis: nat, today: int)
    requires forall j :: 0 <= j < |root| ==> !IsDigit(root[j])
    requires 2000 <= exp.year <= 2099
    requires strikeMillis < 100_000_000
    ensures ParseOptionSymbol(EncodeOptionSymbol(root, exp, kind, strikeMillis), today)
              == Some(ParsedOption(root, exp, kind, strikeMillis, Ordinal(exp) - today))
  {
    var s := EncodeOptionSymbol(root, exp, kind, strikeMillis);
    var d := DateDigits(exp);
    var c: char := if kind == Call then 'C' else 'P';
    var k := PadDigits(strikeMillis, 8);
    var remainder := d + [c] + k;
    assert s == root + remainder;
    RootEnd(root, remainder);
    assert s[..|root|] == root && s[|root|..] == remainder;
    RemainderRoundTrip(root, exp, kind, strikeMillis, today);
  }

  /** The scan stops where the digits after a digit-free root begin. */
  lemma RootEnd(root: string, rest: string)
    requires forall j :: 0 <= j < |root| ==> !IsDigit(root[j])
    requires rest != [] && IsDigit(rest[0])
    ensures UnderlyingEnd(root + rest) == |root|
  {
    assert (root + rest)[|root|] == rest[0];
  }

  lemma RemainderRoundTrip(root: string, exp: CalendarDate, kind: OptionKind, strikeMillis: nat, today: int)
    requires 2000 <= exp.year <= 2099
    requires strikeMillis < 100_000_000
    ensures var c: char := if kind == Call then 'C' else 'P';
      ParseRemainder(root, DateDigits(exp) + [c] + PadDigits(strikeMillis, 8), today)
        == Some(ParsedOption(root, exp, kind, strikeMillis, Ordinal(exp) - today))
  {
    var c: char := if kind == Call then 'C' else 'P';
    var k := PadDigits(strikeMillis, 8);
    var r := DateDigits(exp) + [c] + k;
    EncodedExpiration(exp, c, k);
    RemainderParts(DateDigits(exp), c, k);
    StrikeDigits(strikeMillis);
    RemainderAccepts(root, r, today, exp, kind, strikeMillis);
  }

  /** When the date reads, the type character decides the kind and the strike reads, the remainder parses to those values. */
  lemma RemainderAccepts(underlying: string, remainder: string, today: int, exp: CalendarDate, kind: OptionKind, strike: int)
    requires ParseExpiration(remainder) == Some(exp)
    requires |remainder| > 6 && (remainder[6] == 'C' <==> kind == Call)
    requires PyInt(Drop(remainder, 7)) == Some(strike)
    ensures ParseRemainder(underlying, remainder, today) == Some(ParsedOption(underlying, exp, kind, strike, Ordinal(exp) - today))
  {
    var r := ParseRemainder(underlying, remainder, today);
    RemainderFields(underlying, remainder, today, exp, kind, strike);
    var po := r.value;
    assert po == ParsedOption(underlying, exp, kind, strike, Ordinal(exp) - today);
    assert r == Some(po);
  }

  lemma RemainderFields(underlying: string, remainder: string, today: int, exp: CalendarDate, kind: OptionKind, strike: int)
    requires ParseExpiration(remainder) == Some(exp)
    requires |remainder| > 6 && (remainder[6] == 'C' <==> kind == Call)
    requires PyInt(Drop(remainder, 7)) == Some(strike)
    ensures var r := ParseRemainder(underlying, remainder, today);
            r.Some? && r.value.expiration == exp && r.value.kind == kind && r.value.strikeMillis == strike
  {
    assert (if remainder[6] == 'C' then Call else Put) == kind;
  }

  lemma EncodedExpiration(exp: CalendarDate, c: char, k: string)
    requires 2000 <= exp.year <= 2099
    ensures ParseExpiration(DateDigits(exp) + [c] + k) == Some(exp)
  {
    RemainderParts(DateDigits(exp), c, k);
    DateFields(exp);
    ExpirationAccepts(DateDigits(exp) + [c] + k, exp);
  }

  lemma ExpirationAccepts(remainder: string, exp: CalendarDate)
    requires var d := Slice(remainder, 0, 6);
      && PyInt(Slice(d, 0, 2)) == Some(exp.year - 2000)
      && PyInt(Slice(d, 2, 4)) == Some(exp.month)
      && PyInt(Slice(d, 4, 6)) == Some(exp.day)
    ensures ParseExpiration(remainder) == Some(exp)
  {
    var d := Slice(remainder, 0, 6);
    var yy, mm, dd := PyInt(Slice(d, 0, 2)), PyInt(Slice(d, 2, 4)), PyInt(Slice(d, 4, 6));
    assert ParseExpiration(remainder) == ExpirationOf(yy, mm, dd);
    assert yy == Some(exp.year - 2000) && mm == Some(exp.month) && dd == Some(exp.day);
    ExpirationOfDate(exp);
  }

  lemma ExpirationOfDate(exp: CalendarDate)
    ensures ExpirationOf(Some(exp.year - 2000), Some(exp.month), Some(exp.day)) == Some(exp)
  {
    assert Date(exp.year, exp.month, exp.day) == exp;
  }

  lemma RemainderParts(d: string, c: char, k: string)
    requires |d| == 6
    ensures var r := d + [c] + k; Slice(r, 0, 6) == d && |r| > 6 && r[6] == c && Drop(r, 7) == k
  {
    var r := d + [c] + k;
    assert r[0..6] == d;
    assert r[7..] == k;
  }

  lemma StrikeDigits(n: nat)
    requires n < 100_000_000
    ensures PyInt(PadDigits(n, 8)) == Some(n)
  {
    assert Pow10(8) == 100_000_000;
    PadDigitsValue(n, 8);
    PyIntOfDigits(PadDigits(n, 8));
  }

  /** The three two-digit date fields read back as the year in the century, the month and the day. */
  lemma DateFields(exp: CalendarDate)
    requires 2000 <= exp.year <= 2099
    ensures PyInt(Slice(DateDigits(exp), 0, 2)) == Some(exp.year - 2000)
    ensures PyInt(Slice(DateDigits(exp), 2, 4)) == Some(exp.month)
    ensures PyInt(Slice(DateDigits(exp), 4, 6)) == Some(exp.day)
  {
    assert exp.day <= 31 by { assert DaysInMonth(exp.year, exp.month) <= 31; }
    var y, m, dd := PadDigits(exp.year - 2000, 2), PadDigits(exp.month, 2), PadDigits(exp.day, 2);
    var d := DateDigits(exp);
    assert d == y + m + dd;
    ThreeFields(y, m, dd);
    assert Slice(d, 0, 2) == y && Slice(d, 2, 4) == m && Slice(d, 4, 6) == dd;
    TwoDigits(exp.year - 2000);
    TwoDigits(exp.month);
    TwoDigits(exp.day);
  }

  lemma ThreeFields(y: string, m: string, dd: string)
    requires |y| == 2 && |m| == 2 && |dd| == 2
    ensures var d := y + m + dd; Slice(d, 0, 2) == y && Slice(d, 2, 4) == m && Slice(d, 4, 6) == dd
  {
    var d := y + m + dd;
    assert d[0..2] == y;
    assert d[2..4] == m;
    assert d[4..6] == dd;
  }

  /** A symbol with no digit at all is never read as an option: every date field then lacks a digit. */
  lemma NoDigitNoParse(symbol: string, today: int)
    requires forall j :: 0 <= j < |symbol| ==> !IsDigit(symbol[j])
    ensures ParseOptionSymbol(symbol, today).None?
  {
    if |symbol| >= 15 {
      var f := Slice(Slice(symbol, 0, 6), 0, 2);
      assert f == symbol[0..2];
      if PyInt(f).Some? {
        PyIntNeedsDigit(f);
      }
    }
  }

  /**
   * The ways a long enough symbol fails to parse, and what it parses to
   * otherwise. After the root, the date fields must read and name a real
   * date, a type character must follow them, and the text after it must read
   * as an integer; when all three hold, the parse keeps the date and the
   * strike those parts name.
   */
  lemma ParseOptionSymbolCases(symbol: string, today: int)
    requires |symbol| >= 15
    ensures var rem := symbol[UnderlyingEnd(symbol)..];
            && (ParseExpiration(rem).None? ==> ParseOptionSymbol(symbol, today).None?)
            && (|rem| <= 6 ==> ParseOptionSymbol(symbol, today).None?)
            && (|rem| > 6 && PyInt(Drop(rem, 7)).None? ==> ParseOptionSymbol(symbol, today).None?)
            && (ParseExpiration(rem).Some? && |rem| > 6 && PyInt(Drop(rem, 7)).Some? ==>
                  && ParseOptionSymbol(symbol, today).Some?
                  && ParseOptionSymbol(symbol, today).value.underlying == symbol[..UnderlyingEnd(symbol)]
                  && ParseOptionSymbol(symbol, today).value.expiration == ParseExpiration(rem).value
                  && ParseOptionSymbol(symbol, today).value.strikeMillis == PyInt(Drop(rem, 7)).value)
  {
  }

  /** The type is a call exactly when the character after the date is `C`; anything else is a put. */
  lemma KindFromLetter(symbol: string, today: int)
    requires ParseOptionSymbol(symbol, today).Some?
    ensures var p := ParseOptionSymbol(symbol, today).value;
      (p.kind == Call <==> symbol[|p.underlying| + 6] == 'C')
  {
  }

  /** The `is_option` test: longer than six characters, with a digit among the last eight. */
  predicate IsOption(symbol: string) {
    |symbol| > 6 && exists j :: Tail8Start(symbol) <= j < |symbol| && IsDigit(symbol[j])
  }

  /** Where Python's `symbol[-8:]` starts. */
  function Tail8Start(symbol: string): (r: nat)
    ensures r <= |symbol| && |symbol| - r == (if |symbol| < 8 then |symbol| else 8)
  {
    if |symbol| < 8 then 0 else |symbol| - 8
  }

  /** Every symbol the broker issues passes the option test: its last eight characters are the strike's digits. */
  lemma EncodedIsOption(root: string, exp: CalendarDate, kind: OptionKind, strikeMillis: nat)
    requires 2000 <= exp.year <= 2099
    ensures IsOption(EncodeOptionSymbol(root, exp, kind, strikeMillis))
  {
    var s := EncodeOptionSymbol(root, exp, kind, strikeMillis);
    var k := PadDigits(strikeMillis, 8);
    assert s[|s| - 1] == k[7];
  }

  /** A ticker of six characters or fewer, or one without digits, is shown as a stock. */
  lemma StockTickers(symbol: string)
    requires |symbol| <= 6 || forall j :: 0 <= j < |symbol| ==> !IsDigit(symbol[j])
    ensures !IsOption(symbol)
  {
  }

  /** The value at expiry of one option bought for `premium`, at underlying price `price`. */
  function Payoff(kind: OptionKind, strike: int, premium: int, price: int): (r: int)
    ensures r >= -premium
    ensures kind == Call ==> r == -premium || r == price - strike - premium
    ensures kind == Put ==> r == -premium || r == strike - price - premium
  {
    match kind
    case Call => (if price - strike > 0 then price - strike else 0) - premium
    case Put => (if strike - price > 0 then strike - price else 0) - premium
  }

  /** `create_payoff_diagram` takes the call formula when the type's upper-case form is `CALL`, the put formula otherwise. */
  function KindOfText(optionType: string): (r: OptionKind)
    ensures r == Call <==> Lower(optionType) == "call"
  {
    if Lower(optionType) == "call" then Call else Put
  }

  /**
   * The buyer loses at most the premium; a call never loses value as the
   * price rises and a put never gains; a call and a put at the same strike
   * and premium differ by the price less the strike.
   */
  lemma PayoffShape(strike: int, premium: int, price: int, higher: int)
    requires price <= higher
    ensures Payoff(Call, strike, premium, price) >= -premium
    ensures Payoff(Put, strike, premium, price) >= -premium
    ensures Payoff(Call, strike, premium, price) <= Payoff(Call, strike, premium, higher)
    ensures Payoff(Put, strike, premium, higher) <= Payoff(Put, strike, premium, price)
    ensures Payoff(Call, strike, premium, price) - Payoff(Put, strike, premium, price) == price - strike
  {
  }

  /** The break-even line: a call breaks even at strike plus premium, a put at strike minus premium. */
  lemma BreakEven(strike: int, premium: nat)
    ensures Payoff(Call, strike, premium, strike + premium) == 0
    ensures Payoff(Put, strike, premium, strike - premium) == 0
  {
  }
}

=== FILE: dedup.dfy ===
/**
 * Keeping the first item of every key: the shape shared by the scraper's
 * de-duplication and the stores' insert-or-ignore on a unique column.
 */
module FirstByKey {
  /** No item before position `i` has the key of item `i`. */
  predicate FirstOfKey<T, K(==,!new)>(xs: seq<T>, key: T -> K, i: nat)
    requires i < |xs|
  {
    forall j :: 0 <= j < i ==> key(xs[j]) != key(xs[i])
  }

  /** The items that are the first of their key, in input order. */
  function KeepFirst<T, K(==,!new)>(xs: seq<T>, key: T -> K): seq<T>
  {
    if xs == [] then []
    else KeepFirst(xs[..|xs| - 1], key) + (if FirstOfKey(xs, key, |xs| - 1) then [xs[|xs| - 1]] else [])
  }

  /** The keys of a list of items. */
  function Keys<T, K(==,!new)>(xs: seq<T>, key: T -> K): (r: set<K>)
    ensures forall k :: k in r <==> exists j :: 0 <= j < |xs| && key(xs[j]) == k
  {
    if xs == [] then {}
    else
      var p := xs[..|xs| - 1];
      assert forall j :: 0 <= j < |p| ==> p[j] == xs[j];
      Keys(p, key) + {key(xs[|xs| - 1])}
  }

  predicate DistinctKeys<T, K(==,!new)>(xs: seq<T>, key: T -> K) {
    forall a, b :: 0 <= a < b < |xs| ==> key(xs[a]) != key(xs[b])
  }

  /** The keys of a non-empty list: the head's key and the tail's keys. */
  lemma KeysCons<T, K(!new)>(xs: seq<T>, key: T -> K)
    requires xs != []
    ensures Keys(xs, key) == {key(xs[0])} + Keys(xs[1..], key)
  {
    assert forall j :: 0 < j < |xs| ==> xs[1..][j - 1] == xs[j];
  }

  /** One more item: it is kept exactly when its key was not seen before. */
  lemma KeepFirstStep<T, K(!new)>(xs: seq<T>, key: T -> K, i: nat)
    requires i < |xs|
    ensures Keys(xs[..i + 1], key) == Keys(xs[..i], key) + {key(xs[i])}
    ensures KeepFirst(xs[..i + 1], key) == KeepFirst(xs[..i], key) + (if key(xs[i]) in Keys(xs[..i], key) then [] else [xs[i]])
  {
    var p := xs[..i + 1];
    assert p[..i] == xs[..i];
    assert forall j :: 0 <= j < i ==> p[j] == xs[j];
  }

  /** The kept items have pairwise different keys, and every key of the input is kept. */
  lemma {:induction false} KeepFirstDistinct<T, K(!new)>(xs: seq<T>, key: T -> K)
    ensures DistinctKeys(KeepFirst(xs, key), key)
    ensures Keys(KeepFirst(xs, key), key) == Keys(xs, key)
  {
    if xs != [] {
      var n := |xs| - 1;
      var p := xs[..n];
      KeepFirstDistinct(p, key);
      assert forall j :: 0 <= j < n ==> p[j] == xs[j];
      var kp := KeepFirst(p, key);
      var k := KeepFirst(xs, key);
      if FirstOfKey(xs, key, n) {
        assert key(xs[n]) !in Keys(p, key);
        assert k == kp + [xs[n]];
        assert k[..|kp|] == kp;
        assert Keys(k, key) == Keys(kp, key) + {key(xs[n])};
      } else {
        assert key(xs[n]) in Keys(p, key);
        assert k == kp;
      }
    }
  }

  /** Every kept item is an input item, and the first item of each key is kept. */
  lemma {:induction false} KeepFirstIsFirst<T, K(!new)>(xs: seq<T>, key: T -> K)
    ensures forall x :: x in KeepFirst(xs, key) ==> x in xs
    ensures forall i :: 0 <= i < |xs| && FirstOfKey(xs, key, i) ==> xs[i] in KeepFirst(xs, key)
  {
    if xs != [] {
      var n := |xs| - 1;
      var p := xs[..n];
      KeepFirstIsFirst(p, key);
      forall i | 0 <= i < |xs| && FirstOfKey(xs, key, i)
        ensures xs[i] in KeepFirst(xs, key)
      {
        if i < n {
          assert p[i] == xs[i];
          assert FirstOfKey(p, key, i);
        }
      }
    }
  }

  /** Input whose keys are already distinct comes back unchanged. */
  lemma {:induction false} KeepFirstOfDistinct<T, K(!new)>(xs: seq<T>, key: T -> K)
    requires DistinctKeys(xs, key)
    ensures KeepFirst(xs, key) == xs
  {
    if xs != [] {
      var n := |xs| - 1;
      KeepFirstOfDistinct(xs[..n], key);
      assert FirstOfKey(xs, key, n);
      assert xs[..n] + [xs[n]] == xs;
    }
  }

  /** `a` is `b` with some elements deleted, the rest kept in order. */
  predicate IsSubsequence<T(==)>(a: seq<T>, b: seq<T>)
    decreases |b|
  {
    if a == [] then true
    else if b == [] then false
    else (a[|a| - 1] == b[|b| - 1] && IsSubsequence(a[..|a| - 1], b[..|b| - 1])) || IsSubsequence(a, b[..|b| - 1])
  }

  /** One more input element, either kept or deleted. */
  lemma SubsequenceExtend<T>(a: seq<T>, b: seq<T>, x: T, take: bool)
    requires IsSubsequence(a, b)
    ensures IsSubsequence(if take then a + [x] else a, b + [x])
  {
    assert (b + [x])[..|b|] == b;
    if take {
      assert (a + [x])[..|a|] == a;
    }
  }

  /** The kept items appear in the input order: the output is a subsequence of the input. */
  lemma {:induction false} KeepFirstInOrder<T, K(!new)>(xs: seq<T>, key: T -> K)
    ensures IsSubsequence(KeepFirst(xs, key), xs)
  {
    if xs != [] {
      var n := |xs| - 1;
      var p := xs[..n];
      KeepFirstInOrder(p, key);
      assert p + [xs[n]] == xs;
      if FirstOfKey(xs, key, n) {
        SubsequenceExtend(KeepFirst(p, key), p, xs[n], true);
        assert KeepFirst(xs, key) == KeepFirst(p, key) + [xs[n]];
      } else {
        SubsequenceExtend(KeepFirst(p, key), p, xs[n], false);
        assert KeepFirst(xs, key) == KeepFirst(p, key);
      }
    }
  }

  /** Keeping the first of each key twice is doing it once. */
  lemma KeepFirstIdempotent<T, K(!new)>(xs: seq<T>, key: T -> K)
    ensures KeepFirst(KeepFirst(xs, key), key) == KeepFirst(xs, key)
  {
    KeepFirstDistinct(xs, key);
    KeepFirstOfDistinct(KeepFirst(xs, key), key);
  }
}

=== FILE: order_placer.dfy ===
/**
 * The straddle trader as written: the candidate queries, the choice of the
 * nearest strike and expiration, the call-then-put submission, and the two
 * trading loops with their `traded` updates.
 *
 * The price feed, the option-contract listing and order submission are the
 * fields of a `Market` oracle. Money is in integer thousandths of a dollar
 * (so $5 is 5000); expirations and target dates are day numbers
 * (`date.toordinal()`), and instants are microsecond ticks (see Calendar).
 * The rows a query returns are passed in, together with a predicate saying
 * which lists the database may return for a given table and instant.
 */
module OrderPlacer {
  import opened Wrappers
  import opened Calendar
  import opened RegulatoryDecisions
  import opened PdufaManager
  import opened Studies
  import opened ClinicalTrials
  import opened FirstByKey

  // ---------------------------------------------------------------------
  // Candidate queries

  /** `BETWEEN now + 1 day AND now + 15 days`, a stored date compared as its midnight. */
  predicate InTradeWindow(d: CalendarDate, now: int) {
    now + TicksPerDay <= Midnight(d) <= now + 15 * TicksPerDay
  }

  /** A regulatory row `get_upcoming_regulatory_decisions` selects. */
  predicate DecisionCandidate(t: DecisionTable, k: DecisionKey, now: int) {
    k in t && InTradeWindow(k.2, now) && t[k].status == Some(Pending) && !t[k].traded
  }

  /** A fetched `regulatory_decisions` row (`SELECT *`, the surrogate `id` left out). */
  datatype DecisionFetched = DecisionFetched(
    useu: Option<string>,
    ticker: string,
    drugName: string,
    date: CalendarDate,
    status: Option<string>,
    decision: Option<string>,
    traded: bool)

  function FetchedKey(r: DecisionFetched): DecisionKey {
    (r.ticker, r.drugName, r.date)
  }

  /** A list the decision query may return: exactly the candidates, each once, in any order. */
  ghost predicate DecisionQueryResult(t: DecisionTable, now: int, rows: seq<DecisionFetched>) {
    && DistinctKeys(rows, FetchedKey)
    && (forall i :: 0 <= i < |rows| ==>
          && DecisionCandidate(t, FetchedKey(rows[i]), now)
          && t[FetchedKey(rows[i])] == DecisionRow(rows[i].useu, rows[i].status, rows[i].decision, rows[i].traded))
    && (forall k :: DecisionCandidate(t, k, now) ==> k in Keys(rows, FetchedKey))
  }

  /** A study row `get_upcoming_studies` selects. */
  predicate StudyCandidate(t: StudyTable, k: string, now: int) {
    k in t && t[k].pcd.Some? && InTradeWindow(t[k].pcd.value, now) && !t[k].traded
  }

  /** The seven columns `get_upcoming_studies` reads; the window excludes a NULL `pcd`. */
  datatype StudyFetched = StudyFetched(
    nctid: string,
    title: string,
    phase: string,
    pcd: CalendarDate,
    primarySponsor: string,
    ticker: Option<string>,
    conditions: string)

  function StudyKey(r: StudyFetched): string {
    r.nctid
  }

  /** A list the study query may return: exactly the candidates, each once, in ascending `pcd`. */
  ghost predicate StudyQueryResult(t: StudyTable, now: int, rows: seq<StudyFetched>) {
    && DistinctKeys(rows, StudyKey)
    && (forall i :: 0 <= i < |rows| ==>
          && StudyCandidate(t, rows[i].nctid, now)
          && var row := t[rows[i].nctid];
             row == StudyRow(rows[i].title, rows[i].phase, Some(rows[i].pcd), rows[i].primarySponsor,
                             rows[i].ticker, rows[i].conditions, false))
    && (forall k :: StudyCandidate(t, k, now) ==> k in Keys(rows, StudyKey))
    && (forall i, j :: 0 <= i < j < |rows| ==> Ordinal(rows[i].pcd) <= Ordinal(rows[j].pcd))
  }

  /** A row already marked traded is never selected again, by either query. */
  lemma TradedNeverSelected(dt: DecisionTable, st: StudyTable, now: int,
                            drows: seq<DecisionFetched>, srows: seq<StudyFetched>)
    requires DecisionQueryResult(dt, now, drows) && StudyQueryResult(st, now, srows)
    ensures forall i :: 0 <= i < |drows| ==> !dt[FetchedKey(drows[i])].traded
    ensures forall i :: 0 <= i < |srows| ==> !st[srows[i].nctid].traded
    ensures forall i :: 0 <= i < |drows| ==> InTradeWindow(drows[i].date, now)
  {
  }

  // ---------------------------------------------------------------------
  // The market oracle

  /** An option contract as the provider lists it; the strike may be missing. */
  datatype Contract = Contract(symbol: string, strike: Option<int>, expiration: int)

  /** The two listings `get_best_contract` asks for. */
  datatype ContractQuery =
    | CallsInRange(root: string, expirationFrom: int, expirationTo: int, strikeFrom: int, strikeTo: int)
    | AtStrike(root: string, expiration: int, strike: int)

  /**
   * `price`: `get_stock_price` (`None` where it caught an error);
   * `contracts`: `get_option_contracts` (`None` where it raises);
   * `submit`: whether `submit_order` returns rather than raises.
   */
  datatype Market = Market(
    price: string -> Option<int>,
    contracts: ContractQuery -> Option<seq<Contract>>,
    submit: string -> bool)

  // ---------------------------------------------------------------------
  // `get_best_contract`

  function Distance(x: int, target: int): nat {
    if x >= target then x - target else target - x
  }

  /** `min(xs, key=lambda x: abs(x - target))`, as a position: the first of the nearest values. */
  function FirstNearest(xs: seq<int>, target: int): (i: nat)
    requires xs != []
    ensures i < |xs|
  {
    if |xs| == 1 then 0
    else
      var i := FirstNearest(xs[..|xs| - 1], target);
      if Distance(xs[|xs| - 1], target) < Distance(xs[i], target) then |xs| - 1 else i
  }

  /** The chosen value is nearest the target, and every value before it is strictly farther away. */
  lemma {:induction false} FirstNearestChoice(xs: seq<int>, target: int)
    requires xs != []
    ensures var i := FirstNearest(xs, target);
            && (forall j :: 0 <= j < |xs| ==> Distance(xs[i], target) <= Distance(xs[j], target))
            && (forall j :: 0 <= j < i ==> Distance(xs[i], target) < Distance(xs[j], target))
    decreases |xs|
  {
    if |xs| > 1 {
      var p := xs[..|xs| - 1];
      FirstNearestChoice(p, target);
      assert forall j :: 0 <= j < |p| ==> p[j] == xs[j];
    }
  }

  /** The two properties above pin the position down: no other position has both. */
  lemma FirstNearestUnique(xs: seq<int>, target: int, k: nat)
    requires k < |xs|
    requires forall j :: 0 <= j < |xs| ==> Distance(xs[k], target) <= Distance(xs[j], target)
    requires forall j :: 0 <= j < k ==> Distance(xs[k], target) < Distance(xs[j], target)
    ensures FirstNearest(xs, target) == k
  {
    FirstNearestChoice(xs, target);
  }

  /** The strikes of the listed contracts that have one, in listing order. */
  function Strikes(cs: seq<Contract>): seq<int> {
    if cs == [] then []
    else (if cs[0].strike.Some? then [cs[0].strike.value] else []) + Strikes(cs[1..])
  }

  /** The strikes considered are exactly those of the contracts that have one. */
  lemma {:induction false} StrikesExact(cs: seq<Contract>)
    ensures forall c :: c in cs && c.strike.Some? ==> c.strike.value in Strikes(cs)
    ensures forall x :: x in Strikes(cs) ==> exists c :: c in cs && c.strike == Some(x)
  {
    if cs != [] {
      StrikesExact(cs[1..]);
      assert forall c :: c in cs <==> c == cs[0] || c in cs[1..];
    }
  }

  /** The expirations of the listing, one per contract in listing order. */
  function Expirations(cs: seq<Contract>): seq<int> {
    seq(|cs|, i requires 0 <= i < |cs| => cs[i].expiration)
  }

  /** Every listed contract's expiration is considered, whatever its strike. */
  lemma ExpirationsExact(cs: seq<Contract>)
    ensures |Expirations(cs)| == |cs|
    ensures forall i :: 0 <= i < |cs| ==> Expirations(cs)[i] == cs[i].expiration
  {
  }

  /** The range request: calls within $5 of the price, expiring within 15 days of the target. */
  function RangeRequest(ticker: string, price: int, target: int): ContractQuery {
    CallsInRange(ticker, target - 15, target + 15, price - 5000, price + 5000)
  }

  /** The at-the-money strike: the first of the non-missing strikes nearest the price; `None` where `min` raises. */
  function NearestStrike(cs: seq<Contract>, price: int): Option<int> {
    var strikes := Strikes(cs);
    if strikes == [] then None else Some(strikes[FirstNearest(strikes, price)])
  }

  /** The expiration of the first listed contract nearest the target, whatever its strike. */
  function NearestExpiration(cs: seq<Contract>, target: int): int
    requires cs != []
  {
    cs[FirstNearest(Expirations(cs), target)].expiration
  }

  /** What `get_best_contract` does: raise, report no contracts, or return two symbols. */
  datatype Best = BestRaised | NoContracts | BestPair(first: string, second: string)

  function GetBestContract(m: Market, ticker: string, target: int): (r: Best)
    ensures m.price(ticker).None? ==> r == BestRaised
    ensures r.NoContracts? ==> m.price(ticker).Some? && m.contracts(RangeRequest(ticker, m.price(ticker).value, target)) == Some([])
    ensures !r.BestRaised? ==> 1 <= target - 15 && target + 15 <= MaxOrdinal
  {
    match m.price(ticker)
    case None => BestRaised
    case Some(p) =>
      if target - 15 < 1 || target + 15 > MaxOrdinal then BestRaised
      else
        match m.contracts(RangeRequest(ticker, p, target))
        case None => BestRaised
        case Some(cs) =>
          if cs == [] then NoContracts
          else
            match NearestStrike(cs, p)
            case None => BestRaised
            case Some(atm) =>
              match m.contracts(AtStrike(ticker, NearestExpiration(cs, target), atm))
              case None => BestRaised
              case Some(bs) =>
                if |bs| < 2 then BestRaised else BestPair(bs[0].symbol, bs[1].symbol)
  }

  /**
   * The chosen strike is a listed strike, no listed strike is nearer the
   * price, and every strike listed before it is farther away; there is none
   * exactly when no contract has a strike.
   */
  lemma NearestStrikeChoice(cs: seq<Contract>, price: int)
    ensures NearestStrike(cs, price).None? <==> forall c :: c in cs ==> c.strike.None?
    ensures NearestStrike(cs, price).Some? ==>
              var x := NearestStrike(cs, price).value;
              && (exists c :: c in cs && c.strike == Some(x))
              && (forall c :: c in cs && c.strike.Some? ==> Distance(x, price) <= Distance(c.strike.value, price))
              && (exists i :: 0 <= i < |Strikes(cs)| && Strikes(cs)[i] == x
                     && forall j :: 0 <= j < i ==> Distance(x, price) < Distance(Strikes(cs)[j], price))
  {
    var strikes := Strikes(cs);
    StrikesExact(cs);
    if strikes != [] {
      var i := FirstNearest(strikes, price);
      FirstNearestChoice(strikes, price);
      var x := strikes[i];
      assert x in strikes;
      forall c | c in cs && c.strike.Some?
        ensures Distance(x, price) <= Distance(c.strike.value, price)
      {
        assert c.strike.value in strikes;
        var j :| 0 <= j < |strikes| && strikes[j] == c.strike.value;
      }
    } else {
      assert forall c :: c in cs ==> c.strike.None?;
    }
  }

  /**
   * The chosen expiration is that of a listed contract nearest the target,
   * and every contract listed before it expires farther away.
   */
  lemma NearestExpirationChoice(cs: seq<Contract>, target: int)
    requires cs != []
    ensures exists i :: 0 <= i < |cs| && cs[i].expiration == NearestExpiration(cs, target)
              && forall j :: 0 <= j < i ==> Distance(cs[i].expiration, target) < Distance(cs[j].expiration, target)
    ensures forall c :: c in cs ==> Distance(NearestExpiration(cs, target), target) <= Distance(c.expiration, target)
  {
    var es := Expirations(cs);
    ExpirationsExact(cs);
    var i := FirstNearest(es, target);
    FirstNearestChoice(es, target);
    assert cs[i].expiration == NearestExpiration(cs, target);
    forall c | c in cs
      ensures Distance(NearestExpiration(cs, target), target) <= Distance(c.expiration, target)
    {
      var j :| 0 <= j < |cs| && cs[j] == c;
      assert es[j] == c.expiration;
    }
  }

  /** A listing that honours the range request's bounds. */
  predicate WithinRequest(cs: seq<Contract>, q: ContractQuery)
    requires q.CallsInRange?
  {
    forall c :: c in cs ==>
      && q.expirationFrom <= c.expiration <= q.expirationTo
      && (c.strike.Some? ==> q.strikeFrom <= c.strike.value <= q.strikeTo)
  }

  /** When the provider honours the bounds, the chosen strike is within $5 of the price and the expiration within 15 days of the target. */
  lemma ChoiceWithinBounds(cs: seq<Contract>, price: int, ticker: string, target: int)
    requires cs != [] && WithinRequest(cs, RangeRequest(ticker, price, target))
    ensures NearestStrike(cs, price).Some? ==> price - 5000 <= NearestStrike(cs, price).value <= price + 5000
    ensures target - 15 <= NearestExpiration(cs, target) <= target + 15
  {
    NearestStrikeChoice(cs, price);
    NearestExpirationChoice(cs, target);
  }

  /**
   * The ways `get_best_contract` raises: no price, a window past the
   * calendar, a failed listing, no strike among the listed contracts, or
   * fewer than two contracts at the chosen strike (`[1]` fails). An empty
   * range listing is the one non-raising way to get no pair; otherwise the
   * pair is the first two contracts the at-strike request lists, of
   * whatever type.
   */
  lemma BestContractCases(m: Market, ticker: string, target: int)
    ensures m.price(ticker).None? ==> GetBestContract(m, ticker, target).BestRaised?
    ensures m.price(ticker).None? ==> PlaceOptionOrders(m, ticker, target) == Raised
    ensures target - 15 < 1 || target + 15 > MaxOrdinal ==> GetBestContract(m, ticker, target).BestRaised?
    ensures m.price(ticker).Some? && 1 <= target - 15 && target + 15 <= MaxOrdinal ==>
              var p := m.price(ticker).value;
              match m.contracts(RangeRequest(ticker, p, target))
              case None => GetBestContract(m, ticker, target).BestRaised?
              case Some(cs) =>
                && (cs == [] <==> GetBestContract(m, ticker, target).NoContracts?)
                && (cs != [] && NearestStrike(cs, p).None? ==> GetBestContract(m, ticker, target).BestRaised?)
                && (cs != [] && NearestStrike(cs, p).Some? ==>
                      match m.contracts(AtStrike(ticker, NearestExpiration(cs, target), NearestStrike(cs, p).value))
                      case None => GetBestContract(m, ticker, target).BestRaised?
                      case Some(bs) =>
                        && (|bs| < 2 ==> GetBestContract(m, ticker, target).BestRaised?)
                        && (|bs| >= 2 ==> GetBestContract(m, ticker, target) == BestPair(bs[0].symbol, bs[1].symbol)))
  {
  }

  // ---------------------------------------------------------------------
  // `place_option_orders`

  datatype Side = Buy | Sell
  datatype TimeInForce = Day

  /** A market order request. */
  datatype Order = Order(symbol: string, qty: nat, side: Side, timeInForce: TimeInForce)

  function BuyOne(symbol: string): Order {
    Order(symbol, 1, Buy, Day)
  }

  /** Either the call raised out of `get_best_contract`, or the orders that went through. */
  datatype Placement = Raised | Placed(orders: seq<Order>)

  function PlaceOptionOrders(m: Market, ticker: string, target: int): (r: Placement)
    ensures r.Raised? <==> GetBestContract(m, ticker, target).BestRaised?
    ensures r.Placed? ==> |r.orders| <= 2
    ensures r.Placed? && r.orders != [] ==> GetBestContract(m, ticker, target).BestPair?
  {
    match GetBestContract(m, ticker, target)
    case BestRaised => Raised
    case NoContracts => Placed([])
    case BestPair(first, second) =>
      if first == "" || second == "" then Placed([])
      else if !m.submit(first) then Placed([])
      else if !m.submit(second) then Placed([BuyOne(first)])
      else Placed([BuyOne(first), BuyOne(second)])
  }

  /**
   * Only `get_best_contract` can raise out of the call; a failed submission
   * is swallowed. The orders are the first symbol then the second, each one
   * contract bought for the day, stopping at the first failed submission;
   * no contracts means no orders.
   */
  lemma PlacementShape(m: Market, ticker: string, target: int)
    ensures PlaceOptionOrders(m, ticker, target).Raised? <==> GetBestContract(m, ticker, target).BestRaised?
    ensures GetBestContract(m, ticker, target).NoContracts? ==> PlaceOptionOrders(m, ticker, target) == Placed([])
    ensures PlaceOptionOrders(m, ticker, target).Placed? ==>
              var os := PlaceOptionOrders(m, ticker, target).orders;
              && |os| <= 2
              && (forall o :: o in os ==> o.qty == 1 && o.side == Buy && o.timeInForce == Day)
              && (os != [] ==> GetBestContract(m, ticker, target).BestPair?
                                && os[0].symbol == GetBestContract(m, ticker, target).first
                                && m.submit(os[0].symbol))
              && (|os| == 2 ==> os[1].symbol == GetBestContract(m, ticker, target).second && m.submit(os[1].symbol))
  {
  }

  // ---------------------------------------------------------------------
  // The trading loops

  /** The state a loop leaves: the table, the orders that went through, and whether it ended by raising. */
  datatype Outcome<T> = Outcome(table: T, orders: seq<Order>, stopped: bool)

  /**
   * The shape both trading loops share: run `step` on each row in turn,
   * collecting its orders, until a step stops.
   */
  function Loop<T, R>(step: (T, R) -> Outcome<T>, t: T, rows: seq<R>): Outcome<T>
    decreases |rows|
  {
    if rows == [] then Outcome(t, [], false)
    else
      var first := step(t, rows[0]);
      if first.stopped then first
      else
        var rest := Loop(step, first.table, rows[1..]);
        Outcome(rest.table, first.orders + rest.orders, rest.stopped)
  }

  /**
   * A stopping step ends the loop: the rows before it run as a loop of their
   * own, the stopping row adds its orders, and no later row is looked at.
   */
  lemma {:induction false} LoopStopAt<T, R>(step: (T, R) -> Outcome<T>, t: T, rows: seq<R>, i: nat)
    requires i < |rows|
    requires !Loop(step, t, rows[..i]).stopped
    requires step(Loop(step, t, rows[..i]).table, rows[i]).stopped
    ensures var pre := Loop(step, t, rows[..i]);
            var last := step(pre.table, rows[i]);
            Loop(step, t, rows) == Outcome(last.table, pre.orders + last.orders, true)
    decreases i
  {
    if i == 0 {
      assert rows[..i] == [];
    } else {
      var first := step(t, rows[0]);
      assert rows[..i][0] == rows[0];
      assert rows[..i][1..] == rows[1..][..i - 1];
      assert rows[1..][i - 1] == rows[i];
      LoopStopAt(step, first.table, rows[1..], i - 1);
      var rest := Loop(step, first.table, rows[1..][..i - 1]);
      var last := step(rest.table, rows[i]);
      assert first.orders + (rest.orders + last.orders) == (first.orders + rest.orders) + last.orders;
    }
  }

  /** The target expiration: `pcd + 60 days` for a study, `date + 14 days` for a decision; `None` past `date.max`. */
  function TargetDay(d: CalendarDate, offset: nat): (r: Option<int>)
    ensures r.Some? ==> r.value - offset == Ordinal(d) && r.value <= MaxOrdinal
    ensures r.None? <==> MaxOrdinal - offset < Ordinal(d)
  {
    if Ordinal(d) + offset > MaxOrdinal then None else Some(Ordinal(d) + offset)
  }

  /** `UPDATE clinical_trials SET traded = TRUE WHERE nctid = v` */
  function MarkStudy(t: StudyTable, v: string): StudyTable {
    if v in t then t[v := t[v].(traded := true)] else t
  }

  /**
   * One iteration of `trade_on_studies`. `param` is what the UPDATE's
   * parameter turns into: the text it compares `nctid` with, or `None` where
   * the database rejects the statement (which raises).
   */
  function StudyStep(m: Market, t: StudyTable, row: StudyFetched, param: Option<string>): (r: Outcome<StudyTable>)
    ensures r.stopped ==> r.table == t
    ensures r.table.Keys == t.Keys && |r.orders| <= 2
  {
    if row.ticker.None? || row.ticker.value == "" then Outcome(t, [], false)
    else
      match TargetDay(row.pcd, 60)
      case None => Outcome(t, [], true)
      case Some(target) =>
        match PlaceOptionOrders(m, row.ticker.value, target)
        case Raised => Outcome(t, [], true)
        case Placed(os) =>
          match param
          case None => Outcome(t, os, true)
          case Some(v) => Outcome(MarkStudy(t, v), os, false)
  }

  /** The loop of `trade_on_studies`: every row's UPDATE binds the same parameter. */
  function StudiesLoop(m: Market, t: StudyTable, rows: seq<StudyFetched>, param: Option<string>): (r: Outcome<StudyTable>)
    ensures r.table.Keys == t.Keys && |r.orders| <= 2 * |rows|
    decreases |rows|
  {
    if rows == [] then Outcome(t, [], false)
    else
      var step := StudyStep(m, t, rows[0], param);
      if step.stopped then step
      else
        var rest := StudiesLoop(m, step.table, rows[1..], param);
        Outcome(rest.table, step.orders + rest.orders, rest.stopped)
  }

  /**
   * `trade_on_studies`. The UPDATE binds `studies[0]`, the whole first row,
   * for every study; `bindRow` says what the driver and the database make of
   * such a row as the `nctid` parameter.
   */
  function TradeOnStudies(m: Market, t: StudyTable, rows: seq<StudyFetched>,
                          bindRow: StudyFetched -> Option<string>): (r: Outcome<StudyTable>)
    ensures r.table.Keys == t.Keys && |r.orders| <= 2 * |rows|
  {
    if rows == [] then Outcome(t, [], false) else StudiesLoop(m, t, rows, bindRow(rows[0]))
  }

  /** The study loop only ever flags the one row its fixed parameter names, and never adds or removes rows. */
  lemma {:induction false} StudiesLoopFlagsOnly(m: Market, t: StudyTable, rows: seq<StudyFetched>, param: Option<string>)
    ensures StudiesLoop(m, t, rows, param).table.Keys == t.Keys
    ensures forall k :: k in t && param != Some(k) ==> StudiesLoop(m, t, rows, param).table[k] == t[k]
    decreases |rows|
  {
    if rows != [] {
      var step := StudyStep(m, t, rows[0], param);
      if !step.stopped {
        StudiesLoopFlagsOnly(m, step.table, rows[1..], param);
      }
    }
  }

  /**
   * When the first row, bound as the `nctid` parameter, names no stored
   * study (or is rejected), `trade_on_studies` leaves every flag as it was,
   * whatever orders it placed: the same rows are candidates next time, and
   * re-running at the same instant places the same orders again.
   */
  lemma StudiesNeverFlagged(m: Market, t: StudyTable, rows: seq<StudyFetched>,
                            bindRow: StudyFetched -> Option<string>, now: int)
    requires rows != [] && (bindRow(rows[0]).None? || bindRow(rows[0]).value !in t)
    requires StudyQueryResult(t, now, rows)
    ensures TradeOnStudies(m, t, rows, bindRow).table == t
    ensures StudyQueryResult(TradeOnStudies(m, t, rows, bindRow).table, now, rows)
    ensures TradeOnStudies(m, TradeOnStudies(m, t, rows, bindRow).table, rows, bindRow)
              == TradeOnStudies(m, t, rows, bindRow)
  {
    var r := TradeOnStudies(m, t, rows, bindRow);
    StudiesLoopFlagsOnly(m, t, rows, bindRow(rows[0]));
    assert r.table == t;
  }

  /**
   * The flag update does not depend on the orders: whenever
   * `place_option_orders` returns, with two orders, one or none, the step
   * leaves the same table behind.
   */
  lemma StudyFlagIgnoresOrders(m1: Market, m2: Market, t: StudyTable, row: StudyFetched, param: Option<string>)
    requires row.ticker.Some? && row.ticker.value != "" && TargetDay(row.pcd, 60).Some?
    requires PlaceOptionOrders(m1, row.ticker.value, TargetDay(row.pcd, 60).value).Placed?
    requires PlaceOptionOrders(m2, row.ticker.value, TargetDay(row.pcd, 60).value).Placed?
    requires PlaceOptionOrders(m1, row.ticker.value, TargetDay(row.pcd, 60).value).orders == []
    ensures StudyStep(m1, t, row, param).table == StudyStep(m2, t, row, param).table
    ensures StudyStep(m1, t, row, param).stopped == StudyStep(m2, t, row, param).stopped
    ensures param.Some? && param.value in t ==> StudyStep(m1, t, row, param).table[param.value].traded
  {
  }

  /**
   * A study with a ticker is traded at `pcd + 60 days`: past `date.max` the
   * addition raises; otherwise the step keeps the orders
   * `place_option_orders` placed for that day, and stops when that call
   * raised or the UPDATE was rejected.
   */
  lemma StudyStepTargets(m: Market, t: StudyTable, row: StudyFetched, param: Option<string>)
    requires row.ticker.Some? && row.ticker.value != ""
    ensures TargetDay(row.pcd, 60).None? ==> StudyStep(m, t, row, param) == Outcome(t, [], true)
    ensures TargetDay(row.pcd, 60).Some? ==>
              var p := PlaceOptionOrders(m, row.ticker.value, TargetDay(row.pcd, 60).value);
              && StudyStep(m, t, row, param).orders == (if p.Raised? then [] else p.orders)
              && StudyStep(m, t, row, param).stopped == (p.Raised? || param.None?)
              && (StudyStep(m, t, row, param).stopped ==> StudyStep(m, t, row, param).table == t)
  {
  }

  /**
   * A step that stops ends the study loop: the rows before it are processed
   * as a loop of their own, the stopping row adds its orders, and no later
   * row is looked at.
   */
  lemma StudiesStopAt(m: Market, t: StudyTable, rows: seq<StudyFetched>, param: Option<string>, i: nat)
    requires i < |rows|
    requires !StudiesLoop(m, t, rows[..i], param).stopped
    requires StudyStep(m, StudiesLoop(m, t, rows[..i], param).table, rows[i], param).stopped
    ensures var pre := StudiesLoop(m, t, rows[..i], param);
            var step := StudyStep(m, pre.table, rows[i], param);
            StudiesLoop(m, t, rows, param) == Outcome(step.table, pre.orders + step.orders, true)
    ensures StudiesLoop(m, t, rows, param) == StudiesLoop(m, t, rows[..i + 1], param)
  {
    var step := (t': StudyTable, row: StudyFetched) => StudyStep(m, t', row, param);
    var prefix := rows[..i + 1];
    assert prefix[..i] == rows[..i] && prefix[i] == rows[i];
    StudiesAreLoop(m, t, rows, param);
    StudiesAreLoop(m, t, rows[..i], param);
    StudiesAreLoop(m, t, prefix, param);
    LoopStopAt(step, t, rows, i);
    LoopStopAt(step, t, prefix, i);
  }

  /**
   * When the lookup for a study raises, the batch ends there: the table and
   * orders are those the earlier rows left, and the run reports the raise.
   */
  lemma StudiesRaiseStops(m: Market, t: StudyTable, rows: seq<StudyFetched>, param: Option<string>, i: nat)
    requires i < |rows| && !StudiesLoop(m, t, rows[..i], param).stopped
    requires rows[i].ticker.Some? && rows[i].ticker.value != "" && TargetDay(rows[i].pcd, 60).Some?
    requires PlaceOptionOrders(m, rows[i].ticker.value, TargetDay(rows[i].pcd, 60).value).Raised?
    ensures var pre := StudiesLoop(m, t, rows[..i], param);
            StudiesLoop(m, t, rows, param) == Outcome(pre.table, pre.orders, true)
  {
    var pre := StudiesLoop(m, t, rows[..i], param);
    StudyStepTargets(m, pre.table, rows[i], param);
    StudiesStopAt(m, t, rows, param, i);
    assert pre.orders + [] == pre.orders;
  }

  /** The study loop is the shared loop over `StudyStep`. */
  lemma {:induction false} StudiesAreLoop(m: Market, t: StudyTable, rows: seq<StudyFetched>, param: Option<string>)
    ensures StudiesLoop(m, t, rows, param) == Loop((t': StudyTable, row: StudyFetched) => StudyStep(m, t', row, param), t, rows)
    decreases |rows|
  {
    if rows != [] {
      StudiesAreLoop(m, StudyStep(m, t, rows[0], param).table, rows[1..], param);
    }
  }

  /** A study without a ticker is skipped: no orders, no update. */
  lemma NoTickerSkipped(m: Market, t: StudyTable, row: StudyFetched, param: Option<string>)
    requires row.ticker.None? || row.ticker.value == ""
    ensures StudyStep(m, t, row, param) == Outcome(t, [], false)
  {
  }

  /**
   * Rows the ingestion writes carry no sponsor ticker, so the study loop
   * skips every one of them.
   */
  lemma IngestedStudiesSkipped(s: Study, m: Market, t: StudyTable, row: StudyFetched, param: Option<string>)
    requires row.ticker == NewStudyRow(s).sponsorTicker
    ensures StudyStep(m, t, row, param) == Outcome(t, [], false)
  {
  }

  /** `UPDATE regulatory_decisions SET traded = TRUE WHERE ticker = a AND drug_name = b AND date = d`; a NULL `a` matches nothing. */
  function MarkDecision(t: DecisionTable, a: Option<string>, b: string, d: CalendarDate): DecisionTable {
    if a.Some? && (a.value, b, d) in t then t[(a.value, b, d) := t[(a.value, b, d)].(traded := true)] else t
  }

  /**
   * One iteration of `trade_on_regulatory_decisions`. The UPDATE binds
   * `useu, ticker, drug_name` to `ticker, drug_name, date`, so the drug name
   * is read as a date by the database (`pgDate`; `None` is a rejected value,
   * which raises).
   */
  function DecisionStep(m: Market, t: DecisionTable, row: DecisionFetched,
                        pgDate: string -> Option<CalendarDate>): (r: Outcome<DecisionTable>)
    ensures r.stopped ==> r.table == t
    ensures r.table.Keys == t.Keys && |r.orders| <= 2
  {
    if row.ticker == "" then Outcome(t, [], false)
    else
      match TargetDay(row.date, 14)
      case None => Outcome(t, [], true)
      case Some(target) =>
        match PlaceOptionOrders(m, row.ticker, target)
        case Raised => Outcome(t, [], true)
        case Placed(os) =>
          match pgDate(row.drugName)
          case None => Outcome(t, os, true)
          case Some(d) => Outcome(MarkDecision(t, row.useu, row.ticker, d), os, false)
  }

  /**
   * A decision with a ticker is traded at `date + 14 days`: past `date.max`
   * the addition raises; otherwise the step keeps the orders
   * `place_option_orders` placed for that day, and stops when that call
   * raised or the drug name was rejected as a date.
   */
  lemma DecisionStepTargets(m: Market, t: DecisionTable, row: DecisionFetched, pgDate: string -> Option<CalendarDate>)
    requires row.ticker != ""
    ensures TargetDay(row.date, 14).None? ==> DecisionStep(m, t, row, pgDate) == Outcome(t, [], true)
    ensures TargetDay(row.date, 14).Some? ==>
              var p := PlaceOptionOrders(m, row.ticker, TargetDay(row.date, 14).value);
              && DecisionStep(m, t, row, pgDate).orders == (if p.Raised? then [] else p.orders)
              && DecisionStep(m, t, row, pgDate).stopped == (p.Raised? || pgDate(row.drugName).None?)
              && (DecisionStep(m, t, row, pgDate).stopped ==> DecisionStep(m, t, row, pgDate).table == t)
  {
  }

  /** A decision without a ticker is skipped: no orders, no update. */
  lemma NoDecisionTickerSkipped(m: Market, t: DecisionTable, row: DecisionFetched, pgDate: string -> Option<CalendarDate>)
    requires row.ticker == ""
    ensures DecisionStep(m, t, row, pgDate) == Outcome(t, [], false)
  {
  }

  /**
   * As in the study loop, the regulatory flag update does not depend on the
   * orders: with no order placed the step flags the same row it flags with
   * two.
   */
  lemma DecisionFlagIgnoresOrders(m1: Market, m2: Market, t: DecisionTable, row: DecisionFetched,
                                  pgDate: string -> Option<CalendarDate>)
    requires row.ticker != "" && TargetDay(row.date, 14).Some?
    requires PlaceOptionOrders(m1, row.ticker, TargetDay(row.date, 14).value).Placed?
    requires PlaceOptionOrders(m2, row.ticker, TargetDay(row.date, 14).value).Placed?
    requires PlaceOptionOrders(m1, row.ticker, TargetDay(row.date, 14).value).orders == []
    ensures DecisionStep(m1, t, row, pgDate).table == DecisionStep(m2, t, row, pgDate).table
    ensures DecisionStep(m1, t, row, pgDate).stopped == DecisionStep(m2, t, row, pgDate).stopped
    ensures ShiftedKey(row, pgDate).Some? && ShiftedKey(row, pgDate).value in t ==>
              DecisionStep(m1, t, row, pgDate).table[ShiftedKey(row, pgDate).value].traded
  {
  }

  /** `trade_on_regulatory_decisions` */
  function TradeOnDecisions(m: Market, t: DecisionTable, rows: seq<DecisionFetched>,
                            pgDate: string -> Option<CalendarDate>): (r: Outcome<DecisionTable>)
    ensures r.table.Keys == t.Keys && |r.orders| <= 2 * |rows|
    decreases |rows|
  {
    if rows == [] then Outcome(t, [], false)
    else
      var step := DecisionStep(m, t, rows[0], pgDate);
      if step.stopped then step
      else
        var rest := TradeOnDecisions(m, step.table, rows[1..], pgDate);
        Outcome(rest.table, step.orders + rest.orders, rest.stopped)
  }

  /** The key the mis-bound UPDATE of a row can reach, if any. */
  function ShiftedKey(row: DecisionFetched, pgDate: string -> Option<CalendarDate>): Option<DecisionKey> {
    if row.useu.Some? && pgDate(row.drugName).Some? then Some((row.useu.value, row.ticker, pgDate(row.drugName).value))
    else None
  }

  /**
   * A step that stops ends the regulatory loop: the rows before it are
   * processed as a loop of their own, the stopping row adds its orders, and
   * no later row is looked at.
   */
  lemma DecisionsStopAt(m: Market, t: DecisionTable, rows: seq<DecisionFetched>,
                                           pgDate: string -> Option<CalendarDate>, i: nat)
    requires i < |rows|
    requires !TradeOnDecisions(m, t, rows[..i], pgDate).stopped
    requires DecisionStep(m, TradeOnDecisions(m, t, rows[..i], pgDate).table, rows[i], pgDate).stopped
    ensures var pre := TradeOnDecisions(m, t, rows[..i], pgDate);
            var step := DecisionStep(m, pre.table, rows[i], pgDate);
            TradeOnDecisions(m, t, rows, pgDate) == Outcome(step.table, pre.orders + step.orders, true)
    ensures TradeOnDecisions(m, t, rows, pgDate) == TradeOnDecisions(m, t, rows[..i + 1], pgDate)
  {
    var step := (t': DecisionTable, row: DecisionFetched) => DecisionStep(m, t', row, pgDate);
    var prefix := rows[..i + 1];
    assert prefix[..i] == rows[..i] && prefix[i] == rows[i];
    DecisionsAreLoop(m, t, rows, pgDate);
    DecisionsAreLoop(m, t, rows[..i], pgDate);
    DecisionsAreLoop(m, t, prefix, pgDate);
    LoopStopAt(step, t, rows, i);
    LoopStopAt(step, t, prefix, i);
  }

  /**
   * When the lookup for a decision raises, the batch ends there: the table
   * and orders are those the earlier rows left, and the run reports the raise.
   */
  lemma DecisionsRaiseStops(m: Market, t: DecisionTable, rows: seq<DecisionFetched>,
                            pgDate: string -> Option<CalendarDate>, i: nat)
    requires i < |rows| && !TradeOnDecisions(m, t, rows[..i], pgDate).stopped
    requires rows[i].ticker != "" && TargetDay(rows[i].date, 14).Some?
    requires PlaceOptionOrders(m, rows[i].ticker, TargetDay(rows[i].date, 14).value).Raised?
    ensures var pre := TradeOnDecisions(m, t, rows[..i], pgDate);
            TradeOnDecisions(m, t, rows, pgDate) == Outcome(pre.table, pre.orders, true)
  {
    var pre := TradeOnDecisions(m, t, rows[..i], pgDate);
    DecisionStepTargets(m, pre.table, rows[i], pgDate);
    DecisionsStopAt(m, t, rows, pgDate, i);
    assert pre.orders + [] == pre.orders;
  }

  /** The regulatory loop is the shared loop over `DecisionStep`. */
  lemma {:induction false} DecisionsAreLoop(m: Market, t: DecisionTable, rows: seq<DecisionFetched>,
                                            pgDate: string -> Option<CalendarDate>)
    ensures TradeOnDecisions(m, t, rows, pgDate)
              == Loop((t': DecisionTable, row: DecisionFetched) => DecisionStep(m, t', row, pgDate), t, rows)
    decreases |rows|
  {
    if rows != [] {
      DecisionsAreLoop(m, DecisionStep(m, t, rows[0], pgDate).table, rows[1..], pgDate);
    }
  }

  /**
   * The regulatory loop flags nothing but the rows its mis-bound updates
   * reach: a row keeps its flag unless some processed row's shifted key is
   * its own key.
   */
  lemma {:induction false} DecisionsFlagOnlyShifted(m: Market, t: DecisionTable, rows: seq<DecisionFetched>,
                                                    pgDate: string -> Option<CalendarDate>)
    ensures TradeOnDecisions(m, t, rows, pgDate).table.Keys == t.Keys
    ensures forall k :: k in t && (forall i :: 0 <= i < |rows| ==> ShiftedKey(rows[i], pgDate) != Some(k)) ==>
              TradeOnDecisions(m, t, rows, pgDate).table[k] == t[k]
    decreases |rows|
  {
    if rows != [] {
      var step := DecisionStep(m, t, rows[0], pgDate);
      if !step.stopped {
        DecisionsFlagOnlyShifted(m, step.table, rows[1..], pgDate);
        forall k | k in t && (forall i :: 0 <= i < |rows| ==> ShiftedKey(rows[i], pgDate) != Some(k))
          ensures TradeOnDecisions(m, t, rows, pgDate).table[k] == t[k]
        {
          assert ShiftedKey(rows[0], pgDate) != Some(k);
          assert forall i :: 0 <= i < |rows[1..]| ==> ShiftedKey(rows[1..][i], pgDate) != Some(k) by {
            forall i | 0 <= i < |rows[1..]|
              ensures ShiftedKey(rows[1..][i], pgDate) != Some(k)
            {
              assert rows[1..][i] == rows[i + 1];
            }
          }
        }
      }
    }
  }

  /**
   * A row's own update reaches the row only when its region equals its
   * ticker, its ticker equals its drug name, and the drug name reads as its
   * own date.
   */
  lemma OwnKeyNeedsCoincidence(row: DecisionFetched, pgDate: string -> Option<CalendarDate>)
    ensures ShiftedKey(row, pgDate) == Some(FetchedKey(row)) <==>
              row.useu == Some(row.ticker) && row.ticker == row.drugName && pgDate(row.drugName) == Some(row.date)
  {
  }

  /**
   * When no row's shifted key is a stored key (a region code is never a
   * ticker), the regulatory pass changes no flag: the rows it traded are
   * selected again by the next run at the same instant.
   */
  lemma DecisionsNeverFlagged(m: Market, t: DecisionTable, rows: seq<DecisionFetched>,
                              pgDate: string -> Option<CalendarDate>, now: int)
    requires forall i :: 0 <= i < |rows| ==> ShiftedKey(rows[i], pgDate).None? || ShiftedKey(rows[i], pgDate).value !in t
    requires DecisionQueryResult(t, now, rows)
    ensures TradeOnDecisions(m, t, rows, pgDate).table == t
    ensures DecisionQueryResult(TradeOnDecisions(m, t, rows, pgDate).table, now, rows)
  {
    var r := TradeOnDecisions(m, t, rows, pgDate).table;
    DecisionsFlagOnlyShifted(m, t, rows, pgDate);
    forall k | k in t
      ensures r[k] == t[k]
    {
      assert forall i :: 0 <= i < |rows| ==> ShiftedKey(rows[i], pgDate) != Some(k);
    }
    assert r == t;
  }

  // ---------------------------------------------------------------------
  // `run`

  /** Everything `run` changes: both tables and the orders placed. */
  datatype RunState = RunState(studies: StudyTable, decisions: DecisionTable, orders: seq<Order>)

  /** `run` as written: `self.trade_on_regulatory_decisions` is named but not called. */
  function RunAsWritten(m: Market, st: StudyTable, dt: DecisionTable, srows: seq<StudyFetched>,
                        bindRow: StudyFetched -> Option<string>): (r: RunState)
    ensures r.decisions == dt
    ensures r.studies.Keys == st.Keys && |r.orders| <= 2 * |srows|
  {
    var s := TradeOnStudies(m, st, srows, bindRow);
    RunState(s.table, dt, s.orders)
  }

  /** `run` with the call made: the study pass, then the regulatory pass. */
  function RunBoth(m: Market, st: StudyTable, dt: DecisionTable, srows: seq<StudyFetched>,
                   bindRow: StudyFetched -> Option<string>, drows: seq<DecisionFetched>,
                   pgDate: string -> Option<CalendarDate>): RunState {
    var s := TradeOnStudies(m, st, srows, bindRow);
    var d := TradeOnDecisions(m, dt, drows, pgDate);
    RunState(s.table, d.table, s.orders + d.orders)
  }

  /**
   * As written, `run` places no order for any regulatory catalyst, however
   * many candidates there are and whatever the market: its orders and
   * tables are those of the study pass, with the regulatory table untouched.
   */
  lemma RunSkipsDecisions(m: Market, st: StudyTable, dt: DecisionTable, srows: seq<StudyFetched>,
                          bindRow: StudyFetched -> Option<string>, drows: seq<DecisionFetched>,
                          pgDate: string -> Option<CalendarDate>)
    ensures RunAsWritten(m, st, dt, srows, bindRow).decisions == dt
    ensures RunAsWritten(m, st, dt, srows, bindRow).orders == TradeOnStudies(m, st, srows, bindRow).orders
    ensures RunBoth(m, st, dt, srows, bindRow, drows, pgDate).orders
              == RunAsWritten(m, st, dt, srows, bindRow).orders + TradeOnDecisions(m, dt, drows, pgDate).orders
  {
  }
}

=== FILE: order_placer_fixed.dfy ===
/**
 * The straddle trader with its evident intent restored: each row's UPDATE
 * binds that row's own key, the flag is set only when both legs went
 * through, and `run` makes both passes. With these, a row traded in full is
 * never selected, and so never traded, again.
 */
module CorrectedOrderPlacer {
  import opened Wrappers
  import opened Calendar
  import opened PdufaManager
  import opened ClinicalTrials
  import opened OrderPlacer

  /** The state a corrected loop leaves, with the keys of the rows whose two legs both went through. */
  datatype Pass<T, K> = Pass(table: T, orders: seq<Order>, filled: set<K>, stopped: bool)

  /** One corrected iteration of the study loop. */
  function StudyStepFixed(m: Market, t: StudyTable, row: StudyFetched): Pass<StudyTable, string> {
    if row.ticker.None? || row.ticker.value == "" then Pass(t, [], {}, false)
    else
      match TargetDay(row.pcd, 60)
      case None => Pass(t, [], {}, true)
      case Some(target) =>
        match PlaceOptionOrders(m, row.ticker.value, target)
        case Raised => Pass(t, [], {}, true)
        case Placed(os) =>
          if |os| == 2 then Pass(MarkStudy(t, row.nctid), os, {row.nctid}, false)
          else Pass(t, os, {}, false)
  }

  function TradeOnStudiesFixed(m: Market, t: StudyTable, rows: seq<StudyFetched>): Pass<StudyTable, string>
    decreases |rows|
  {
    if rows == [] then Pass(t, [], {}, false)
    else
      var step := StudyStepFixed(m, t, rows[0]);
      if step.stopped then step
      else
        var rest := TradeOnStudiesFixed(m, step.table, rows[1..]);
        Pass(rest.table, step.orders + rest.orders, step.filled + rest.filled, rest.stopped)
  }

  /**
   * Every filled study is flagged, and only filled studies change: the
   * flag records exactly the rows traded in full.
   */
  lemma {:induction false} StudiesFixedFlagsFilled(m: Market, t: StudyTable, rows: seq<StudyFetched>)
    requires forall i :: 0 <= i < |rows| ==> rows[i].nctid in t
    ensures var r := TradeOnStudiesFixed(m, t, rows);
      && r.table.Keys == t.Keys
      && (forall k :: k in r.filled ==> k in r.table && r.table[k].traded)
      && (forall k :: k in t && k !in r.filled ==> r.table[k] == t[k])
    decreases |rows|
  {
    if rows != [] {
      var step := StudyStepFixed(m, t, rows[0]);
      if !step.stopped {
        assert forall i :: 0 <= i < |rows[1..]| ==> rows[1..][i].nctid in step.table by {
          assert forall i :: 0 <= i < |rows[1..]| ==> rows[1..][i] == rows[i + 1];
        }
        StudiesFixedFlagsFilled(m, step.table, rows[1..]);
      }
    }
  }

  /** A study traded in full by one corrected pass is selected by no later query. */
  lemma StudiesNoDoubleTrade(m: Market, t: StudyTable, rows: seq<StudyFetched>, now: int,
                             later: int, next: seq<StudyFetched>)
    requires StudyQueryResult(t, now, rows)
    requires StudyQueryResult(TradeOnStudiesFixed(m, t, rows).table, later, next)
    ensures forall i :: 0 <= i < |next| ==> next[i].nctid !in TradeOnStudiesFixed(m, t, rows).filled
  {
    StudiesFixedFlagsFilled(m, t, rows);
  }

  /** One corrected iteration of the regulatory loop. */
  function DecisionStepFixed(m: Market, t: DecisionTable, row: DecisionFetched): Pass<DecisionTable, DecisionKey> {
    if row.ticker == "" then Pass(t, [], {}, false)
    else
      match TargetDay(row.date, 14)
      case None => Pass(t, [], {}, true)
      case Some(target) =>
        match PlaceOptionOrders(m, row.ticker, target)
        case Raised => Pass(t, [], {}, true)
        case Placed(os) =>
          if |os| == 2 then Pass(MarkDecision(t, Some(row.ticker), row.drugName, row.date), os, {FetchedKey(row)}, false)
          else Pass(t, os, {}, false)
  }

  function TradeOnDecisionsFixed(m: Market, t: DecisionTable, rows: seq<DecisionFetched>): Pass<DecisionTable, DecisionKey>
    decreases |rows|
  {
    if rows == [] then Pass(t, [], {}, false)
    else
      var step := DecisionStepFixed(m, t, rows[0]);
      if step.stopped then step
      else
        var rest := TradeOnDecisionsFixed(m, step.table, rows[1..]);
        Pass(rest.table, step.orders + rest.orders, step.filled + rest.filled, rest.stopped)
  }

  /** Every filled decision is flagged, and only filled decisions change. */
  lemma {:induction false} DecisionsFixedFlagsFilled(m: Market, t: DecisionTable, rows: seq<DecisionFetched>)
    requires forall i :: 0 <= i < |rows| ==> FetchedKey(rows[i]) in t
    ensures var r := TradeOnDecisionsFixed(m, t, rows);
      && r.table.Keys == t.Keys
      && (forall k :: k in r.filled ==> k in r.table && r.table[k].traded)
      && (forall k :: k in t && k !in r.filled ==> r.table[k] == t[k])
    decreases |rows|
  {
    if rows != [] {
      var step := DecisionStepFixed(m, t, rows[0]);
      if !step.stopped {
        assert forall i :: 0 <= i < |rows[1..]| ==> FetchedKey(rows[1..][i]) in step.table by {
          assert forall i :: 0 <= i < |rows[1..]| ==> rows[1..][i] == rows[i + 1];
        }
        DecisionsFixedFlagsFilled(m, step.table, rows[1..]);
      }
    }
  }

  /** A decision traded in full by one corrected pass is selected by no later query. */
  lemma DecisionsNoDoubleTrade(m: Market, t: DecisionTable, rows: seq<DecisionFetched>, now: int,
                               later: int, next: seq<DecisionFetched>)
    requires DecisionQueryResult(t, now, rows)
    requires DecisionQueryResult(TradeOnDecisionsFixed(m, t, rows).table, later, next)
    ensures forall i :: 0 <= i < |next| ==> FetchedKey(next[i]) !in TradeOnDecisionsFixed(m, t, rows).filled
  {
    DecisionsFixedFlagsFilled(m, t, rows);
  }

  /** `run` making both corrected passes. */
  function RunFixed(m: Market, st: StudyTable, dt: DecisionTable,
                    srows: seq<StudyFetched>, drows: seq<DecisionFetched>): RunState {
    var s := TradeOnStudiesFixed(m, st, srows);
    var d := TradeOnDecisionsFixed(m, dt, drows);
    RunState(s.table, d.table, s.orders + d.orders)
  }

  /**
   * The corrected run trades regulatory catalysts too, and a second run
   * (on whatever the queries then return) selects none of the rows the
   * first run traded in full, whatever the market then answers.
   */
  lemma RunFixedNoDoubleTrade(m: Market, st: StudyTable, dt: DecisionTable, now: int,
                              srows: seq<StudyFetched>, drows: seq<DecisionFetched>,
                              later: int, srows2: seq<StudyFetched>, drows2: seq<DecisionFetched>)
    requires StudyQueryResult(st, now, srows) && DecisionQueryResult(dt, now, drows)
    requires var r := RunFixed(m, st, dt, srows, drows);
      StudyQueryResult(r.studies, later, srows2) && DecisionQueryResult(r.decisions, later, drows2)
    ensures RunFixed(m, st, dt, srows, drows).orders
              == TradeOnStudiesFixed(m, st, srows).orders + TradeOnDecisionsFixed(m, dt, drows).orders
    ensures forall i :: 0 <= i < |srows2| ==> srows2[i].nctid !in TradeOnStudiesFixed(m, st, srows).filled
    ensures forall i :: 0 <= i < |drows2| ==> FetchedKey(drows2[i]) !in TradeOnDecisionsFixed(m, dt, drows).filled
  {
    StudiesNoDoubleTrade(m, st, srows, now, later, srows2);
    DecisionsNoDoubleTrade(m, dt, drows, now, later, drows2);
  }
}

=== FILE: pdufa_dates.dfy ===
/**
 * How the FDA calendar scraper reads a decision date out of free text: five
 * regular expressions tried in order, each match interpreted as month, day
 * and year, a quarter, or a month name and year, falling through to the next
 * pattern whenever `int`, `datetime` or the month table rejects it.
 */
module PdufaDates {
  import opened Wrappers
  import opened Text
  import opened Calendar
  import opened Regex

  // ---------------------------------------------------------------------
  // Date patterns

  function Lit(c: char): Atom { Atom(Exactly(c), 1, AtMost(1), false) }

  /** `(\d{1,2})/(\d{1,2})/(\d{4})` */
  const SlashPattern: Pattern :=
    [Atom(Digits, 1, AtMost(2), true), Lit('/'), Atom(Digits, 1, AtMost(2), true), Lit('/'), Atom(Digits, 4, AtMost(4), true)]

  /** `(\d{4})-(\d{1,2})-(\d{1,2})` */
  const IsoPattern: Pattern :=
    [Atom(Digits, 4, AtMost(4), true), Lit('-'), Atom(Digits, 1, AtMost(2), true), Lit('-'), Atom(Digits, 1, AtMost(2), true)]

  /** `(\w+)\s+(\d{1,2}),?\s+(\d{4})` */
  const MonthDayYearPattern: Pattern :=
    [Atom(WordChars, 1, Unbounded, true), Atom(Spaces, 1, Unbounded, false), Atom(Digits, 1, AtMost(2), true),
     Atom(Exactly(','), 0, AtMost(1), false), Atom(Spaces, 1, Unbounded, false), Atom(Digits, 4, AtMost(4), true)]

  /** `Q(\d)\s+(\d{4})` */
  const QuarterPattern: Pattern :=
    [Lit('Q'), Atom(Digits, 1, AtMost(1), true), Atom(Spaces, 1, Unbounded, false), Atom(Digits, 4, AtMost(4), true)]

  /** `(\w+)\s+(\d{4})` */
  const MonthYearPattern: Pattern :=
    [Atom(WordChars, 1, Unbounded, true), Atom(Spaces, 1, Unbounded, false), Atom(Digits, 4, AtMost(4), true)]

  datatype DatePattern = SlashDate | IsoDate | MonthDayYear | Quarter | MonthYear

  function PatternOf(k: DatePattern): Pattern {
    match k
    case SlashDate => SlashPattern
    case IsoDate => IsoPattern
    case MonthDayYear => MonthDayYearPattern
    case Quarter => QuarterPattern
    case MonthYear => MonthYearPattern
  }

  /** The order in which the patterns are tried. */
  const DatePatterns: seq<DatePattern> := [SlashDate, IsoDate, MonthDayYear, Quarter, MonthYear]

  /** Full English month names and their three-letter abbreviations, as the dictionary lists them. */
  const MonthTable: seq<(string, int)> := [
    ("january", 1), ("february", 2), ("march", 3), ("april", 4), ("may", 5), ("june", 6),
    ("july", 7), ("august", 8), ("september", 9), ("october", 10), ("november", 11), ("december", 12),
    ("jan", 1), ("feb", 2), ("mar", 3), ("apr", 4), ("jun", 6),
    ("jul", 7), ("aug", 8), ("sep", 9), ("oct", 10), ("nov", 11), ("dec", 12)]

  /** Where `key` first occurs in the table, or `None`. */
  function Find(table: seq<(string, int)>, key: string): (r: Option<nat>)
    ensures r.Some? ==> r.value < |table| && table[r.value].0 == key
    ensures r.Some? ==> forall i :: 0 <= i < r.value ==> table[i].0 != key
    ensures r.None? ==> forall i :: 0 <= i < |table| ==> table[i].0 != key
  {
    if table == [] then None
    else if table[0].0 == key then Some(0)
    else match Find(table[1..], key)
      case None => None
      case Some(i) => Some(i + 1)
  }

  /** A month name in any letter case, full or abbreviated (`dict.get` on the lower-cased name); `None` for anything else. */
  function MonthNumber(name: string): (r: Option<int>)
    ensures r.Some? ==> 1 <= r.value <= 12
    ensures r.Some? <==> exists i :: 0 <= i < |MonthTable| && MonthTable[i].0 == Lower(name)
  {
    match Find(MonthTable, Lower(name))
    case None => None
    case Some(i) => MonthEntry(i); Some(MonthTable[i].1)
  }

  /** Every month key is at least three lower-case letters, none of them `q`, and maps to a month number. */
  lemma MonthEntry(i: nat)
    requires i < |MonthTable|
    ensures 1 <= MonthTable[i].1 <= 12 && |MonthTable[i].0| >= 3
    ensures forall x :: 0 <= x < |MonthTable[i].0| ==> IsLower(MonthTable[i].0[x]) && MonthTable[i].0[x] != 'q'
  {
  }

  /** Quarter `q` of year `y` stands for the 15th of the quarter's middle month, if `datetime` accepts it. */
  function QuarterDate(q: int, y: int): (r: Option<CalendarDate>)
    ensures r.Some? <==> 1 <= q <= 4 && MinYear <= y <= MaxYear
    ensures r.Some? ==> r.value == Date(y, 3 * q - 1, 15)
  {
    MakeDate(y, (q - 1) * 3 + 2, 15)
  }

  /** `str.isdigit` */
  predicate IsDigitString(s: string) {
    s != [] && AllDigits(s)
  }

  /** The range of a C `int`, the type `datetime` converts its year, month and day to. */
  predicate FitsCInt(v: int) {
    -0x8000_0000 <= v < 0x8000_0000
  }

  /**
   * How one pattern's attempt ends: `Read(Some(d))` returns `d`, `Read(None)`
   * moves on to the next pattern, and `Raised` is an exception that
   * `except ValueError` does not catch.
   */
  datatype Reading = Read(date: Option<CalendarDate>) | Raised

  function AsDate(r: Reading): Option<CalendarDate> {
    if r.Read? then r.date else None
  }

  /**
   * What one pattern's groups give. The quarter pattern is told apart by its
   * `Q`, the others by their number of groups; a digit-only first group is
   * read as month, day, year — the ISO pattern included, which reads the year
   * as the month.
   */
  function ReadingOf(k: DatePattern, g: seq<string>): Reading
    requires |g| == GroupCount(k)
  {
    if k == Quarter then QuarterOf(PyInt(g[0]), PyInt(g[1]))
    else if |g| == 2 then DateOf(PyInt(g[1]), MonthNumber(g[0]), Some(15))
    else if |g| == 3 then
      if IsDigitString(g[0]) then DateOf(PyInt(g[2]), PyInt(g[0]), PyInt(g[1]))
      else DateOf(PyInt(g[2]), MonthNumber(g[0]), PyInt(g[1]))
    else Read(None)
  }

  /** The date one pattern's groups give; `None` when the loop moves on or the attempt raises. */
  function Interpret(k: DatePattern, g: seq<string>): Option<CalendarDate>
    requires |g| == GroupCount(k)
  {
    AsDate(ReadingOf(k, g))
  }

  /**
   * `datetime(year, month, day)` once every field has been read. A field
   * outside the C `int` range makes CPython's argument conversion raise
   * `OverflowError` before the date is checked; an invalid date raises
   * `ValueError`, and so does `int` on a group it cannot read, or the month
   * name is unknown: in those cases the loop moves on.
   */
  function DateOf(year: Option<int>, month: Option<int>, day: Option<int>): Reading {
    if year.None? || month.None? || day.None? then Read(None)
    else if !(FitsCInt(year.value) && FitsCInt(month.value) && FitsCInt(day.value)) then Raised
    else Read(MakeDate(year.value, month.value, day.value))
  }

  /** The quarter's date once both fields have been read: the 15th of month `3q - 1`. */
  function QuarterOf(q: Option<int>, year: Option<int>): Reading {
    if q.None? || year.None? then Read(None) else DateOf(year, Some((q.value - 1) * 3 + 2), Some(15))
  }

  /** A date comes out exactly when `datetime` accepts the fields: no valid date lies outside the C `int` range. */
  lemma DateOfValue(year: int, month: int, day: int)
    ensures AsDate(DateOf(Some(year), Some(month), Some(day))) == MakeDate(year, month, day)
  {
  }

  /** How many groups each pattern captures. */
  function GroupCount(k: DatePattern): nat {
    if k == Quarter || k == MonthYear then 2 else 3
  }

  lemma GroupCountIsCaptures(k: DatePattern)
    ensures GroupCount(k) == CaptureCount(PatternOf(k))
  {
  }

  /** One pattern on the stripped text: its first match, interpreted. */
  function TryPattern(k: DatePattern, t: string): Option<CalendarDate> {
    match SearchGroups(t, PatternOf(k))
    case None => None
    case Some(g) =>
      GroupCountIsCaptures(k);
      Interpret(k, g)
  }

  /** How one pattern's attempt on the stripped text ends; no match moves on. */
  function TryReading(k: DatePattern, t: string): (r: Reading)
    ensures AsDate(r) == TryPattern(k, t)
  {
    match SearchGroups(t, PatternOf(k))
    case None => Read(None)
    case Some(g) =>
      GroupCountIsCaptures(k);
      ReadingOf(k, g)
  }

  /** The outcome of each pattern, in the order they are tried. */
  function Attempts(t: string): seq<Option<CalendarDate>> {
    [TryPattern(SlashDate, t), TryPattern(IsoDate, t), TryPattern(MonthDayYear, t),
     TryPattern(Quarter, t), TryPattern(MonthYear, t)]
  }

  /** The first present value, scanning from the left. */
  function FirstSome<T>(xs: seq<Option<T>>): Option<T> {
    if xs == [] then None
    else if xs[0].Some? then xs[0]
    else FirstSome(xs[1..])
  }

  /**
   * `_parse_date`: strip, then the first pattern that yields a valid date.
   * This is what it returns unless an attempt raises first (`ParseDateRaises`).
   */
  function ParseDate(text: string): Option<CalendarDate> {
    FirstSome(Attempts(Strip(text)))
  }

  /** How each pattern's attempt ends, in the order they are tried. */
  function Readings(t: string): seq<Reading> {
    [TryReading(SlashDate, t), TryReading(IsoDate, t), TryReading(MonthDayYear, t),
     TryReading(Quarter, t), TryReading(MonthYear, t)]
  }

  /** The attempt that ends the loop: the first that does not move on, or `Read(None)` when all do. */
  function FirstDecided(rs: seq<Reading>): Reading {
    if rs == [] then Read(None)
    else if rs[0] != Read(None) then rs[0]
    else FirstDecided(rs[1..])
  }

  /** `_parse_date` lets an exception escape instead of returning. */
  predicate ParseDateRaises(text: string) {
    FirstDecided(Readings(Strip(text))).Raised?
  }

  /** The value found is the first present one; `None` means every entry is `None`. */
  lemma {:induction false} FirstSomeWins<T>(xs: seq<Option<T>>)
    ensures FirstSome(xs).None? <==> forall j :: 0 <= j < |xs| ==> xs[j].None?
    ensures FirstSome(xs).Some? ==>
              exists i :: 0 <= i < |xs| && xs[i] == FirstSome(xs) && forall j :: 0 <= j < i ==> xs[j].None?
  {
    if xs != [] && xs[0].None? {
      FirstSomeWins(xs[1..]);
      if FirstSome(xs).Some? {
        var i :| 0 <= i < |xs[1..]| && xs[1..][i] == FirstSome(xs[1..]) && forall j :: 0 <= j < i ==> xs[1..][j].None?;
        assert xs[i + 1] == FirstSome(xs);
        forall j | 0 <= j < i + 1
          ensures xs[j].None?
        {
          if j > 0 {
            assert xs[j] == xs[1..][j - 1];
          }
        }
      }
      forall j | 0 < j < |xs|
        ensures xs[j] == xs[1..][j - 1]
      {
      }
    }
  }

  /** Entries known to be `None` at the front can be dropped. */
  lemma {:induction false} FirstSomeSkip<T>(xs: seq<Option<T>>, i: nat)
    requires i <= |xs| && forall j :: 0 <= j < i ==> xs[j].None?
    ensures FirstSome(xs) == FirstSome(xs[i..])
  {
    if i > 0 {
      FirstSomeSkip(xs[1..], i - 1);
      assert xs[1..][i - 1..] == xs[i..];
    }
  }

  lemma FirstSomeTwo<T>(a: Option<T>, b: Option<T>)
    ensures FirstSome([a, b]) == if a.Some? then a else b
  {
    if a.None? {
      var rest := [a, b][1..];
      assert rest == [b];
      assert rest[1..] == [];
      assert FirstSome(rest[1..]) == None;
      assert FirstSome(rest) == b;
    }
  }

  /**
   * `_parse_date` tries the slash, ISO, month-day-year, quarter and
   * month-year patterns in that order: the date it returns is the first
   * pattern's that yields one, and it returns `None` only when none does.
   */
  lemma {:induction false} AttemptsAt(t: string, j: nat)
    requires j < |DatePatterns|
    ensures |Attempts(t)| == |DatePatterns|
    ensures Attempts(t)[j] == TryPattern(DatePatterns[j], t)
  {
    var xs := Attempts(t);
    if j == 0 {
      assert xs[0] == TryPattern(SlashDate, t);
    } else if j == 1 {
      assert xs[1] == TryPattern(IsoDate, t);
    } else if j == 2 {
      assert xs[2] == TryPattern(MonthDayYear, t);
    } else if j == 3 {
      assert xs[3] == TryPattern(Quarter, t);
    } else {
      assert xs[4] == TryPattern(MonthYear, t);
    }
  }

  lemma {:induction false} ParseDateNone(text: string)
    ensures ParseDate(text).None? <==> forall j :: 0 <= j < |DatePatterns| ==> TryPattern(DatePatterns[j], Strip(text)).None?
  {
    var xs := Attempts(Strip(text));
    FirstSomeWins(xs);
    forall j | 0 <= j < |DatePatterns|
      ensures xs[j] == TryPattern(DatePatterns[j], Strip(text))
    {
      AttemptsAt(Strip(text), j);
    }
  }

  lemma {:induction false} ParseDateFirstWins(text: string)
    ensures ParseDate(text).Some? ==>
              exists i :: 0 <= i < |DatePatterns| && TryPattern(DatePatterns[i], Strip(text)) == ParseDate(text)
                          && forall j :: 0 <= j < i ==> TryPattern(DatePatterns[j], Strip(text)).None?
  {
    var xs := Attempts(Strip(text));
    FirstSomeWins(xs);
    forall j | 0 <= j < |DatePatterns|
      ensures xs[j] == TryPattern(DatePatterns[j], Strip(text))
    {
      AttemptsAt(Strip(text), j);
    }
  }

  // ---------------------------------------------------------------------
  // When `_parse_date` raises

  /** The loop ends at the first attempt that does not move on, and runs out only when every attempt moves on. */
  lemma {:induction false} FirstDecidedIs(rs: seq<Reading>)
    ensures FirstDecided(rs) == Read(None) ==> forall j :: 0 <= j < |rs| ==> rs[j] == Read(None)
    ensures FirstDecided(rs) != Read(None) ==>
              exists i :: 0 <= i < |rs| && rs[i] == FirstDecided(rs) && forall j :: 0 <= j < i ==> rs[j] == Read(None)
  {
    if rs != [] && rs[0] == Read(None) {
      FirstDecidedIs(rs[1..]);
      if FirstDecided(rs) != Read(None) {
        var i :| 0 <= i < |rs[1..]| && rs[1..][i] == FirstDecided(rs[1..]) && forall j :: 0 <= j < i ==> rs[1..][j] == Read(None);
        assert rs[i + 1] == FirstDecided(rs);
        forall j | 0 <= j < i + 1
          ensures rs[j] == Read(None)
        {
          if j > 0 {
            assert rs[j] == rs[1..][j - 1];
          }
        }
      }
      forall j | 0 < j < |rs|
        ensures rs[j] == rs[1..][j - 1]
      {
      }
    }
  }

  /** When no attempt raises before the loop ends, the first present date is the one the loop returns. */
  lemma {:induction false} FirstDecidedDate(rs: seq<Reading>, xs: seq<Option<CalendarDate>>)
    requires |rs| == |xs| && forall i :: 0 <= i < |rs| ==> xs[i] == AsDate(rs[i])
    requires !FirstDecided(rs).Raised?
    ensures FirstSome(xs) == AsDate(FirstDecided(rs))
  {
    if rs != [] && rs[0] == Read(None) {
      assert forall i :: 0 <= i < |rs[1..]| ==> xs[1..][i] == AsDate(rs[1..][i]) by {
        forall i | 0 <= i < |rs[1..]|
          ensures xs[1..][i] == AsDate(rs[1..][i])
        {
          assert xs[1..][i] == xs[i + 1] && rs[1..][i] == rs[i + 1];
        }
      }
      FirstDecidedDate(rs[1..], xs[1..]);
    }
  }

  /** Unless it raises, `_parse_date` returns `ParseDate`: the date of the first attempt that does not move on. */
  lemma {:induction false} ParseDateReturned(text: string)
    ensures !ParseDateRaises(text) ==> ParseDate(text) == AsDate(FirstDecided(Readings(Strip(text))))
  {
    var t := Strip(text);
    var rs, xs := Readings(t), Attempts(t);
    assert forall i :: 0 <= i < |rs| ==> xs[i] == AsDate(rs[i]) by {
      forall i | 0 <= i < |rs|
        ensures xs[i] == AsDate(rs[i])
      {
        AttemptsAt(t, i);
        assert rs[i] == TryReading(DatePatterns[i], t);
      }
    }
    if !ParseDateRaises(text) {
      FirstDecidedDate(rs, xs);
    }
  }

  /** One to four ASCII digits, as the `\d{1,2}` and `\d{4}` groups hold. */
  predicate SmallDigits(s: string) {
    1 <= |s| <= 4 && AllDigits(s)
  }

  lemma SmallDigitsValue(s: string)
    requires SmallDigits(s)
    ensures PyInt(s) == Some(DigitsValue(s)) && DigitsValue(s) < 10000
  {
    PyIntOfDigits(s);
    SmallDigitsBound(s);
  }

  lemma SmallDigitsBound(s: string)
    requires SmallDigits(s)
    ensures DigitsValue(s) < 10000
  {
    DigitsValueBound(s);
    assert Pow10(|s|) <= 10000 by {
      if |s| == 1 {
        assert Pow10(1) == 10;
      } else if |s| == 2 {
        assert Pow10(2) == 100;
      } else if |s| == 3 {
        assert Pow10(3) == 1000;
      } else {
        assert Pow10(4) == 10000;
      }
    }
  }

  /** A group that a capturing atom `\d{lo,hi}` with `lo >= 1` and `hi <= 4` took holds one to four digits. */
  lemma {:induction false} CapturedDigits(t: string, st: nat, p: Pattern, spans: seq<Span>, x: nat)
    requires SoundMatch(t, st, p, spans) && x < |Groups(p, spans)|
    requires forall j :: x <= j < |p| && p[j].capture ==> p[j].cls == Digits && p[j].lo >= 1 && p[j].hi.AtMost? && p[j].hi.n <= 4
    ensures SmallDigits(Groups(p, spans)[x])
  {
    var j := GroupSpan(p, spans, x);
    var sp := spans[j];
    assert AtomMatches(t, p[j], sp);
    forall i | 0 <= i < |sp.text|
      ensures IsDigit(sp.text[i])
    {
      assert sp.text[i] == t[sp.start + i];
    }
  }

  /** The groups of a match of pattern `k`, with the facts a sound match gives. */
  lemma {:induction false} MatchGroups(k: DatePattern, t: string) returns (st: nat, spans: seq<Span>)
    requires SearchGroups(t, PatternOf(k)).Some?
    ensures SoundMatch(t, st, PatternOf(k), spans)
    ensures SearchGroups(t, PatternOf(k)) == Some(Groups(PatternOf(k), spans))
    ensures |Groups(PatternOf(k), spans)| == GroupCount(k)
  {
    var P := PatternOf(k);
    spans := Search(t, P).value;
    SearchSound(t, P);
    st :| 0 <= st <= |t| && SoundMatch(t, st, P, spans);
    GroupsLength(P, spans);
    GroupCountIsCaptures(k);
  }

  /** Small groups never overflow: the month from the table is 1 to 12, and the quarter digit gives a month below 30. */
  lemma {:induction false} SmallGroupsNoRaise(k: DatePattern, g: seq<string>)
    requires k != MonthDayYear && |g| == GroupCount(k)
    requires forall x :: 0 <= x < |g| && (k != MonthYear || x == 1) ==> SmallDigits(g[x])
    ensures ReadingOf(k, g) != Raised
  {
    if k == MonthYear {
      MonthYearNoRaise(g);
    } else if k == Quarter {
      QuarterNoRaise(g);
    } else {
      DigitsNoRaise(k, g);
    }
  }

  lemma {:induction false} MonthYearNoRaise(g: seq<string>)
    requires |g| == 2 && SmallDigits(g[1])
    ensures ReadingOf(MonthYear, g) != Raised
  {
    assert g == [g[0], g[1]];
    SmallDigitsValue(g[1]);
    MonthYearReading(g[0], g[1]);
    var m := MonthNumber(g[0]);
    assert m.Some? ==> 1 <= m.value <= 12;
    SmallFieldsNoRaise(PyInt(g[1]), m, Some(15));
  }

  lemma {:induction false} QuarterNoRaise(g: seq<string>)
    requires |g| == 2 && SmallDigits(g[0]) && SmallDigits(g[1])
    ensures ReadingOf(Quarter, g) != Raised
  {
    QuarterValues(g);
    SmallDigitsBound(g[0]);
    SmallDigitsBound(g[1]);
    SmallFieldsNoRaise(Some(DigitsValue(g[1])), Some((DigitsValue(g[0]) - 1) * 3 + 2), Some(15));
  }

  lemma {:induction false} QuarterValues(g: seq<string>)
    requires |g| == 2 && SmallDigits(g[0]) && SmallDigits(g[1])
    ensures ReadingOf(Quarter, g) == DateOf(Some(DigitsValue(g[1])), Some((DigitsValue(g[0]) - 1) * 3 + 2), Some(15))
  {
    assert g == [g[0], g[1]];
    SmallDigitsValue(g[0]);
    SmallDigitsValue(g[1]);
    QuarterReading(g[0], g[1]);
  }

  lemma {:induction false} DigitsNoRaise(k: DatePattern, g: seq<string>)
    requires k != Quarter && |g| == GroupCount(k) == 3
    requires SmallDigits(g[0]) && SmallDigits(g[1]) && SmallDigits(g[2])
    ensures ReadingOf(k, g) != Raised
  {
    SmallDigitsValue(g[0]);
    SmallDigitsValue(g[1]);
    SmallDigitsValue(g[2]);
    DigitsReading(k, g);
    SmallFieldsNoRaise(PyInt(g[2]), PyInt(g[0]), PyInt(g[1]));
  }

  /** Fields that are small numbers, or unread, never raise. */
  lemma SmallFieldsNoRaise(year: Option<int>, month: Option<int>, day: Option<int>)
    requires year.Some? ==> -100_000 <= year.value < 100_000
    requires month.Some? ==> -100_000 <= month.value < 100_000
    requires day.Some? ==> -100_000 <= day.value < 100_000
    ensures DateOf(year, month, day) != Raised
  {
  }

  lemma DigitsReading(k: DatePattern, g: seq<string>)
    requires k != Quarter && |g| == GroupCount(k) == 3 && IsDigitString(g[0])
    requires PyInt(g[0]).Some? && PyInt(g[1]).Some? && PyInt(g[2]).Some?
    ensures ReadingOf(k, g) == DateOf(PyInt(g[2]), PyInt(g[0]), PyInt(g[1]))
  {
  }

  lemma NamedReading(k: DatePattern, g: seq<string>)
    requires k != Quarter && |g| == GroupCount(k) == 3 && !IsDigitString(g[0])
    ensures ReadingOf(k, g) == DateOf(PyInt(g[2]), MonthNumber(g[0]), PyInt(g[1]))
  {
  }

  lemma MonthYearReading(name: string, y: string)
    ensures ReadingOf(MonthYear, [name, y]) == DateOf(PyInt(y), MonthNumber(name), Some(15))
  {
  }

  lemma QuarterReading(q: string, y: string)
    ensures ReadingOf(Quarter, [q, y]) == QuarterOf(PyInt(q), PyInt(y))
  {
  }

  /**
   * Only the month-day-year pattern can raise: every group the other
   * patterns read as a number is one to four digits, so no field leaves
   * the C `int` range.
   */
  lemma {:induction false} OnlyMonthDayYearRaises(k: DatePattern, t: string)
    requires k != MonthDayYear
    ensures TryReading(k, t) != Raised
  {
    var P := PatternOf(k);
    if SearchGroups(t, P).Some? {
      var st, spans := MatchGroups(k, t);
      var g := Groups(P, spans);
      forall x | 0 <= x < |g| && (k != MonthYear || x == 1)
        ensures SmallDigits(g[x])
      {
        CapturedDigits(t, st, P, spans, x);
      }
      SmallGroupsNoRaise(k, g);
    }
  }

  /** The month-day-year pattern matches, and its first group is digits too large for a C `int`. */
  predicate MonthOverflow(t: string) {
    match SearchGroups(t, MonthDayYearPattern)
    case None => false
    case Some(g) => |g| == 3 && IsDigitString(g[0]) && DigitsValue(g[0]) >= 0x8000_0000
  }

  /** The month-day-year attempt raises exactly when its first group is digits worth at least 2^31. */
  lemma {:induction false} MonthDayYearRaises(t: string)
    ensures TryReading(MonthDayYear, t) == Raised <==> MonthOverflow(t)
  {
    var P := MonthDayYearPattern;
    if SearchGroups(t, P).Some? {
      var st, spans := MatchGroups(MonthDayYear, t);
      var g := Groups(P, spans);
      CapturedDigits(t, st, P, spans, 1);
      CapturedDigits(t, st, P, spans, 2);
      assert TryReading(MonthDayYear, t) == ReadingOf(MonthDayYear, g);
      MonthDayYearGroupsRaise(g);
    }
  }

  /** With the day and year groups of the pattern, only a digit-only month of at least 2^31 raises. */
  lemma {:induction false} MonthDayYearGroupsRaise(g: seq<string>)
    requires |g| == 3 && SmallDigits(g[1]) && SmallDigits(g[2])
    ensures ReadingOf(MonthDayYear, g) == Raised <==> IsDigitString(g[0]) && DigitsValue(g[0]) >= 0x8000_0000
  {
    SmallDigitsValue(g[1]);
    SmallDigitsValue(g[2]);
    if IsDigitString(g[0]) {
      PyIntOfDigits(g[0]);
      DigitsReading(MonthDayYear, g);
    } else {
      NamedReading(MonthDayYear, g);
    }
  }

  /**
   * `_parse_date` raises exactly when neither the slash nor the ISO pattern
   * gives a date and the month-day-year pattern's first group is digits
   * worth at least 2^31: `datetime` then raises `OverflowError`, which
   * `except ValueError` does not catch.
   */
  lemma {:induction false} ParseDateRaisesIff(text: string)
    ensures ParseDateRaises(text) <==>
              TryPattern(SlashDate, Strip(text)) == None && TryPattern(IsoDate, Strip(text)) == None && MonthOverflow(Strip(text))
  {
    var t := Strip(text);
    OnlyMonthDayYearRaises(SlashDate, t);
    OnlyMonthDayYearRaises(IsoDate, t);
    OnlyMonthDayYearRaises(Quarter, t);
    OnlyMonthDayYearRaises(MonthYear, t);
    MonthDayYearRaises(t);
    FiveRaised(TryReading(SlashDate, t), TryReading(IsoDate, t), TryReading(MonthDayYear, t),
               TryReading(Quarter, t), TryReading(MonthYear, t));
  }

  /** Among five attempts where only the third can raise, the loop raises when the first two move on and the third raises. */
  lemma FiveRaised(a: Reading, b: Reading, c: Reading, d: Reading, e: Reading)
    requires a != Raised && b != Raised && d != Raised && e != Raised
    ensures FirstDecided([a, b, c, d, e]).Raised? <==> AsDate(a) == None && AsDate(b) == None && c == Raised
  {
    assert [a, b, c, d, e][1..] == [b, c, d, e];
    assert [b, c, d, e][1..] == [c, d, e];
    assert AsDate(a) == None <==> a == Read(None);
    assert AsDate(b) == None <==> b == Read(None);
    assert FirstDecided([a, b, c, d, e]) == if a != Read(None) then a else FirstDecided([b, c, d, e]);
    assert FirstDecided([b, c, d, e]) == if b != Read(None) then b else FirstDecided([c, d, e]);
    assert FirstDecided([c, d, e]) == if c != Read(None) then c else FirstDecided([d, e]);
    assert FirstDecided([d, e]) != Raised by {
      assert [d, e][1..] == [e];
      assert [e][1..] == [];
      assert FirstDecided([d, e]) == if d != Read(None) then d else FirstDecided([e]);
      assert FirstDecided([e]) == if e != Read(None) then e else FirstDecided([]);
    }
  }

  /**
   * Text cannot make `_parse_date` raise when the slash or ISO attempt
   * gives a date, or when the month-day-year attempt gives a date or finds
   * no match.
   */
  lemma {:induction false} NoRaiseCases(text: string)
    ensures TryPattern(SlashDate, Strip(text)).Some? || TryPattern(IsoDate, Strip(text)).Some? ==> !ParseDateRaises(text)
    ensures TryPattern(MonthDayYear, Strip(text)).Some? ==> !ParseDateRaises(text)
    ensures SearchGroups(Strip(text), PatternOf(MonthDayYear)) == None ==> !ParseDateRaises(text)
  {
    ParseDateRaisesIff(text);
    MonthDayYearRaises(Strip(text));
  }

  /** A digit-only month group of at least 2^31 makes the month-day-year attempt raise. */
  lemma {:induction false} HugeMonthGroup(k: DatePattern, g: seq<string>)
    requires k != Quarter && |g| == GroupCount(k) == 3
    requires IsDigitString(g[0]) && DigitsValue(g[0]) >= 0x8000_0000
    requires IsDigitString(g[1]) && IsDigitString(g[2])
    ensures ReadingOf(k, g) == Raised
  {
    PyIntOfDigits(g[0]);
    PyIntOfDigits(g[1]);
    PyIntOfDigits(g[2]);
    assert ReadingOf(k, g) == DateOf(Some(DigitsValue(g[2])), Some(DigitsValue(g[0])), Some(DigitsValue(g[1])));
  }

  // ---------------------------------------------------------------------
  // What particular texts parse to

  /** Every character of `YYYY-MM-DD` text is a digit or a hyphen. */
  lemma {:induction false} FullDateChars(s: string)
    requires FullDateShape(s)
    ensures forall x :: 0 <= x < |s| ==> IsDigit(s[x]) || s[x] == '-'
  {
    forall x | 0 <= x < |s|
      ensures IsDigit(s[x]) || s[x] == '-'
    {
      if x < 4 {
        assert s[x] == s[0..4][x];
      } else if 4 < x < 7 {
        assert s[x] == s[5..7][x - 5];
      } else if 7 < x {
        assert s[x] == s[8..10][x - 8];
      }
    }
  }

  /** A date from the first pattern is the answer. */
  lemma {:induction false} FirstPatternHit(text: string)
    requires TryPattern(SlashDate, Strip(text)).Some?
    ensures ParseDate(text) == TryPattern(SlashDate, Strip(text))
  {
  }

  /** When the first two patterns yield nothing, the search goes on with the month-day-year pattern. */
  lemma {:induction false} ParseDateAfterTwo(text: string)
    requires TryPattern(SlashDate, Strip(text)) == None && TryPattern(IsoDate, Strip(text)) == None
    ensures ParseDate(text) == FirstSome(Attempts(Strip(text))[2..])
  {
    var t := Strip(text);
    var xs := Attempts(t);
    assert xs[0] == TryPattern(SlashDate, t) && xs[1] == TryPattern(IsoDate, t);
    FirstSomeSkip(xs, 2);
  }

  /** When the first three patterns yield nothing, the search goes on with the quarter pattern. */
  lemma {:induction false} ParseDateAfterThree(text: string)
    requires TryPattern(SlashDate, Strip(text)) == None && TryPattern(IsoDate, Strip(text)) == None
    requires TryPattern(MonthDayYear, Strip(text)) == None
    ensures ParseDate(text) == FirstSome(Attempts(Strip(text))[3..])
  {
    var t := Strip(text);
    var xs := Attempts(t);
    assert xs[0] == TryPattern(SlashDate, t) && xs[1] == TryPattern(IsoDate, t) && xs[2] == TryPattern(MonthDayYear, t);
    FirstSomeSkip(xs, 3);
  }

  /** When the first three patterns yield nothing, the quarter pattern decides, or else the month-year pattern. */
  lemma {:induction false} ParseDateLastTwo(text: string)
    requires TryPattern(SlashDate, Strip(text)) == None && TryPattern(IsoDate, Strip(text)) == None
    requires TryPattern(MonthDayYear, Strip(text)) == None
    ensures ParseDate(text) == if TryPattern(Quarter, Strip(text)).Some? then TryPattern(Quarter, Strip(text)) else TryPattern(MonthYear, Strip(text))
  {
    ParseDateAfterThree(text);
    FirstSomeTwo(TryPattern(Quarter, Strip(text)), TryPattern(MonthYear, Strip(text)));
    assert Attempts(Strip(text))[3..] == [TryPattern(Quarter, Strip(text)), TryPattern(MonthYear, Strip(text))];
  }

  /** A pattern with a mandatory atom whose class the text lacks yields nothing. */
  lemma {:induction false} ClassAbsentNoDate(k: DatePattern, t: string, j: nat)
    requires j < |PatternOf(k)| && PatternOf(k)[j].lo >= 1
    requires forall x :: 0 <= x < |t| ==> !InClass(t[x], PatternOf(k)[j].cls)
    ensures SearchGroups(t, PatternOf(k)) == None
    ensures TryPattern(k, t) == None && TryReading(k, t) == Read(None)
  {
    SearchNeedsClass(t, PatternOf(k), j);
  }

  /** When each of the five patterns yields nothing, the text has no date. */
  lemma {:induction false} NoPatternNoDate(text: string)
    requires TryPattern(SlashDate, Strip(text)) == None && TryPattern(IsoDate, Strip(text)) == None
    requires TryPattern(MonthDayYear, Strip(text)) == None && TryPattern(Quarter, Strip(text)) == None
    requires TryPattern(MonthYear, Strip(text)) == None
    ensures ParseDate(text) == None
  {
    ParseDateLastTwo(text);
  }

  /** Every pattern needs at least one digit: in a text without digits none of them matches. */
  lemma {:induction false} NoDigitsNoMatch(t: string)
    requires forall x :: 0 <= x < |t| ==> !IsDigit(t[x])
    ensures forall k: DatePattern :: SearchGroups(t, PatternOf(k)) == None
    ensures forall k: DatePattern :: TryPattern(k, t) == None && TryReading(k, t) == Read(None)
  {
    assert forall x :: 0 <= x < |t| ==> !InClass(t[x], Digits);
    assert PatternOf(SlashDate)[0] == Atom(Digits, 1, AtMost(2), true);
    ClassAbsentNoDate(SlashDate, t, 0);
    assert PatternOf(IsoDate)[0] == Atom(Digits, 4, AtMost(4), true);
    ClassAbsentNoDate(IsoDate, t, 0);
    assert PatternOf(MonthDayYear)[2] == Atom(Digits, 1, AtMost(2), true);
    ClassAbsentNoDate(MonthDayYear, t, 2);
    assert PatternOf(Quarter)[1] == Atom(Digits, 1, AtMost(1), true);
    ClassAbsentNoDate(Quarter, t, 1);
    assert PatternOf(MonthYear)[2] == Atom(Digits, 4, AtMost(4), true);
    ClassAbsentNoDate(MonthYear, t, 2);
  }

  /** Every pattern needs at least one digit, so a text without digits has no date, and nothing raises. */
  lemma {:induction false} NoDigitsNoDate(text: string)
    requires forall x :: 0 <= x < |text| ==> !IsDigit(text[x])
    ensures ParseDate(text) == None && !ParseDateRaises(text)
  {
    var t := Strip(text);
    assert forall x :: 0 <= x < |t| ==> !IsDigit(t[x]) by {
      forall x | 0 <= x < |t|
        ensures !IsDigit(t[x])
      {
        assert t[x] in t;
      }
    }
    NoDigitsMiss(text, t);
  }

  lemma {:induction false} NoDigitsMiss(text: string, t: string)
    requires t == Strip(text) && forall x :: 0 <= x < |t| ==> !IsDigit(t[x])
    ensures ParseDate(text) == None && !ParseDateRaises(text)
  {
    assert ParseDate(text) == None by {
      NoDigitsNoMatch(t);
      NoPatternNoDate(text);
    }
    assert !ParseDateRaises(text) by {
      NoDigitsNoMatch(t);
      NoRaiseCases(text);
    }
  }

  /**
   * A digit-only first group above 12 is a month `datetime` rejects: below
   * 2^31 with a ValueError the loop catches, so the attempt moves on; from
   * 2^31 on with an OverflowError that escapes.
   */
  lemma {:induction false} BadMonthGroup(k: DatePattern, g: seq<string>)
    requires k != Quarter && |g| == GroupCount(k) == 3
    requires IsDigitString(g[0]) && DigitsValue(g[0]) > 12
    ensures Interpret(k, g) == None
    ensures SmallDigits(g[1]) && SmallDigits(g[2]) ==>
              ReadingOf(k, g) == if DigitsValue(g[0]) < 0x8000_0000 then Read(None) else Raised
  {
    assert Interpret(k, g) == None by {
      PyIntOfDigits(g[0]);
    }
    if SmallDigits(g[1]) && SmallDigits(g[2]) {
      BadMonthReading(k, g);
      SmallDigitsBound(g[1]);
      SmallDigitsBound(g[2]);
      BadMonthDate(DigitsValue(g[2]), DigitsValue(g[0]), DigitsValue(g[1]));
    }
  }

  lemma BadMonthReading(k: DatePattern, g: seq<string>)
    requires k != Quarter && |g| == GroupCount(k) == 3
    requires IsDigitString(g[0]) && SmallDigits(g[1]) && SmallDigits(g[2])
    ensures ReadingOf(k, g) == DateOf(Some(DigitsValue(g[2])), Some(DigitsValue(g[0])), Some(DigitsValue(g[1])))
  {
    PyIntOfDigits(g[0]);
    SmallDigitsValue(g[1]);
    SmallDigitsValue(g[2]);
    DigitsReading(k, g);
  }

  /** `datetime` with a month above 12 and a small year and day. */
  lemma BadMonthDate(year: int, month: int, day: int)
    requires 0 <= year < 10000 && 0 <= day < 10000 && month > 12
    ensures DateOf(Some(year), Some(month), Some(day)) == if month < 0x8000_0000 then Read(None) else Raised
  {
    assert !ValidDate(Date(year, month, day));
  }

  /** In `YYYY-MM-DD` text the only run of four digits is the year. */
  lemma {:induction false} FourDigitsAreTheYear(s: string, a: nat)
    requires FullDateShape(s) && a + 4 <= |s|
    requires forall j :: a <= j < a + 4 ==> IsDigit(s[j])
    ensures a == 0
  {
    assert IsDigit(s[a]) && IsDigit(s[a + 3]);
  }

  lemma {:induction false} IsoPatternRejects(s: string)
    requires FullDateShape(s) && s[0] != '0'
    ensures TryPattern(IsoDate, s) == None
  {
    if Search(s, IsoPattern).Some? {
      var g := Groups(IsoPattern, Search(s, IsoPattern).value);
      IsoMatchYear(s);
      assert Pow10(3) == 1000;
      DigitsValueLeading(s[0..4]);
      GroupCountIsCaptures(IsoDate);
      BadMonthGroup(IsoDate, g);
    }
  }

  /** In `YYYY-MM-DD` text a match of the ISO pattern has three groups, the first of them the year. */
  lemma {:induction false} IsoMatchYear(s: string)
    requires FullDateShape(s) && Search(s, IsoPattern).Some?
    ensures var g := Groups(IsoPattern, Search(s, IsoPattern).value);
            |g| == 3 && g[0] == s[0..4]
  {
    var spans := Search(s, IsoPattern).value;
    SearchSound(s, IsoPattern);
    var st :| 0 <= st <= |s| && SoundMatch(s, st, IsoPattern, spans);
    var sp := spans[0];
    assert AtomMatches(s, IsoPattern[0], sp);
    FourDigitsAreTheYear(s, sp.start);
    assert sp.text == s[0..4];
    assert Groups(IsoPattern, spans)[0] == sp.text;
    GroupsLength(IsoPattern, spans);
  }

  /**
   * Plain `YYYY-MM-DD` text with a year from 1000 on yields no date: the
   * ISO pattern reads the year as the month, which `datetime` rejects, and
   * none of the later patterns can match text without a space or a `Q`.
   * The same text is a valid RFC 3339 `full-date` whenever the date exists.
   */
  lemma {:induction false} IsoTextYieldsNothing(s: string)
    requires FullDateShape(s) && s[0] != '0'
    ensures ParseDate(s) == None && !ParseDateRaises(s)
  {
    IsoStripped(s);
    IsoPatternRejects(s);
    IsoOthersMiss(s);
    NoPatternNoDate(s);
    NoRaiseCases(s);
  }

  /** `YYYY-MM-DD` has no slash, no space and no `Q`, so the other four patterns find nothing. */
  lemma {:induction false} IsoOthersMiss(s: string)
    requires FullDateShape(s)
    ensures TryPattern(SlashDate, s) == None && TryPattern(MonthDayYear, s) == None
    ensures TryPattern(Quarter, s) == None && TryPattern(MonthYear, s) == None
    ensures SearchGroups(s, PatternOf(MonthDayYear)) == None
  {
    FullDateChars(s);
    ClassAbsentNoDate(SlashDate, s, 1);
    ClassAbsentNoDate(MonthDayYear, s, 1);
    ClassAbsentNoDate(Quarter, s, 0);
    ClassAbsentNoDate(MonthYear, s, 1);
  }

  lemma IsoStripped(s: string)
    requires FullDateShape(s)
    ensures Strip(s) == s
  {
    assert IsDigit(s[0]) && IsDigit(s[9]) by {
      assert s[0] == s[0..4][0] && s[9] == s[8..10][1];
    }
    StripUnchanged(s);
  }

  /** A run of exactly `n` digits at `i` that the bound or a non-digit ends is what `\d` takes there. */
  lemma {:induction false} DigitRun(s: string, i: nat, n: nat, hi: Bound)
    requires i + n <= |s| && AllDigits(s[i..i + n]) && Within(n, hi)
    requires i + n == |s| || !IsDigit(s[i + n]) || hi == AtMost(n)
    ensures RunLength(s, i, Digits, hi) == n
  {
    forall j | i <= j < i + n
      ensures InClass(s[j], Digits)
    {
      assert s[j] == s[i..i + n][j - i];
    }
    RunLengthIs(s, i, Digits, hi, n);
  }

  /** One literal character at `i`. */
  lemma {:induction false} LiteralRun(s: string, i: nat, c: char)
    requires i < |s| && s[i] == c
    ensures RunLength(s, i, Exactly(c), AtMost(1)) == 1
  {
    RunLengthIs(s, i, Exactly(c), AtMost(1), 1);
  }

  /** `MM/DD/YYYY` text: two digits, slash, two digits, slash, four digits. */
  predicate SlashShape(s: string) {
    && |s| == 10 && s[2] == '/' && s[5] == '/'
    && AllDigits(s[0..2]) && AllDigits(s[3..5]) && AllDigits(s[6..10])
  }

  lemma {:induction false} SlashFit(s: string)
    requires SlashShape(s)
    ensures GreedyFit(s, 0, SlashPattern, [2, 1, 2, 1, 4])
  {
    var P := SlashPattern;
    assert s[2] == s[2..][0];
    DigitRun(s, 0, 2, AtMost(2));
    LiteralRun(s, 2, '/');
    DigitRun(s, 3, 2, AtMost(2));
    LiteralRun(s, 5, '/');
    DigitRun(s, 6, 4, AtMost(4));
    assert GreedyFit(s, 10, P[5..], []);
    assert GreedyFit(s, 6, P[4..], [4]) by { assert P[4..][1..] == P[5..]; }
    assert GreedyFit(s, 5, P[3..], [1, 4]) by { assert P[3..][1..] == P[4..]; }
    assert GreedyFit(s, 3, P[2..], [2, 1, 4]) by { assert P[2..][1..] == P[3..]; }
    assert GreedyFit(s, 2, P[1..], [1, 2, 1, 4]) by { assert P[1..][1..] == P[2..]; }
  }

  lemma {:induction false} SlashGroups(s: string)
    requires SlashShape(s)
    ensures SearchGroups(s, SlashPattern) == Some([s[0..2], s[3..5], s[6..10]])
  {
    var P := SlashPattern;
    SlashFit(s);
    GreedySearch(s, P, [2, 1, 2, 1, 4]);
    var spans := GreedySpans(s, 0, P, [2, 1, 2, 1, 4]);
    assert spans[0].text == s[0..2] && spans[2].text == s[3..5] && spans[4].text == s[6..10];
    assert Groups(P[4..], spans[4..]) == [s[6..10]];
    assert Groups(P[3..], spans[3..]) == [s[6..10]] by { assert P[3..][1..] == P[4..] && spans[3..][1..] == spans[4..]; }
    assert Groups(P[2..], spans[2..]) == [s[3..5], s[6..10]] by { assert P[2..][1..] == P[3..] && spans[2..][1..] == spans[3..]; }
    assert Groups(P[1..], spans[1..]) == [s[3..5], s[6..10]] by { assert P[1..][1..] == P[2..] && spans[1..][1..] == spans[2..]; }
    assert Groups(P, spans) == [s[0..2]] + Groups(P[1..], spans[1..]);
    assert Groups(P, spans) == [s[0..2], s[3..5], s[6..10]];
    assert SearchGroups(s, SlashPattern) == Some(Groups(P, spans));
  }

  /** The slash pattern reads month, day and year from `MM/DD/YYYY` text. */
  lemma {:induction false} SlashTry(s: string)
    requires SlashShape(s)
    ensures TryPattern(SlashDate, s) == MakeDate(DigitsValue(s[6..10]), DigitsValue(s[0..2]), DigitsValue(s[3..5]))
  {
    SlashTryGroups(s);
    SlashInterpret(s);
  }

  lemma SlashTryGroups(s: string)
    requires SlashShape(s)
    ensures TryPattern(SlashDate, s) == Interpret(SlashDate, [s[0..2], s[3..5], s[6..10]])
  {
    SlashGroups(s);
    TryPatternIs(SlashDate, s, [s[0..2], s[3..5], s[6..10]]);
  }

  lemma SlashInterpret(s: string)
    requires SlashShape(s)
    ensures Interpret(SlashDate, [s[0..2], s[3..5], s[6..10]])
            == MakeDate(DigitsValue(s[6..10]), DigitsValue(s[0..2]), DigitsValue(s[3..5]))
  {
    var g := [s[0..2], s[3..5], s[6..10]];
    assert IsDigitString(g[0]) && IsDigitString(g[1]) && IsDigitString(g[2]);
    InterpretDigits(SlashDate, g);
  }

  /** Three digit groups read as month, day and year. */
  lemma {:induction false} InterpretDigits(k: DatePattern, g: seq<string>)
    requires k != Quarter && |g| == GroupCount(k) == 3
    requires IsDigitString(g[0]) && IsDigitString(g[1]) && IsDigitString(g[2])
    ensures Interpret(k, g) == MakeDate(DigitsValue(g[2]), DigitsValue(g[0]), DigitsValue(g[1]))
  {
    PyIntOfDigits(g[0]);
    PyIntOfDigits(g[1]);
    PyIntOfDigits(g[2]);
    assert ReadingOf(k, g) == DateOf(Some(DigitsValue(g[2])), Some(DigitsValue(g[0])), Some(DigitsValue(g[1])));
    DateOfValue(DigitsValue(g[2]), DigitsValue(g[0]), DigitsValue(g[1]));
  }

  /** `MM/DD/YYYY`, zero-padded. */
  function SlashText(d: CalendarDate): (s: string)
    ensures SlashShape(s)
    ensures s[0..2] == PadDigits(d.month, 2) && s[3..5] == PadDigits(d.day, 2) && s[6..10] == PadDigits(d.year, 4)
  {
    PadDigits(d.month, 2) + "/" + PadDigits(d.day, 2) + "/" + PadDigits(d.year, 4)
  }

  /** `MM/DD/YYYY` text naming a real date is read month first, then day, then year. */
  lemma {:induction false} SlashShapeParses(s: string)
    requires SlashShape(s)
    requires ValidDate(Date(DigitsValue(s[6..10]), DigitsValue(s[0..2]), DigitsValue(s[3..5])))
    ensures ParseDate(s) == Some(Date(DigitsValue(s[6..10]), DigitsValue(s[0..2]), DigitsValue(s[3..5])))
    ensures !ParseDateRaises(s)
  {
    assert Strip(s) == s by {
      assert IsDigit(s[0]) && IsDigit(s[9]) by {
        assert s[0] == s[0..2][0] && s[9] == s[6..10][3];
      }
      StripUnchanged(s);
    }
    SlashTry(s);
    FirstPatternHit(s);
    NoRaiseCases(s);
  }

  /** Every date written as `MM/DD/YYYY` reads back as itself. */
  lemma {:induction false} SlashTextParses(d: CalendarDate)
    ensures ParseDate(SlashText(d)) == Some(d) && !ParseDateRaises(SlashText(d))
  {
    var s := SlashText(d);
    assert DigitsValue(s[6..10]) == d.year && DigitsValue(s[0..2]) == d.month && DigitsValue(s[3..5]) == d.day by {
      assert Pow10(4) == 10000 && Pow10(2) == 100;
      PadDigitsValue(d.month, 2);
      PadDigitsValue(d.day, 2);
      PadDigitsValue(d.year, 4);
    }
    SlashShapeParses(s);
  }

  // Helpers for the remaining patterns

  /** A run of `n` class characters at `i` that the end, a non-member or the bound stops is what the atom takes. */
  lemma {:induction false} ClassRun(s: string, i: nat, n: nat, k: CharClass, hi: Bound)
    requires i + n <= |s| && Within(n, hi)
    requires forall j :: i <= j < i + n ==> InClass(s[j], k)
    requires i + n == |s| || !InClass(s[i + n], k) || hi == AtMost(n)
    ensures RunLength(s, i, k, hi) == n
  {
    RunLengthIs(s, i, k, hi, n);
  }

  /** A pattern that needs a character of one class strictly before a character of another yields nothing without such a pair. */
  lemma {:induction false} PairAbsentNoDate(k: DatePattern, t: string, a: nat, b: nat)
    requires a < b < |PatternOf(k)| && PatternOf(k)[a].lo >= 1 && PatternOf(k)[b].lo >= 1
    requires forall x, y :: 0 <= x < y < |t| ==> !(InClass(t[x], PatternOf(k)[a].cls) && InClass(t[y], PatternOf(k)[b].cls))
    ensures SearchGroups(t, PatternOf(k)) == None
    ensures TryPattern(k, t) == None && TryReading(k, t) == Read(None)
  {
    SearchNeedsOrderedPair(t, PatternOf(k), a, b);
  }

  /** A name that lower-cases to a month is made of ASCII letters other than `q` and `Q`. */
  lemma {:induction false} MonthNameChars(name: string)
    requires MonthNumber(name).Some?
    ensures |name| >= 3
    ensures forall i :: 0 <= i < |name| ==> (IsUpper(name[i]) || IsLower(name[i])) && name[i] != 'Q' && name[i] != 'q'
  {
    var key := Lower(name);
    var i := Find(MonthTable, key).value;
    MonthEntry(i);
    forall i | 0 <= i < |name|
      ensures (IsUpper(name[i]) || IsLower(name[i])) && name[i] != 'Q' && name[i] != 'q'
    {
      assert key[i] == ToLower(name[i]);
      LowerLetter(name[i]);
    }
  }

  lemma MonthNameNotDigits(name: string)
    requires MonthNumber(name).Some?
    ensures !IsDigitString(name)
  {
    MonthNameChars(name);
    assert !IsDigit(name[0]);
  }

  lemma {:induction false} LowerLetter(c: char)
    requires IsLower(ToLower(c)) && ToLower(c) != 'q'
    ensures (IsUpper(c) || IsLower(c)) && c != 'Q' && c != 'q'
  {
  }

  // ---------------------------------------------------------------------
  // Quarter text: `Qn YYYY`

  function QuarterText(q: nat, year: nat): (s: string)
    requires q < 10 && year < 10000
    ensures |s| == 7 && s[0] == 'Q' && IsDigit(s[1]) && s[2] == ' ' && s[3..7] == PadDigits(year, 4)
    ensures s[1..2] == [DigitChar(q)]
  {
    "Q" + [DigitChar(q)] + " " + PadDigits(year, 4)
  }

  predicate QuarterShape(s: string) {
    |s| == 7 && s[0] == 'Q' && AllDigits(s[1..2]) && s[2] == ' ' && AllDigits(s[3..7])
  }

  lemma {:induction false} QuarterShapeChars(s: string)
    requires QuarterShape(s)
    ensures forall x :: 0 <= x < |s| ==> x == 0 || x == 2 || IsDigit(s[x])
  {
    assert s[1] == s[1..2][0];
    forall x | 3 <= x < 7 ensures IsDigit(s[x]) {
      assert s[x] == s[3..7][x - 3];
    }
  }

  lemma {:induction false} QuarterFit(s: string)
    requires QuarterShape(s)
    ensures SearchGroups(s, QuarterPattern) == Some([s[1..2], s[3..7]])
  {
    var P := QuarterPattern;
    QuarterShapeChars(s);
    LiteralRun(s, 0, 'Q');
    ClassRun(s, 1, 1, Digits, AtMost(1));
    ClassRun(s, 2, 1, Spaces, Unbounded);
    DigitRun(s, 3, 4, AtMost(4));
    assert GreedyFit(s, 7, P[4..], []);
    assert GreedyFit(s, 3, P[3..], [4]) by { assert P[3..][1..] == P[4..]; }
    assert GreedyFit(s, 2, P[2..], [1, 4]) by { assert P[2..][1..] == P[3..]; }
    assert GreedyFit(s, 1, P[1..], [1, 1, 4]) by { assert P[1..][1..] == P[2..]; }
    assert GreedyFit(s, 0, P, [1, 1, 1, 4]);
    GreedySearch(s, P, [1, 1, 1, 4]);
    var spans := GreedySpans(s, 0, P, [1, 1, 1, 4]);
    assert spans[1].text == s[1..2] && spans[3].text == s[3..7];
    assert Groups(P[3..], spans[3..]) == [s[3..7]];
    assert Groups(P[2..], spans[2..]) == [s[3..7]] by { assert P[2..][1..] == P[3..] && spans[2..][1..] == spans[3..]; }
    assert Groups(P[1..], spans[1..]) == [s[1..2], s[3..7]] by { assert P[1..][1..] == P[2..] && spans[1..][1..] == spans[2..]; }
    assert Groups(P, spans) == Groups(P[1..], spans[1..]);
  }

  /** A word of `n` characters, one space, four digits: the runs the month-year pattern's atoms take. */
  lemma {:induction false} MonthYearRuns(s: string, n: nat)
    requires |s| == n + 5 && n >= 1 && s[n] == ' ' && AllDigits(s[n + 1..])
    requires forall j :: 0 <= j < n ==> IsWordChar(s[j])
    ensures RunLength(s, 0, WordChars, Unbounded) == n
    ensures RunLength(s, n, Spaces, Unbounded) == 1
    ensures RunLength(s, n + 1, Digits, AtMost(4)) == 4
  {
    assert !IsWordChar(s[n]) && !IsSpace(s[n + 1]) by {
      assert s[n + 1] == s[n + 1..][0];
    }
    ClassRun(s, 0, n, WordChars, Unbounded);
    ClassRun(s, n, 1, Spaces, Unbounded);
    assert s[n + 1..n + 5] == s[n + 1..];
    DigitRun(s, n + 1, 4, AtMost(4));
  }

  lemma {:induction false} MonthYearFit(s: string, n: nat)
    requires |s| == n + 5 && n >= 1 && s[n] == ' ' && AllDigits(s[n + 1..])
    requires forall j :: 0 <= j < n ==> IsWordChar(s[j])
    ensures GreedyFit(s, 0, MonthYearPattern, [n, 1, 4])
  {
    var P := MonthYearPattern;
    MonthYearRuns(s, n);
    assert GreedyFit(s, n + 5, P[3..], []);
    assert GreedyFit(s, n + 1, P[2..], [4]) by { assert P[2..][1..] == P[3..]; }
    assert GreedyFit(s, n, P[1..], [1, 4]) by { assert P[1..][1..] == P[2..]; }
  }

  lemma {:induction false} MonthYearGroups(s: string, n: nat)
    requires |s| == n + 5 && n >= 1 && s[n] == ' ' && AllDigits(s[n + 1..])
    requires forall j :: 0 <= j < n ==> IsWordChar(s[j])
    ensures SearchGroups(s, MonthYearPattern) == Some([s[0..n], s[n + 1..]])
  {
    var P := MonthYearPattern;
    MonthYearFit(s, n);
    GreedySearch(s, P, [n, 1, 4]);
    var spans := GreedySpans(s, 0, P, [n, 1, 4]);
    assert spans[0].text == s[0..n] && spans[2].text == s[n + 1..n + 5];
    assert s[n + 1..n + 5] == s[n + 1..];
    assert Groups(P[2..], spans[2..]) == [s[n + 1..]];
    assert Groups(P[1..], spans[1..]) == [s[n + 1..]] by { assert P[1..][1..] == P[2..] && spans[1..][1..] == spans[2..]; }
    assert Groups(P, spans) == [s[0..n]] + Groups(P[1..], spans[1..]);
    assert Groups(P, spans) == [s[0..n], s[n + 1..]];
    assert SearchGroups(s, MonthYearPattern) == Some(Groups(P, spans));
  }

  /** In `Qn YYYY` the month-year pattern takes `Qn` as the month name. */
  lemma {:induction false} QuarterAsMonthYear(s: string)
    requires QuarterShape(s)
    ensures SearchGroups(s, MonthYearPattern) == Some([s[0..2], s[3..7]])
  {
    assert s[3..] == s[3..7];
    assert IsWordChar(s[0]) && IsWordChar(s[1]);
    MonthYearGroups(s, 2);
  }

  lemma {:induction false} QuarterEarlierMiss(s: string)
    requires QuarterShape(s)
    ensures TryPattern(SlashDate, s) == None && TryPattern(IsoDate, s) == None
    ensures TryPattern(MonthDayYear, s) == None && SearchGroups(s, PatternOf(MonthDayYear)) == None
  {
    QuarterShapeChars(s);
    ClassAbsentNoDate(SlashDate, s, 1);
    ClassAbsentNoDate(IsoDate, s, 1);
    PairAbsentNoDate(MonthDayYear, s, 1, 4);
  }

  lemma {:induction false} TryPatternIs(k: DatePattern, t: string, g: seq<string>)
    requires SearchGroups(t, PatternOf(k)) == Some(g)
    ensures |g| == GroupCount(k)
    ensures TryPattern(k, t) == Interpret(k, g)
  {
    GroupCountIsCaptures(k);
  }

  /** The quarter branch on two digit groups. */
  lemma {:induction false} InterpretQuarter(q: string, y: string)
    requires IsDigitString(q) && IsDigitString(y)
    ensures Interpret(Quarter, [q, y]) == QuarterDate(DigitsValue(q), DigitsValue(y))
  {
    PyIntOfDigits(q);
    PyIntOfDigits(y);
    DateOfValue(DigitsValue(y), (DigitsValue(q) - 1) * 3 + 2, 15);
  }

  /** The quarter pattern reads the quarter digit and the year. */
  lemma {:induction false} QuarterTry(s: string)
    requires QuarterShape(s)
    ensures TryPattern(Quarter, s) == QuarterDate(DigitsValue(s[1..2]), DigitsValue(s[3..7]))
  {
    var g0, g1 := s[1..2], s[3..7];
    assert TryPattern(Quarter, s) == Interpret(Quarter, [g0, g1]) by {
      QuarterFit(s);
      TryPatternIs(Quarter, s, [g0, g1]);
    }
    assert Interpret(Quarter, [g0, g1]) == QuarterDate(DigitsValue(g0), DigitsValue(g1)) by {
      InterpretQuarter(g0, g1);
    }
  }

  /** `Qn` is not a month name. */
  lemma {:induction false} QuarterNotMonth(s: string)
    requires QuarterShape(s)
    ensures TryPattern(MonthYear, s) == None
  {
    QuarterAsMonthYear(s);
    var key := Lower(s[0..2]);
    assert |key| == 2;
    if Find(MonthTable, key).Some? {
      MonthEntry(Find(MonthTable, key).value);
    }
  }

  /**
   * `Qn YYYY` stands for the 15th of the middle month of quarter n. A
   * quarter digit outside 1..4 makes a month `datetime` rejects; the text then
   * reaches the month-year pattern, whose month name `Qn` is unknown, so
   * there is no date.
   */
  lemma {:induction false} QuarterShapeParses(s: string)
    requires QuarterShape(s)
    ensures ParseDate(s) == QuarterDate(DigitsValue(s[1..2]), DigitsValue(s[3..7]))
    ensures !ParseDateRaises(s)
  {
    QuarterStripped(s);
    QuarterEarlierMiss(s);
    NoRaiseCases(s);
    ParseDateLastTwo(s);
    QuarterTry(s);
    QuarterNotMonth(s);
  }

  lemma QuarterStripped(s: string)
    requires QuarterShape(s)
    ensures Strip(s) == s
  {
    assert s[6] == s[3..7][3];
    StripUnchanged(s);
  }

  lemma {:induction false} QuarterTextParses(q: nat, year: nat)
    requires q < 10 && 1 <= year <= 9999
    ensures ParseDate(QuarterText(q, year)) == if 1 <= q <= 4 then Some(Date(year, 3 * q - 1, 15)) else None
    ensures !ParseDateRaises(QuarterText(q, year))
  {
    var s := QuarterText(q, year);
    assert DigitsValue(s[1..2]) == q && DigitsValue(s[3..7]) == year by {
      assert Pow10(4) == 10000;
      PadDigitsValue(year, 4);
    }
    assert QuarterShape(s);
    QuarterShapeParses(s);
  }

  // ---------------------------------------------------------------------
  // Month-name text: `Month YYYY` and `Month D, YYYY`

  /** The month-year branch on a name group and a digit group. */
  lemma {:induction false} InterpretMonthYear(name: string, y: string)
    requires MonthNumber(name).Some? && IsDigitString(y)
    ensures Interpret(MonthYear, [name, y]) == MakeDate(DigitsValue(y), MonthNumber(name).value, 15)
  {
    PyIntOfDigits(y);
    DateOfValue(DigitsValue(y), MonthNumber(name).value, 15);
  }

  /** The month-day-year branch on a name group and two digit groups. */
  lemma {:induction false} InterpretNamedMonth(name: string, d: string, y: string)
    requires MonthNumber(name).Some? && IsDigitString(d) && IsDigitString(y)
    ensures Interpret(MonthDayYear, [name, d, y]) == MakeDate(DigitsValue(y), MonthNumber(name).value, DigitsValue(d))
  {
    MonthNameNotDigits(name);
    PyIntOfDigits(d);
    PyIntOfDigits(y);
    var m := MonthNumber(name).value;
    assert ReadingOf(MonthDayYear, [name, d, y]) == DateOf(Some(DigitsValue(y)), Some(m), Some(DigitsValue(d)));
    DateOfValue(DigitsValue(y), m, DigitsValue(d));
  }

  /** `Month YYYY`, as the calendar writes a month without a day. */
  function MonthYearText(name: string, year: nat): (s: string)
    requires year < 10000
    ensures |s| == |name| + 5 && s[..|name|] == name && s[|name|] == ' ' && s[|name| + 1..] == PadDigits(year, 4)
  {
    name + " " + PadDigits(year, 4)
  }

  /** Letters other than `Q` for `n` characters, one space, then four digits. */
  predicate MonthYearShape(s: string, n: nat) {
    && |s| == n + 5 && n >= 1 && s[n] == ' ' && AllDigits(s[n + 1..])
    && forall x :: 0 <= x < n ==> (IsUpper(s[x]) || IsLower(s[x])) && s[x] != 'Q'
  }

  lemma {:induction false} MonthYearShapeChars(s: string, n: nat)
    requires MonthYearShape(s, n)
    ensures forall x :: 0 <= x < |s| ==> if x < n then IsWordChar(s[x]) && s[x] != 'Q' && !IsDigit(s[x]) else x == n || IsDigit(s[x])
    ensures !IsSpace(s[0]) && !IsSpace(s[|s| - 1])
  {
    forall x | n < x < |s|
      ensures IsDigit(s[x])
    {
      assert s[x] == s[n + 1..][x - n - 1];
    }
  }

  /** No pattern before the month-year one finds a date in `Month YYYY` text. */
  lemma {:induction false} MonthYearEarlierMiss(s: string, n: nat)
    requires MonthYearShape(s, n)
    ensures Strip(s) == s
    ensures TryPattern(SlashDate, s) == None && TryPattern(IsoDate, s) == None
    ensures TryPattern(MonthDayYear, s) == None && TryPattern(Quarter, s) == None
    ensures SearchGroups(s, PatternOf(MonthDayYear)) == None
  {
    MonthYearShapeChars(s, n);
    StripUnchanged(s);
    ClassAbsentNoDate(SlashDate, s, 1);
    ClassAbsentNoDate(IsoDate, s, 1);
    PairAbsentNoDate(MonthDayYear, s, 2, 4);
    ClassAbsentNoDate(Quarter, s, 0);
  }

  /** The month-year pattern reads the name and the year of `Month YYYY` text. */
  lemma {:induction false} MonthYearShapeGroups(s: string, n: nat)
    requires MonthYearShape(s, n)
    ensures SearchGroups(s, MonthYearPattern) == Some([s[..n], s[n + 1..]])
  {
    MonthYearShapeChars(s, n);
    MonthYearGroups(s, n);
    assert s[0..n] == s[..n];
  }

  lemma {:induction false} MonthYearTextShape(name: string, year: nat)
    requires MonthNumber(name).Some? && year < 10000
    ensures MonthYearShape(MonthYearText(name, year), |name|)
    ensures MonthYearText(name, year)[..|name|] == name
  {
    var s := MonthYearText(name, year);
    MonthNameChars(name);
    forall x | 0 <= x < |name|
      ensures (IsUpper(s[x]) || IsLower(s[x])) && s[x] != 'Q'
    {
      assert s[x] == s[..|name|][x];
    }
  }

  /** On `Month YYYY` text the month-year pattern gives the 15th of the named month. */
  lemma {:induction false} MonthYearShapeTry(s: string, n: nat)
    requires MonthYearShape(s, n) && MonthNumber(s[..n]).Some?
    ensures TryPattern(MonthYear, s) == MakeDate(DigitsValue(s[n + 1..]), MonthNumber(s[..n]).value, 15)
  {
    MonthYearShapeGroups(s, n);
    TryPatternIs(MonthYear, s, [s[..n], s[n + 1..]]);
    InterpretMonthYear(s[..n], s[n + 1..]);
  }

  /** The month-year pattern reads the name and the year of `Month YYYY`. */
  lemma {:induction false} MonthYearTextTry(name: string, year: nat)
    requires MonthNumber(name).Some? && MinYear <= year <= MaxYear
    ensures TryPattern(MonthYear, MonthYearText(name, year)) == Some(Date(year, MonthNumber(name).value, 15))
  {
    var s := MonthYearText(name, year);
    MonthYearTextShape(name, year);
    MonthYearShapeTry(s, |name|);
    assert DigitsValue(s[|name| + 1..]) == year by {
      assert Pow10(4) == 10000;
      PadDigitsValue(year, 4);
    }
    MidMonthExists(year, MonthNumber(name).value);
  }

  /** Every month has a 15th. */
  lemma MidMonthExists(year: int, month: int)
    requires MinYear <= year <= MaxYear && 1 <= month <= 12
    ensures MakeDate(year, month, 15) == Some(Date(year, month, 15))
  {
  }

  /** `Month YYYY` with a known month name, in any letter case, stands for the 15th of that month. */
  lemma {:induction false} MonthYearTextParses(name: string, year: nat)
    requires MonthNumber(name).Some? && MinYear <= year <= MaxYear
    ensures ParseDate(MonthYearText(name, year)) == Some(Date(year, MonthNumber(name).value, 15))
    ensures !ParseDateRaises(MonthYearText(name, year))
  {
    var s := MonthYearText(name, year);
    assert ParseDate(s) == TryPattern(MonthYear, s) by {
      MonthYearTextShape(name, year);
      MonthYearEarlierMiss(s, |name|);
      ParseDateLastTwo(s);
    }
    MonthYearTextTry(name, year);
    MonthYearTextQuiet(name, year);
  }

  lemma MonthYearTextQuiet(name: string, year: nat)
    requires MonthNumber(name).Some? && MinYear <= year <= MaxYear
    ensures !ParseDateRaises(MonthYearText(name, year))
  {
    var s := MonthYearText(name, year);
    MonthYearTextShape(name, year);
    MonthYearEarlierMiss(s, |name|);
    NoRaiseCases(s);
  }

  /** The day as the calendar writes it: one digit below 10, else two. */
  function DayDigits(day: nat): (r: string)
    requires day < 100
    ensures 1 <= |r| <= 2 && AllDigits(r) && DigitsValue(r) == day
  {
    var w := if day < 10 then 1 else 2;
    assert Pow10(1) == 10 && Pow10(2) == 100;
    PadDigitsValue(day, w);
    PadDigits(day, w)
  }

  /** `Month D, YYYY` */
  function MonthDayYearText(name: string, day: nat, year: nat): (s: string)
    requires day < 100 && year < 10000
    ensures var n, w := |name|, |DayDigits(day)|;
            && |s| == n + w + 7 && s[n] == ' ' && s[n + 1 + w] == ',' && s[n + 2 + w] == ' '
            && s[..n] == name && s[n + 1..n + 1 + w] == DayDigits(day) && s[n + 3 + w..] == PadDigits(year, 4)
  {
    var d, y := DayDigits(day), PadDigits(year, 4);
    var s := (name + " ") + (d + (", " + y));
    assert s[..|name|] == name;
    assert s[|name| + 1..] == d + (", " + y);
    assert s[|name| + 1..][..|d|] == d;
    assert s[|name| + 1 + |d|..] == ", " + y;
    s
  }

  /**
   * Letters other than `Q` or digits for `n` characters, a space, `w`
   * digits (one or two), a comma, a space, then four digits.
   */
  predicate MonthDayYearShape(s: string, n: nat, w: nat) {
    && |s| == n + w + 7 && n >= 1 && 1 <= w <= 2
    && (forall x :: 0 <= x < n ==> (IsUpper(s[x]) || IsLower(s[x]) || IsDigit(s[x])) && s[x] != 'Q')
    && s[n] == ' ' && AllDigits(s[n + 1..n + 1 + w]) && s[n + 1 + w] == ',' && s[n + 2 + w] == ' '
    && AllDigits(s[n + 3 + w..])
  }

  lemma {:induction false} MonthDayYearShapeChars(s: string, n: nat, w: nat)
    requires MonthDayYearShape(s, n, w)
    ensures forall x :: n < x < n + 1 + w ==> IsDigit(s[x])
    ensures forall x :: n + 3 + w <= x < |s| ==> IsDigit(s[x])
    ensures forall x :: 0 <= x < |s| ==> s[x] != '/' && s[x] != '-'
    ensures !IsSpace(s[0]) && !IsSpace(s[|s| - 1])
  {
    forall x | n < x < n + 1 + w
      ensures IsDigit(s[x])
    {
      assert s[x] == s[n + 1..n + 1 + w][x - n - 1];
    }
    forall x | n + 3 + w <= x < |s|
      ensures IsDigit(s[x])
    {
      assert s[x] == s[n + 3 + w..][x - n - 3 - w];
    }
  }

  lemma {:induction false} MonthDayYearHeadRuns(s: string, n: nat, w: nat)
    requires MonthDayYearShape(s, n, w)
    ensures RunLength(s, 0, WordChars, Unbounded) == n
    ensures RunLength(s, n, Spaces, Unbounded) == 1
    ensures RunLength(s, n + 1, Digits, AtMost(2)) == w
  {
    MonthDayYearShapeChars(s, n, w);
    ClassRun(s, 0, n, WordChars, Unbounded);
    ClassRun(s, n, 1, Spaces, Unbounded);
    ClassRun(s, n + 1, w, Digits, AtMost(2));
  }

  lemma {:induction false} MonthDayYearTailRuns(s: string, n: nat, w: nat)
    requires MonthDayYearShape(s, n, w)
    ensures RunLength(s, n + 1 + w, Exactly(','), AtMost(1)) == 1
    ensures RunLength(s, n + 2 + w, Spaces, Unbounded) == 1
    ensures RunLength(s, n + 3 + w, Digits, AtMost(4)) == 4
  {
    MonthDayYearShapeChars(s, n, w);
    ClassRun(s, n + 1 + w, 1, Exactly(','), AtMost(1));
    ClassRun(s, n + 2 + w, 1, Spaces, Unbounded);
    ClassRun(s, n + 3 + w, 4, Digits, AtMost(4));
  }

  /** The greedy runs of the last three atoms (comma, space, year) chain into a fit. */
  lemma {:induction false} MonthDayYearTailFit(s: string, k: nat)
    requires |s| == k + 6
    requires RunLength(s, k, Exactly(','), AtMost(1)) == 1
    requires RunLength(s, k + 1, Spaces, Unbounded) == 1
    requires RunLength(s, k + 2, Digits, AtMost(4)) == 4
    ensures GreedyFit(s, k, MonthDayYearPattern[3..], [1, 1, 4])
  {
    var P := MonthDayYearPattern;
    assert GreedyFit(s, |s|, P[6..], []);
    assert GreedyFit(s, k + 2, P[5..], [4]) by { assert P[5..][1..] == P[6..]; }
    assert GreedyFit(s, k + 1, P[4..], [1, 4]) by { assert P[4..][1..] == P[5..]; }
    assert P[3..][1..] == P[4..];
  }

  /** The greedy runs of the first three atoms (name, space, day) in front of a fit of the rest. */
  lemma {:induction false} MonthDayYearHeadFit(s: string, n: nat, w: nat)
    requires n + 1 + w <= |s| && n >= 1 && 1 <= w <= 2
    requires RunLength(s, 0, WordChars, Unbounded) == n
    requires RunLength(s, n, Spaces, Unbounded) == 1
    requires RunLength(s, n + 1, Digits, AtMost(2)) == w
    requires GreedyFit(s, n + 1 + w, MonthDayYearPattern[3..], [1, 1, 4])
    ensures GreedyFit(s, 0, MonthDayYearPattern, [n, 1, w, 1, 1, 4])
  {
    var P := MonthDayYearPattern;
    assert GreedyFit(s, n + 1, P[2..], [w, 1, 1, 4]) by { assert P[2..][1..] == P[3..]; }
    assert GreedyFit(s, n, P[1..], [1, w, 1, 1, 4]) by { assert P[1..][1..] == P[2..]; }
  }

  lemma {:induction false} MonthDayYearFit(s: string, n: nat, w: nat)
    requires MonthDayYearShape(s, n, w)
    ensures GreedyFit(s, 0, MonthDayYearPattern, [n, 1, w, 1, 1, 4])
  {
    assert GreedyFit(s, n + 1 + w, MonthDayYearPattern[3..], [1, 1, 4]) by {
      MonthDayYearTailRuns(s, n, w);
      MonthDayYearTailFit(s, n + 1 + w);
    }
    MonthDayYearHeadRuns(s, n, w);
    MonthDayYearHeadFit(s, n, w);
  }

  /** The month-day-year pattern captures the first, third and last of its six atoms. */
  lemma {:induction false} MonthDayYearGroupTexts(spans: seq<Span>)
    requires |spans| == 6
    ensures Groups(MonthDayYearPattern, spans) == [spans[0].text, spans[2].text, spans[5].text]
  {
    var P := MonthDayYearPattern;
    assert Groups(P[5..], spans[5..]) == [spans[5].text];
    assert Groups(P[4..], spans[4..]) == [spans[5].text] by { assert P[4..][1..] == P[5..] && spans[4..][1..] == spans[5..]; }
    assert Groups(P[3..], spans[3..]) == [spans[5].text] by { assert P[3..][1..] == P[4..] && spans[3..][1..] == spans[4..]; }
    assert Groups(P[2..], spans[2..]) == [spans[2].text, spans[5].text] by {
      assert P[2..][1..] == P[3..] && spans[2..][1..] == spans[3..];
    }
    assert Groups(P[1..], spans[1..]) == [spans[2].text, spans[5].text] by {
      assert P[1..][1..] == P[2..] && spans[1..][1..] == spans[2..];
    }
    assert Groups(P, spans) == [spans[0].text] + Groups(P[1..], spans[1..]);
  }

  /** The texts of the captured spans of a greedy fit of `Month D, YYYY`. */
  lemma {:induction false} MonthDayYearSpanTexts(s: string, n: nat, w: nat)
    requires |s| == n + w + 7 && GreedyFit(s, 0, MonthDayYearPattern, [n, 1, w, 1, 1, 4])
    ensures var spans := GreedySpans(s, 0, MonthDayYearPattern, [n, 1, w, 1, 1, 4]);
            spans[0].text == s[..n] && spans[2].text == s[n + 1..n + 1 + w] && spans[5].text == s[n + 3 + w..]
  {
    var spans := GreedySpans(s, 0, MonthDayYearPattern, [n, 1, w, 1, 1, 4]);
    assert spans[0].text == s[..n] && spans[2].text == s[n + 1..n + 1 + w];
    assert spans[5].text == s[n + 3 + w..] by {
      assert s[n + 3 + w..n + 7 + w] == s[n + 3 + w..];
    }
  }

  /** The groups of a greedy fit of the month-day-year pattern. */
  lemma {:induction false} MonthDayYearSpansGroups(s: string, n: nat, w: nat)
    requires |s| == n + w + 7 && GreedyFit(s, 0, MonthDayYearPattern, [n, 1, w, 1, 1, 4])
    ensures Groups(MonthDayYearPattern, GreedySpans(s, 0, MonthDayYearPattern, [n, 1, w, 1, 1, 4]))
            == [s[..n], s[n + 1..n + 1 + w], s[n + 3 + w..]]
  {
    MonthDayYearSpanTexts(s, n, w);
    MonthDayYearGroupTexts(GreedySpans(s, 0, MonthDayYearPattern, [n, 1, w, 1, 1, 4]));
  }

  lemma {:induction false} MonthDayYearGroups(s: string, n: nat, w: nat)
    requires MonthDayYearShape(s, n, w)
    ensures SearchGroups(s, MonthDayYearPattern) == Some([s[..n], s[n + 1..n + 1 + w], s[n + 3 + w..]])
  {
    MonthDayYearFit(s, n, w);
    GreedySearch(s, MonthDayYearPattern, [n, 1, w, 1, 1, 4]);
    MonthDayYearSpansGroups(s, n, w);
  }

  /** On `Month D, YYYY` text the month-day-year pattern reads the name, the day and the year. */
  lemma {:induction false} MonthDayYearShapeTry(s: string, n: nat, w: nat)
    requires MonthDayYearShape(s, n, w) && MonthNumber(s[..n]).Some?
    ensures TryPattern(MonthDayYear, s)
            == MakeDate(DigitsValue(s[n + 3 + w..]), MonthNumber(s[..n]).value, DigitsValue(s[n + 1..n + 1 + w]))
  {
    MonthDayYearGroups(s, n, w);
    TryPatternIs(MonthDayYear, s, [s[..n], s[n + 1..n + 1 + w], s[n + 3 + w..]]);
    assert |s[n + 3 + w..]| == 4;
    InterpretNamedMonth(s[..n], s[n + 1..n + 1 + w], s[n + 3 + w..]);
  }

  /** The same, with the name, the day and the year the fields hold. */
  lemma MonthDayYearShapeReads(s: string, n: nat, w: nat, name: string, day: nat, year: nat)
    requires MonthNumber(name).Some?
    requires MonthDayYearShape(s, n, w) && MonthNumber(s[..n]) == Some(MonthNumber(name).value)
    requires DigitsValue(s[n + 1..n + 1 + w]) == day && DigitsValue(s[n + 3 + w..]) == year
    ensures TryPattern(MonthDayYear, s) == MakeDate(year, MonthNumber(name).value, day)
  {
    MonthDayYearShapeTry(s, n, w);
  }

  /** The slash and ISO patterns find nothing in `Month D, YYYY` text. */
  lemma {:induction false} MonthDayYearEarlierMiss(s: string, n: nat, w: nat)
    requires MonthDayYearShape(s, n, w)
    ensures Strip(s) == s
    ensures TryPattern(SlashDate, s) == None && TryPattern(IsoDate, s) == None
  {
    MonthDayYearShapeChars(s, n, w);
    StripUnchanged(s);
    ClassAbsentNoDate(SlashDate, s, 1);
    ClassAbsentNoDate(IsoDate, s, 1);
  }

  /** When the first two patterns yield nothing and the third yields a date, that date is the answer. */
  lemma {:induction false} ParseDateThirdHit(text: string)
    requires TryPattern(SlashDate, Strip(text)) == None && TryPattern(IsoDate, Strip(text)) == None
    requires TryPattern(MonthDayYear, Strip(text)).Some?
    ensures ParseDate(text) == TryPattern(MonthDayYear, Strip(text))
  {
    ParseDateAfterTwo(text);
    assert Attempts(Strip(text))[2..][0] == TryPattern(MonthDayYear, Strip(text));
  }

  lemma {:induction false} MonthDayYearTextShape(name: string, day: nat, year: nat)
    requires |name| >= 1 && day < 100 && year < 10000
    requires forall i :: 0 <= i < |name| ==> (IsUpper(name[i]) || IsLower(name[i]) || IsDigit(name[i])) && name[i] != 'Q'
    ensures MonthDayYearShape(MonthDayYearText(name, day, year), |name|, |DayDigits(day)|)
  {
    var s, n, w := MonthDayYearText(name, day, year), |name|, |DayDigits(day)|;
    forall x | 0 <= x < n
      ensures (IsUpper(s[x]) || IsLower(s[x]) || IsDigit(s[x])) && s[x] != 'Q'
    {
      assert s[x] == s[..n][x];
    }
  }

  /** The values of the day and year fields of `Month D, YYYY`. */
  lemma MonthDayYearTextValues(name: string, day: nat, year: nat)
    requires day < 100 && year < 10000
    ensures var s, n, w := MonthDayYearText(name, day, year), |name|, |DayDigits(day)|;
            && s[..n] == name && AllDigits(s[n + 1..n + 1 + w]) && AllDigits(s[n + 3 + w..])
            && DigitsValue(s[n + 1..n + 1 + w]) == day && DigitsValue(s[n + 3 + w..]) == year
  {
    assert Pow10(4) == 10000;
    PadDigitsValue(year, 4);
  }

  /** `Month D, YYYY`-shaped text naming a real date reads as that date. */
  lemma {:induction false} MonthDayYearShapeParses(s: string, n: nat, w: nat, name: string, day: nat, year: nat)
    requires MonthNumber(name).Some? && ValidDate(Date(year, MonthNumber(name).value, day))
    requires MonthDayYearShape(s, n, w) && MonthNumber(s[..n]) == Some(MonthNumber(name).value)
    requires DigitsValue(s[n + 1..n + 1 + w]) == day && DigitsValue(s[n + 3 + w..]) == year
    ensures ParseDate(s) == Some(Date(year, MonthNumber(name).value, day)) && !ParseDateRaises(s)
  {
    MonthDayYearShapeReads(s, n, w, name, day, year);
    MonthDayYearEarlierMiss(s, n, w);
    ParseDateThirdHit(s);
    NoRaiseCases(s);
  }

  /** A known month name makes `Month D, YYYY` text of the expected shape. */
  lemma MonthDayYearTextShaped(name: string, day: nat, year: nat)
    requires MonthNumber(name).Some? && day < 100 && year < 10000
    ensures MonthDayYearShape(MonthDayYearText(name, day, year), |name|, |DayDigits(day)|)
  {
    MonthNameChars(name);
    MonthDayYearTextShape(name, day, year);
  }

  /** `Month D, YYYY` naming a real date, with a known month name in any letter case, reads back as that date. */
  lemma {:induction false} MonthDayYearTextParses(name: string, day: nat, year: nat)
    requires MonthNumber(name).Some? && day < 100 && year < 10000
    requires ValidDate(Date(year, MonthNumber(name).value, day))
    ensures ParseDate(MonthDayYearText(name, day, year)) == Some(Date(year, MonthNumber(name).value, day))
    ensures !ParseDateRaises(MonthDayYearText(name, day, year))
  {
    var s, n, w := MonthDayYearText(name, day, year), |name|, |DayDigits(day)|;
    MonthDayYearTextShaped(name, day, year);
    MonthDayYearTextValues(name, day, year);
    MonthDayYearShapeParses(s, n, w, name, day, year);
  }

  /**
   * `N D, YYYY` whose first field is digits worth at least 2^31, such as
   * `2147483648 1, 2024`, makes `_parse_date` raise: neither the slash nor
   * the ISO pattern matches, and the month-day-year pattern hands that
   * month to `datetime`.
   */
  lemma {:induction false} HugeMonthTextRaises(digits: string, day: nat, year: nat)
    requires IsDigitString(digits) && DigitsValue(digits) >= 0x8000_0000 && day < 100 && year < 10000
    ensures ParseDateRaises(MonthDayYearText(digits, day, year))
  {
    var s := MonthDayYearText(digits, day, year);
    HugeMonthTextMisses(digits, day, year);
    HugeMonthTextOverflows(digits, day, year);
    ParseDateRaisesIff(s);
  }

  lemma HugeMonthTextMisses(digits: string, day: nat, year: nat)
    requires IsDigitString(digits) && day < 100 && year < 10000
    ensures var s := MonthDayYearText(digits, day, year);
            Strip(s) == s && TryPattern(SlashDate, s) == None && TryPattern(IsoDate, s) == None
  {
    MonthDayYearTextShape(digits, day, year);
    MonthDayYearEarlierMiss(MonthDayYearText(digits, day, year), |digits|, |DayDigits(day)|);
  }

  lemma HugeMonthTextOverflows(digits: string, day: nat, year: nat)
    requires IsDigitString(digits) && DigitsValue(digits) >= 0x8000_0000 && day < 100 && year < 10000
    ensures MonthOverflow(MonthDayYearText(digits, day, year))
  {
    var s, n, w := MonthDayYearText(digits, day, year), |digits|, |DayDigits(day)|;
    MonthDayYearTextShape(digits, day, year);
    MonthDayYearGroups(s, n, w);
    assert s[..n] == digits;
  }
}

=== FILE: pdufa_manager.dfy ===
/**
 * The catalyst manager: sorting scraped records into previous and impending
 * decisions, writing them to the `regulatory_decisions` table with
 * insert-or-ignore on `(ticker, drug_name, date)`, and the two status reads.
 *
 * The table is a map from its unique key to the rest of the row; `now` is an
 * instant in microsecond ticks (see Calendar).
 */
module PdufaManager {
  import opened Wrappers
  import opened Calendar
  import opened RegulatoryDecisions
  import opened FirstByKey

  // ---------------------------------------------------------------------
  // `sort_records`

  /**
   * The record's date (its midnight) is before `now`, or the outcome is
   * already known.
   */
  predicate IsPrevious(r: RegulatoryDecision, now: int) {
    Midnight(r.pdufaDate) < now || r.status == "decided"
  }

  /** The records classified as previous, in input order. */
  function PreviousOf(rs: seq<RegulatoryDecision>, now: int): seq<RegulatoryDecision> {
    if rs == [] then []
    else PreviousOf(rs[..|rs| - 1], now) + (if IsPrevious(rs[|rs| - 1], now) then [rs[|rs| - 1]] else [])
  }

  /** The records classified as impending, in input order. */
  function ImpendingOf(rs: seq<RegulatoryDecision>, now: int): seq<RegulatoryDecision> {
    if rs == [] then []
    else ImpendingOf(rs[..|rs| - 1], now) + (if IsPrevious(rs[|rs| - 1], now) then [] else [rs[|rs| - 1]])
  }

  /** The tickers of a list of records, the empty ticker included. */
  function TickersOf(rs: seq<RegulatoryDecision>): (r: set<string>)
    ensures forall t :: t in r <==> exists j :: 0 <= j < |rs| && rs[j].ticker == t
  {
    if rs == [] then {}
    else
      var p := rs[..|rs| - 1];
      assert forall j :: 0 <= j < |p| ==> p[j] == rs[j];
      TickersOf(p) + {rs[|rs| - 1].ticker}
  }

  /** The dictionary `sort_records` returns. */
  datatype SortResult = SortResult(
    totalRecords: nat,
    records: seq<RegulatoryDecision>,
    companies: set<string>,
    previousDecisions: seq<RegulatoryDecision>,
    impendingDecisions: seq<RegulatoryDecision>)

  /** `sort_records`: one pass, appending each record to one of two lists and collecting tickers. */
  method SortRecords(records: seq<RegulatoryDecision>, now: int) returns (result: SortResult)
    ensures result.totalRecords == |records| && result.records == records
    ensures result.previousDecisions == PreviousOf(records, now)
    ensures result.impendingDecisions == ImpendingOf(records, now)
    ensures result.companies == TickersOf(records)
  {
    var previous: seq<RegulatoryDecision> := [];
    var impending: seq<RegulatoryDecision> := [];
    var companies: set<string> := {};
    var i := 0;
    while i < |records|
      invariant i <= |records|
      invariant previous == PreviousOf(records[..i], now)
      invariant impending == ImpendingOf(records[..i], now)
      invariant companies == TickersOf(records[..i])
    {
      var record := records[i];
      assert records[..i + 1][..i] == records[..i] && records[..i + 1][i] == record;
      if Midnight(record.pdufaDate) < now || record.status == "decided" {
        previous := previous + [record];
      } else {
        impending := impending + [record];
      }
      companies := companies + {record.ticker};
      i := i + 1;
    }
    assert records[..i] == records;
    result := SortResult(|records|, records, companies, previous, impending);
  }

  /**
   * The two lists split the input: every record lands in exactly one of
   * them, by the previous-or-decided test, and nothing is lost or added.
   */
  lemma {:induction false} SortPartition(rs: seq<RegulatoryDecision>, now: int)
    ensures |PreviousOf(rs, now)| + |ImpendingOf(rs, now)| == |rs|
    ensures multiset(PreviousOf(rs, now)) + multiset(ImpendingOf(rs, now)) == multiset(rs)
    ensures forall r :: r in PreviousOf(rs, now) <==> r in rs && IsPrevious(r, now)
    ensures forall r :: r in ImpendingOf(rs, now) <==> r in rs && !IsPrevious(r, now)
  {
    if rs != [] {
      var p := rs[..|rs| - 1];
      SortPartition(p, now);
      assert rs == p + [rs[|rs| - 1]];
    }
  }

  /** Both lists keep the input order: each is obtained by deleting records from the input. */
  lemma {:induction false} SortKeepsOrder(rs: seq<RegulatoryDecision>, now: int)
    ensures IsSubsequence(PreviousOf(rs, now), rs)
    ensures IsSubsequence(ImpendingOf(rs, now), rs)
  {
    if rs != [] {
      var n := |rs| - 1;
      var p := rs[..n];
      SortKeepsOrder(p, now);
      assert p + [rs[n]] == rs;
      if IsPrevious(rs[n], now) {
        SubsequenceExtend(PreviousOf(p, now), p, rs[n], true);
        SubsequenceExtend(ImpendingOf(p, now), p, rs[n], false);
        assert PreviousOf(rs, now) == PreviousOf(p, now) + [rs[n]];
        assert ImpendingOf(rs, now) == ImpendingOf(p, now);
      } else {
        SubsequenceExtend(PreviousOf(p, now), p, rs[n], false);
        SubsequenceExtend(ImpendingOf(p, now), p, rs[n], true);
        assert PreviousOf(rs, now) == PreviousOf(p, now);
        assert ImpendingOf(rs, now) == ImpendingOf(p, now) + [rs[n]];
      }
    }
  }

  /**
   * A pending record dated today counts as previous once the day has begun:
   * its midnight is already behind `now`.
   */
  lemma TodayIsPrevious(r: RegulatoryDecision, now: int)
    requires Midnight(r.pdufaDate) < now < Midnight(r.pdufaDate) + TicksPerDay
    ensures IsPrevious(r, now)
  {
  }

  /** A pending record dated after today is impending, however late in the day it is. */
  lemma LaterPendingIsImpending(r: RegulatoryDecision, now: int)
    requires r.status == "pending" && now <= Midnight(r.pdufaDate)
    ensures !IsPrevious(r, now)
  {
  }

  // ---------------------------------------------------------------------
  // The `regulatory_decisions` table and `write_records_to_db`

  /** The table's unique key: `(ticker, drug_name, date)`. */
  type DecisionKey = (string, string, CalendarDate)

  /** The other stored columns; `status` may be SQL NULL in rows written by other tools. */
  datatype DecisionRow = DecisionRow(useu: Option<string>, status: Option<string>, decision: Option<string>, traded: bool)

  type DecisionTable = map<DecisionKey, DecisionRow>

  function RowKey(r: RegulatoryDecision): DecisionKey {
    (r.ticker, r.drugName, r.pdufaDate)
  }

  /** The row an INSERT of the record creates; `traded` takes the column default, FALSE. */
  function NewRow(r: RegulatoryDecision): DecisionRow {
    DecisionRow(r.useu, Some(r.status), r.decision, false)
  }

  /** `INSERT ... ON CONFLICT (ticker, drug_name, date) DO NOTHING` */
  function InsertIgnore(t: DecisionTable, r: RegulatoryDecision): DecisionTable {
    if RowKey(r) in t then t else t[RowKey(r) := NewRow(r)]
  }

  /** `write_records_to_db`: the inserts in batch order. */
  function WriteRecords(t: DecisionTable, rs: seq<RegulatoryDecision>): (r: DecisionTable)
    ensures t.Keys <= r.Keys
    ensures |rs| == 0 ==> r == t
    decreases |rs|
  {
    if rs == [] then t else WriteRecords(InsertIgnore(t, rs[0]), rs[1..])
  }

  /** Rows already in the table are never changed, and the keys become those of the table and of the batch. */
  lemma {:induction false} WriteKeepsRows(t: DecisionTable, rs: seq<RegulatoryDecision>)
    ensures forall k :: k in t ==> k in WriteRecords(t, rs) && WriteRecords(t, rs)[k] == t[k]
    ensures WriteRecords(t, rs).Keys == t.Keys + Keys(rs, RowKey)
    decreases |rs|
  {
    if rs != [] {
      WriteKeepsRows(InsertIgnore(t, rs[0]), rs[1..]);
      KeysCons(rs, RowKey);
    }
  }

  /** A key new to the table gets the row of the first record in the batch with that key. */
  lemma {:induction false} WriteFirstWins(t: DecisionTable, rs: seq<RegulatoryDecision>, i: nat)
    requires i < |rs| && RowKey(rs[i]) !in t && FirstOfKey(rs, RowKey, i)
    ensures RowKey(rs[i]) in WriteRecords(t, rs)
    ensures WriteRecords(t, rs)[RowKey(rs[i])] == NewRow(rs[i])
    decreases |rs|
  {
    var t1 := InsertIgnore(t, rs[0]);
    if i == 0 {
      WriteKeepsRows(t1, rs[1..]);
    } else {
      assert RowKey(rs[0]) != RowKey(rs[i]);
      assert rs[1..][i - 1] == rs[i];
      assert FirstOfKey(rs[1..], RowKey, i - 1) by {
        forall j | 0 <= j < i - 1
          ensures RowKey(rs[1..][j]) != RowKey(rs[1..][i - 1])
        {
          assert rs[1..][j] == rs[j + 1];
        }
      }
      WriteFirstWins(t1, rs[1..], i - 1);
    }
  }

  /** A batch whose keys are all in the table already changes nothing. */
  lemma {:induction false} WriteKnownKeys(t: DecisionTable, rs: seq<RegulatoryDecision>)
    requires Keys(rs, RowKey) <= t.Keys
    ensures WriteRecords(t, rs) == t
    decreases |rs|
  {
    if rs != [] {
      KeysCons(rs, RowKey);
      WriteKnownKeys(t, rs[1..]);
    }
  }

  /** Writing a batch twice is writing it once. */
  lemma WriteIdempotent(t: DecisionTable, rs: seq<RegulatoryDecision>)
    ensures WriteRecords(WriteRecords(t, rs), rs) == WriteRecords(t, rs)
  {
    WriteKeepsRows(t, rs);
    WriteKnownKeys(WriteRecords(t, rs), rs);
  }

  /** Every row the writer creates carries a status, and starts untraded. */
  lemma {:induction false} WrittenRowsHaveStatus(t: DecisionTable, rs: seq<RegulatoryDecision>)
    requires forall k :: k in t ==> t[k].status.Some?
    ensures forall k :: k in WriteRecords(t, rs) ==> WriteRecords(t, rs)[k].status.Some?
    decreases |rs|
  {
    if rs != [] {
      WrittenRowsHaveStatus(InsertIgnore(t, rs[0]), rs[1..]);
    }
  }

  // ---------------------------------------------------------------------
  // `get_impending_decisions` / `get_previous_decisions`

  /** `WHERE status = 'pending'` */
  function ImpendingKeys(t: DecisionTable): set<DecisionKey> {
    set k | k in t && t[k].status == Some(Pending)
  }

  /** `WHERE status != 'pending'`; a NULL status satisfies neither comparison. */
  function PreviousKeys(t: DecisionTable): set<DecisionKey> {
    set k | k in t && t[k].status.Some? && t[k].status.value != Pending
  }

  /**
   * The two reads never share a row, and between them they return exactly
   * the rows whose status is not NULL.
   */
  lemma StatusSplit(t: DecisionTable)
    ensures ImpendingKeys(t) * PreviousKeys(t) == {}
    ensures ImpendingKeys(t) + PreviousKeys(t) == set k | k in t && t[k].status.Some?
  {
  }

  /** A row with a NULL status is returned by neither read. */
  lemma NullStatusUnread(t: DecisionTable, k: DecisionKey)
    requires k in t && t[k].status.None?
    ensures k !in ImpendingKeys(t) && k !in PreviousKeys(t)
  {
  }
}

=== FILE: pdufa_scraper.dfy ===
/**
 * The per-entry logic of the FDA calendar scraper: splitting a company label
 * into name and ticker, classifying the outcome text, assembling one
 * calendar entry from the four cell texts, and dropping repeated entries.
 */
module PdufaScraper {
  import opened Wrappers
  import opened Text
  import opened Calendar
  import opened Regex
  import opened RegulatoryDecisions
  import opened PdufaDates
  import opened FirstByKey

  // ---------------------------------------------------------------------
  // Ticker in parentheses: `\(([A-Z]{1,5})\)`

  const ParenPattern: Pattern := [Lit('('), Atom(Uppers, 1, AtMost(5), true), Lit(')')]

  /** One to five ASCII capitals. */
  predicate IsParenTicker(t: string) {
    1 <= |t| <= 5 && forall k :: 0 <= k < |t| ==> IsUpper(t[k])
  }

  /** The ticker the parenthesis pattern reports: its group, if it matches anywhere. */
  function ParenTicker(text: string): (r: Option<string>)
    ensures r.Some? ==> IsParenTicker(r.value) && Contains(text, "(" + r.value + ")")
  {
    match SearchGroups(text, ParenPattern)
    case None => None
    case Some(g) => ParenGroupSound(text); Some(g[0])
  }

  lemma {:induction false} ParenGroupSound(text: string)
    requires SearchGroups(text, ParenPattern).Some?
    ensures |SearchGroups(text, ParenPattern).value| == 1
    ensures var t := SearchGroups(text, ParenPattern).value[0];
            IsParenTicker(t) && Contains(text, "(" + t + ")")
  {
    var spans := Search(text, ParenPattern).value;
    SearchSound(text, ParenPattern);
    var st :| 0 <= st <= |text| && SoundMatch(text, st, ParenPattern, spans);
    ParenGroups(spans);
    var a := ParenMatchShape(text, st, spans);
    ContainsAt(text, "(" + spans[1].text + ")", a);
  }

  /** A match of the parenthesis pattern is `(`, its group of capitals, and `)`, side by side in the text. */
  lemma ParenMatchShape(text: string, st: nat, spans: seq<Span>) returns (a: nat)
    requires SoundMatch(text, st, ParenPattern, spans)
    ensures var t := spans[1].text;
      IsParenTicker(t) && a + |t| + 2 <= |text| && text[a..a + |t| + 2] == "(" + t + ")"
  {
    var P := ParenPattern;
    assert AtomMatches(text, P[0], spans[0]) && AtomMatches(text, P[1], spans[1]) && AtomMatches(text, P[2], spans[2]);
    var t := spans[1].text;
    a := spans[0].start;
    var b := spans[2].end;
    assert spans[1].start == a + 1 && spans[2].start == a + 1 + |t| && b == a + |t| + 2;
    assert text[a] == '(' && text[b - 1] == ')';
    assert t == text[a + 1..b - 1];
    assert text[a..b] == [text[a]] + text[a + 1..b - 1] + [text[b - 1]];
    forall k | 0 <= k < |t|
      ensures IsUpper(t[k])
    {
      assert InClass(text[a + 1 + k], Uppers);
    }
  }

  lemma ParenGroups(spans: seq<Span>)
    requires |spans| == 3
    ensures Groups(ParenPattern, spans) == [spans[1].text]
  {
    var P := ParenPattern;
    assert P[1..][1..] == P[2..] && spans[1..][1..] == spans[2..];
    assert Groups(P[2..], spans[2..]) == [];
  }

  /** Any `(` + one to five capitals + `)` in the text makes the parenthesis pattern match. */
  lemma {:induction false} ParenTickerComplete(text: string, i: nat, t: string)
    requires IsParenTicker(t) && i + |t| + 2 <= |text| && text[i..i + |t| + 2] == "(" + t + ")"
    ensures ParenTicker(text).Some?
  {
    var k := |t|;
    assert text[i] == '(' && text[i + k + 1] == ')' by {
      assert text[i] == text[i..i + k + 2][0] && text[i + k + 1] == text[i..i + k + 2][k + 1];
    }
    forall j | i + 1 <= j < i + 1 + k
      ensures InClass(text[j], Uppers)
    {
      assert text[j] == text[i..i + k + 2][j - i] == t[j - i - 1];
    }
    ParenFits(text, i, k);
    SearchComplete(text, ParenPattern, i);
  }

  /** `(`, one to five capitals and `)` at `i` are a match of the parenthesis pattern there. */
  lemma ParenFits(text: string, i: nat, k: nat)
    requires 1 <= k <= 5 && i + k + 2 <= |text|
    requires text[i] == '(' && text[i + k + 1] == ')'
    requires forall j :: i + 1 <= j < i + 1 + k ==> InClass(text[j], Uppers)
    ensures MatchFrom(text, i, ParenPattern).Some?
  {
    var P := ParenPattern;
    RunLengthIs(text, i, Exactly('('), AtMost(1), 1);
    RunLengthIs(text, i + 1, Uppers, AtMost(5), k);
    RunLengthIs(text, i + k + 1, Exactly(')'), AtMost(1), 1);
    assert GreedyFit(text, i + k + 2, P[3..], []);
    assert GreedyFit(text, i + k + 1, P[2..], [1]) by { assert P[2..][1..] == P[3..]; }
    assert GreedyFit(text, i + 1, P[1..], [k, 1]) by { assert P[1..][1..] == P[2..]; }
    assert GreedyFit(text, i, P, [1, k, 1]);
    GreedyFitMatches(text, i, P, [1, k, 1]);
  }

  // ---------------------------------------------------------------------
  // Standalone capitals: `re.findall(r'\b[A-Z]{2,5}\b', text)`

  /** `\b`: a word character on exactly one side of position `i`. */
  predicate Boundary(s: string, i: nat)
    requires i <= |s|
  {
    (i > 0 && IsWordChar(s[i - 1])) != (i < |s| && IsWordChar(s[i]))
  }

  predicate AllUpper(s: string) {
    forall k :: 0 <= k < |s| ==> IsUpper(s[k])
  }

  /** `\b[A-Z]{2,5}\b` matches `s[a..b]`. */
  predicate WordMatch(s: string, a: nat, b: nat) {
    a + 2 <= b <= a + 5 && b <= |s| && Boundary(s, a) && Boundary(s, b) && AllUpper(s[a..b])
  }

  /** The greedy `{2,5}` with backtracking: the longest run of capitals from `a`, at most `k` long, that ends on a boundary. */
  function TryWordLength(s: string, a: nat, k: nat): (r: Option<nat>)
    requires k <= 5 && a + k <= |s| && AllUpper(s[a..a + k]) && Boundary(s, a)
    ensures r.Some? ==> WordMatch(s, a, r.value) && r.value <= a + k
  {
    if k < 2 then None
    else if Boundary(s, a + k) then Some(a + k)
    else
      UpperPrefix(s, a, k, k - 1);
      TryWordLength(s, a, k - 1)
  }

  lemma UpperPrefix(s: string, a: nat, k: nat, j: nat)
    requires j <= k && a + k <= |s| && AllUpper(s[a..a + k])
    ensures AllUpper(s[a..a + j])
  {
    assert s[a..a + j] == s[a..a + k][..j];
  }

  /** The capitals `RunLength` counts form an all-capitals slice. */
  lemma UpperRun(s: string, a: nat, hi: Bound)
    requires a <= |s|
    ensures AllUpper(s[a..a + RunLength(s, a, Uppers, hi)])
  {
    var n := RunLength(s, a, Uppers, hi);
    RunLengthSound(s, a, Uppers, hi);
    assert forall j :: a <= j < a + n ==> InClass(s[j], Uppers);
  }

  /** No position strictly inside a run of capitals is a boundary. */
  lemma BoundaryNotInside(s: string, a: nat, b: nat, m: nat)
    requires a <= b <= |s| && AllUpper(s[a..b])
    ensures a < m < b ==> !Boundary(s, m)
  {
    if a < m < b {
      assert IsUpper(s[a..b][m - a - 1]) && IsUpper(s[a..b][m - a]);
    }
  }

  /** The end of the match that starts at `a`, if one does. */
  function WordMatchAt(s: string, a: nat): (r: Option<nat>)
    requires a <= |s|
    ensures r.Some? ==> WordMatch(s, a, r.value)
  {
    if Boundary(s, a) then
      var n := RunLength(s, a, Uppers, AtMost(5));
      UpperRun(s, a, AtMost(5));
      TryWordLength(s, a, n)
    else None
  }

  /** `findall`: the matches from position `i` on, as spans, left to right; the scan resumes where a match ends. */
  function WordMatches(s: string, i: nat): (r: seq<(nat, nat)>)
    requires i <= |s|
    ensures forall k :: 0 <= k < |r| ==> i <= r[k].0 && WordMatch(s, r[k].0, r[k].1)
    ensures forall k :: 0 < k < |r| ==> r[k - 1].1 <= r[k].0
    decreases |s| - i
  {
    if i == |s| then []
    else match WordMatchAt(s, i)
      case Some(b) => [(i, b)] + WordMatches(s, b)
      case None => WordMatches(s, i + 1)
  }

  /** Two matches never overlap: a boundary cannot fall strictly inside a run of capitals. */
  lemma {:induction false} WordMatchesDisjoint(s: string, a: nat, b: nat, a2: nat, b2: nat)
    requires WordMatch(s, a, b) && WordMatch(s, a2, b2) && a <= a2 < b
    ensures a2 == a && b2 == b
  {
    BoundaryNotInside(s, a, b, a2);
    BoundaryNotInside(s, a, b, b2);
    BoundaryNotInside(s, a2, b2, b);
  }

  /** The backtracking stops at the first length it tries: a shorter end would lie inside the run. */
  lemma TryWordLengthFinds(s: string, a: nat, k: nat, b: nat)
    requires k <= 5 && a + k <= |s| && AllUpper(s[a..a + k]) && Boundary(s, a)
    requires WordMatch(s, a, b) && b <= a + k
    ensures TryWordLength(s, a, k) == Some(b)
  {
    BoundaryNotInside(s, a, a + k, b);
  }

  lemma {:induction false} WordMatchAtFinds(s: string, a: nat, b: nat)
    requires WordMatch(s, a, b)
    ensures WordMatchAt(s, a) == Some(b)
  {
    var n := RunLength(s, a, Uppers, AtMost(5));
    RunLengthSound(s, a, Uppers, AtMost(5));
    assert b <= a + n by {
      assert forall j :: a <= j < b ==> IsUpper(s[j]) by {
        forall j | a <= j < b ensures IsUpper(s[j]) {
          assert s[j] == s[a..b][j - a];
        }
      }
    }
    UpperRun(s, a, AtMost(5));
    TryWordLengthFinds(s, a, n, b);
  }

  /** Every match that starts at or after `i` is found by the scan from `i`. */
  lemma {:induction false} WordMatchesComplete(s: string, i: nat, a: nat, b: nat)
    requires i <= a && WordMatch(s, a, b)
    ensures (a, b) in WordMatches(s, i)
    decreases |s| - i
  {
    if i == a {
      WordMatchAtFinds(s, a, b);
    } else {
      match WordMatchAt(s, i)
      case Some(b0) =>
        if a < b0 {
          WordMatchesDisjoint(s, i, b0, a, b);
        }
        WordMatchesComplete(s, b0, a, b);
      case None =>
        WordMatchesComplete(s, i + 1, a, b);
    }
  }

  /** The scan lists the matches left to right. */
  lemma {:induction false} WordMatchesOrdered(s: string, i: nat, x: nat, y: nat)
    requires i <= |s| && x < y < |WordMatches(s, i)|
    ensures WordMatches(s, i)[x].1 <= WordMatches(s, i)[y].0
    decreases y - x
  {
    var ms := WordMatches(s, i);
    if x + 1 < y {
      WordMatchesOrdered(s, i, x + 1, y);
    }
  }

  /** `ticker_matches[-1]`: the last standalone word of two to five capitals. */
  function LastWordTicker(text: string): (r: Option<string>)
    ensures r.Some? ==> 2 <= |r.value| <= 5 && AllUpper(r.value)
  {
    var ms := WordMatches(text, 0);
    if ms == [] then None else Some(text[ms[|ms| - 1].0..ms[|ms| - 1].1])
  }

  /** The scan finds every match in the text. */
  lemma WordMatchesAll(text: string)
    ensures forall a: nat, b: nat :: WordMatch(text, a, b) ==> (a, b) in WordMatches(text, 0)
  {
    forall a: nat, b: nat | WordMatch(text, a, b)
      ensures (a, b) in WordMatches(text, 0)
    {
      WordMatchesComplete(text, 0, a, b);
    }
  }

  /** There is no ticker word exactly when no standalone word of two to five capitals occurs. */
  lemma LastWordTickerNone(text: string)
    ensures LastWordTicker(text).None? <==> forall a: nat, b: nat :: !WordMatch(text, a, b)
  {
    WordMatchesAll(text);
  }

  /**
   * The ticker word is the last one: it is a standalone word of two to five
   * capitals, and no other such word starts after it.
   */
  lemma LastWordTickerIsLast(text: string) returns (a: nat, b: nat)
    requires LastWordTicker(text).Some?
    ensures WordMatch(text, a, b) && text[a..b] == LastWordTicker(text).value
    ensures forall a2: nat, b2: nat :: WordMatch(text, a2, b2) ==> a2 <= a
  {
    var ms := WordMatches(text, 0);
    WordMatchesAll(text);
    a, b := ms[|ms| - 1].0, ms[|ms| - 1].1;
    forall a2: nat, b2: nat | WordMatch(text, a2, b2)
      ensures a2 <= a
    {
      var x :| 0 <= x < |ms| && ms[x] == (a2, b2);
      if x < |ms| - 1 {
        WordMatchesOrdered(text, 0, x, |ms| - 1);
      }
    }
  }

  // ---------------------------------------------------------------------
  // `_extract_company_and_ticker`

  /**
   * The company name and the ticker: the parenthesised ticker if there is
   * one, with `(TICKER)` deleted; else the last standalone capitals word,
   * with every occurrence of it deleted; else the label unchanged and `""`.
   */
  function ExtractCompanyAndTicker(text: string): (r: (string, string))
    ensures r.1 == "" || IsParenTicker(r.1)
    ensures r.1 == "" ==> r.0 == text
  {
    match ParenTicker(text)
    case Some(t) => (Strip(Replace(text, "(" + t + ")", "")), t)
    case None =>
      match LastWordTicker(text)
      case Some(t) => (Strip(Replace(text, t, "")), t)
      case None => (text, "")
  }

  /**
   * The ticker is one to five capitals, or empty. A parenthesised ticker is
   * taken whenever the label has one; otherwise the last standalone word of
   * two to five capitals; the ticker is empty exactly when neither exists,
   * and then the name is the label itself.
   */
  lemma ExtractTickerCases(text: string)
    ensures var (name, ticker) := ExtractCompanyAndTicker(text);
            && (ticker == "" || IsParenTicker(ticker))
            && (ParenTicker(text).Some? ==> Contains(text, "(" + ticker + ")"))
            && (ParenTicker(text).None? ==> ticker == LastWordTicker(text).GetOr(""))
            && (ticker == "" <==> ParenTicker(text).None? && forall a: nat, b: nat :: !WordMatch(text, a, b))
            && (ticker == "" ==> name == text)
  {
    LastWordTickerNone(text);
  }

  /** Deleting the ticker and stripping never brings in a character the label lacks. */
  lemma ExtractNameChars(text: string, c: char)
    requires c in ExtractCompanyAndTicker(text).0
    ensures c in text
  {
    match ParenTicker(text)
    case Some(t) => ReplaceDeleteKeeps(text, "(" + t + ")", c);
    case None =>
      match LastWordTicker(text)
      case Some(t) => ReplaceDeleteKeeps(text, t, c);
      case None =>
  }

  // ---------------------------------------------------------------------
  // Outcome classification

  /** The words that mark a rejection, in the order the code checks them. */
  const DenialWords: seq<string> := ["denied", "rejected", "declined", "not approved"]

  predicate MentionsDenial(lower: string) {
    exists w :: w in DenialWords && Contains(lower, w)
  }

  /**
   * `(decision, status)` from the outcome text, compared in lower case:
   * "approved" anywhere is an approval; otherwise a denial word is a
   * denial; otherwise no decision and a pending status.
   */
  function Classify(outcome: string): (r: (Option<string>, string))
    ensures r.1 == "decided" <==> r.0.Some?
    ensures r.1 == "decided" || r.1 == "pending"
    ensures r.0.Some? ==> r.0.value == "approved" || r.0.value == "denied"
  {
    var lower := Lower(outcome);
    if Contains(lower, "approved") then (Some("approved"), Decided)
    else if MentionsDenial(lower) then (Some("denied"), Decided)
    else (None, Pending)
  }

  /** The three outcomes and what decides between them. */
  lemma ClassifyCases(outcome: string)
    ensures var lower := Lower(outcome);
            && (Classify(outcome) == (Some("approved"), "decided") <==> Contains(lower, "approved"))
            && (Classify(outcome) == (Some("denied"), "decided") <==> !Contains(lower, "approved") && MentionsDenial(lower))
            && (Classify(outcome) == (None, "pending") <==> !Contains(lower, "approved") && !MentionsDenial(lower))
  {
  }

  /** A decision is recorded exactly when the status is "decided". */
  lemma ClassifyDecidedIffDecision(outcome: string)
    ensures Classify(outcome).1 == "decided" <==> Classify(outcome).0.Some?
    ensures Classify(outcome).1 == "decided" || Classify(outcome).1 == "pending"
  {
  }

  /** "not approved" contains "approved", which is checked first: such an outcome counts as an approval. */
  lemma NotApprovedIsApproved(outcome: string)
    requires Contains(Lower(outcome), "not approved")
    ensures Classify(outcome) == (Some("approved"), "decided")
  {
    assert "not approved" == "not " + "approved";
    ContainsSuffix(Lower(outcome), "not ", "approved");
  }

  /** Letter case of the outcome text does not matter. */
  lemma ClassifyIgnoresCase(outcome: string)
    ensures Classify(Lower(outcome)) == Classify(outcome)
  {
    LowerIdempotent(outcome);
  }

  // ---------------------------------------------------------------------
  // `_parse_data_th_entry`

  /** The description: event text, then the outcome text, stripped. */
  function Description(event: string, outcome: string): string {
    Strip(event + ". Outcome: " + outcome)
  }

  /**
   * One calendar entry from its four cell texts: the date from the event
   * text, else from the outcome text, else no entry. A `_parse_date` call
   * that raises is caught by the entry's `except Exception`, which also
   * gives no entry.
   */
  function ParseEntry(companyText: string, drugName: string, eventText: string, outcomeText: string): (r: Option<RegulatoryDecision>)
    ensures r.Some? ==> r.value.drugName == drugName && r.value.useu == Some("US")
    ensures r.Some? ==> (r.value.status == "decided" <==> r.value.decision.Some?)
    ensures ParseDateRaises(eventText) ==> r.None?
    ensures !ParseDateRaises(eventText) && ParseDate(eventText).Some? ==>
              r.Some? && r.value.pdufaDate == ParseDate(eventText).value
    ensures !ParseDateRaises(eventText) && ParseDate(eventText).None? ==>
              (r.Some? <==> !ParseDateRaises(outcomeText) && ParseDate(outcomeText).Some?)
              && (r.Some? ==> r.value.pdufaDate == ParseDate(outcomeText).value)
  {
    var (companyName, ticker) := ExtractCompanyAndTicker(companyText);
    var date :=
      if ParseDateRaises(eventText) then None
      else match ParseDate(eventText)
        case Some(d) => Some(d)
        case None => if ParseDateRaises(outcomeText) then None else ParseDate(outcomeText);
    match date
    case None => None
    case Some(d) =>
      var (decision, status) := Classify(outcomeText);
      Some(NewDecision(companyName, ticker, drugName, d, decision, Description(eventText, outcomeText), status))
  }

  /**
   * An event cell holding an `MM/DD/YYYY` date gives an entry on that date,
   * whatever the outcome cell says. An outcome mentioning "approved" records
   * an approval, and one with neither an approval nor a denial word leaves
   * the entry pending with no decision.
   */
  lemma SlashEventEntry(companyText: string, drugName: string, d: CalendarDate, outcomeText: string)
    ensures var r := ParseEntry(companyText, drugName, SlashText(d), outcomeText);
            && r.Some? && r.value.pdufaDate == d && r.value.drugName == drugName && r.value.useu == Some("US")
            && (Contains(Lower(outcomeText), "approved") ==> r.value.decision == Some("approved") && r.value.status == "decided")
            && (!Contains(Lower(outcomeText), "approved") && !MentionsDenial(Lower(outcomeText)) ==>
                  r.value.decision == None && r.value.status == "pending")
  {
    SlashTextParses(d);
    ClassifyCases(outcomeText);
  }

  /**
   * An event cell without a digit has no date, so the entry falls back on
   * the outcome cell: it exists exactly when the outcome has a date and its
   * parse does not raise, and then carries that date.
   */
  lemma UndatedEventFallsBack(companyText: string, drugName: string, eventText: string, outcomeText: string)
    requires forall x :: 0 <= x < |eventText| ==> !IsDigit(eventText[x])
    ensures ParseEntry(companyText, drugName, eventText, outcomeText).None? <==>
              ParseDate(outcomeText).None? || ParseDateRaises(outcomeText)
    ensures ParseEntry(companyText, drugName, eventText, outcomeText).Some? ==>
              ParseEntry(companyText, drugName, eventText, outcomeText).value.pdufaDate == ParseDate(outcomeText).value
  {
    NoDigitsNoDate(eventText);
  }

  /** With no digit in either cell there is no entry. */
  lemma UndatedCellsNoEntry(companyText: string, drugName: string, eventText: string, outcomeText: string)
    requires forall x :: 0 <= x < |eventText| ==> !IsDigit(eventText[x])
    requires forall x :: 0 <= x < |outcomeText| ==> !IsDigit(outcomeText[x])
    ensures ParseEntry(companyText, drugName, eventText, outcomeText) == None
  {
    NoDigitsNoDate(eventText);
    NoDigitsNoDate(outcomeText);
  }

  /** An undated event with a `Month YYYY` outcome gives an entry in the middle of that month. */
  lemma UndatedEventMonthYear(companyText: string, drugName: string, eventText: string, name: string, year: nat)
    requires forall x :: 0 <= x < |eventText| ==> !IsDigit(eventText[x])
    requires MonthNumber(name).Some? && MinYear <= year <= MaxYear
    ensures var r := ParseEntry(companyText, drugName, eventText, MonthYearText(name, year));
            r.Some? && r.value.pdufaDate == Date(year, MonthNumber(name).value, 15)
  {
    NoDigitsNoDate(eventText);
    MonthYearTextParses(name, year);
  }

  /**
   * An event cell such as `2147483648 1, 2024` makes `_parse_date` raise
   * `OverflowError`, so there is no entry whatever the outcome cell holds:
   * the outcome's date is never tried.
   */
  lemma OverflowEventNoEntry(companyText: string, drugName: string, digits: string, day: nat, year: nat, outcomeText: string)
    requires IsDigitString(digits) && DigitsValue(digits) >= 0x8000_0000 && day < 100 && year < 10000
    ensures ParseEntry(companyText, drugName, MonthDayYearText(digits, day, year), outcomeText) == None
  {
    HugeMonthTextRaises(digits, day, year);
  }

  // ---------------------------------------------------------------------
  // `_deduplicate_records`

  type DedupKey = (string, string, string)

  /** `(ticker, drug, date as YYYY-MM-DD)` */
  function KeyOf(r: RegulatoryDecision): DedupKey {
    (r.ticker, r.drugName, FormatFullDate(r.pdufaDate))
  }

  /** Two records share a key exactly when they share ticker, drug and date. */
  lemma KeyOfSame(a: RegulatoryDecision, b: RegulatoryDecision)
    ensures KeyOf(a) == KeyOf(b) <==> a.ticker == b.ticker && a.drugName == b.drugName && a.pdufaDate == b.pdufaDate
  {
    if FormatFullDate(a.pdufaDate) == FormatFullDate(b.pdufaDate) {
      FullDateRoundTrip(a.pdufaDate);
      FullDateRoundTrip(b.pdufaDate);
    }
  }

  /** One step of the pass: the record is appended exactly when its key is new. */
  lemma DedupStep(records: seq<RegulatoryDecision>, i: nat, seen: set<DedupKey>, unique: seq<RegulatoryDecision>)
    requires i < |records| && seen == Keys(records[..i], KeyOf) && unique == KeepFirst(records[..i], KeyOf)
    ensures Keys(records[..i + 1], KeyOf) == seen + {KeyOf(records[i])}
    ensures KeepFirst(records[..i + 1], KeyOf) == if KeyOf(records[i]) in seen then unique else unique + [records[i]]
  {
    KeepFirstStep(records, KeyOf, i);
  }

  /** `_deduplicate_records`: one pass with a set of seen keys. */
  method Deduplicate(records: seq<RegulatoryDecision>) returns (unique: seq<RegulatoryDecision>)
    ensures unique == KeepFirst(records, KeyOf)
  {
    var seen: set<DedupKey> := {};
    unique := [];
    var i := 0;
    while i < |records|
      invariant i <= |records|
      invariant seen == Keys(records[..i], KeyOf)
      invariant unique == KeepFirst(records[..i], KeyOf)
    {
      var record := records[i];
      var key := KeyOf(record);
      DedupStep(records, i, seen, unique);
      if key !in seen {
        seen := seen + {key};
        unique := unique + [record];
      }
      i := i + 1;
    }
    assert records[..i] == records;
  }

  /** Two records agreeing on ticker, drug and date never both survive. */
  lemma DedupNoTwins(rs: seq<RegulatoryDecision>, a: nat, b: nat)
    requires a < b < |KeepFirst(rs, KeyOf)|
    ensures var k := KeepFirst(rs, KeyOf);
            !(k[a].ticker == k[b].ticker && k[a].drugName == k[b].drugName && k[a].pdufaDate == k[b].pdufaDate)
  {
    KeepFirstDistinct(rs, KeyOf);
    KeyOfSame(KeepFirst(rs, KeyOf)[a], KeepFirst(rs, KeyOf)[b]);
  }
}

=== FILE: regex.dfy ===
/**
 * Python's `re.search` for patterns built from single-character classes with
 * greedy repetition — the shape of every date pattern the scraper uses
 * (`\d{1,2}`, `[A-Z]{1,5}`, `\w+`, `\s+`, `,?`, literal characters). Python's backtracking
 * engine tries, at each start position from the left, the longest repetition
 * first and gives back one character at a time; so does this matcher.
 */
module Regex {
  import opened Wrappers
  import opened Text

  datatype CharClass = Digits | Uppers | WordChars | Spaces | Exactly(c: char)

  predicate InClass(c: char, k: CharClass) {
    match k
    case Digits => IsDigit(c)
    case Uppers => IsUpper(c)
    case WordChars => IsWordChar(c)
    case Spaces => IsSpace(c)
    case Exactly(x) => c == x
  }

  datatype Bound = AtMost(n: nat) | Unbounded

  predicate Within(n: nat, hi: Bound) {
    hi.Unbounded? || n <= hi.n
  }

  /** One class repeated `lo` to `hi` times, greedily; `capture` marks a group `( )`. */
  datatype Atom = Atom(cls: CharClass, lo: nat, hi: Bound, capture: bool)

  type Pattern = seq<Atom>

  /** The part of the subject one atom consumed. */
  datatype Span = Span(start: nat, end: nat, text: string)

  function Lower1(hi: Bound): Bound {
    if hi.AtMost? && hi.n > 0 then AtMost(hi.n - 1) else hi
  }

  /** How many characters from `i` on the class can take: the longest run allowed by `hi`. */
  function RunLength(s: string, i: nat, k: CharClass, hi: Bound): (n: nat)
    requires i <= |s|
    ensures i + n <= |s| && Within(n, hi)
    decreases |s| - i
  {
    if i == |s| || hi == AtMost(0) || !InClass(s[i], k) then 0
    else 1 + RunLength(s, i + 1, k, Lower1(hi))
  }

  /** Every character of the run is in the class, and the run stops at the end, a non-member or the bound. */
  lemma {:induction false} RunLengthSound(s: string, i: nat, k: CharClass, hi: Bound)
    requires i <= |s|
    ensures var n := RunLength(s, i, k, hi);
            && (forall j :: i <= j < i + n ==> InClass(s[j], k))
            && (i + n < |s| && (hi.Unbounded? || n < hi.n) ==> !InClass(s[i + n], k))
    decreases |s| - i
  {
    if !(i == |s| || hi == AtMost(0) || !InClass(s[i], k)) {
      RunLengthSound(s, i + 1, k, Lower1(hi));
    }
  }

  /** The first match of `p` that starts exactly at `i`, one span per atom. */
  function MatchFrom(s: string, i: nat, p: Pattern): Option<seq<Span>>
    requires i <= |s|
    decreases |p|, 1, 0
  {
    if p == [] then Some([])
    else TryCounts(s, i, p, RunLength(s, i, p[0].cls, p[0].hi))
  }

  /** Give the first atom `k` characters, then fewer, until the rest of the pattern matches. */
  function TryCounts(s: string, i: nat, p: Pattern, k: nat): Option<seq<Span>>
    requires p != [] && i + k <= |s|
    decreases |p|, 0, k
  {
    if k < p[0].lo then None
    else
      match MatchFrom(s, i + k, p[1..])
      case Some(rest) => Some([Span(i, i + k, s[i..i + k])] + rest)
      case None => if k == 0 then None else TryCounts(s, i, p, k - 1)
  }

  function SearchFrom(s: string, p: Pattern, i: nat): Option<seq<Span>>
    requires i <= |s|
    decreases |s| - i
  {
    match MatchFrom(s, i, p)
    case Some(spans) => Some(spans)
    case None => if i == |s| then None else SearchFrom(s, p, i + 1)
  }

  /** `re.search(p, s)`: the match at the leftmost start position that has one. */
  function Search(s: string, p: Pattern): Option<seq<Span>> {
    SearchFrom(s, p, 0)
  }

  /** `match.groups()`: the text of every capturing atom, in order. */
  function Groups(p: Pattern, spans: seq<Span>): seq<string> {
    if p == [] || spans == [] then []
    else (if p[0].capture then [spans[0].text] else []) + Groups(p[1..], spans[1..])
  }

  // ---------------------------------------------------------------------
  // What a match guarantees

  predicate AtomMatches(s: string, a: Atom, sp: Span) {
    && sp.start <= sp.end <= |s|
    && sp.text == s[sp.start..sp.end]
    && a.lo <= sp.end - sp.start
    && Within(sp.end - sp.start, a.hi)
    && forall j :: sp.start <= j < sp.end ==> InClass(s[j], a.cls)
  }

  /** The spans cover the subject from `i` on without gaps, each atom within its bounds. */
  predicate SoundMatch(s: string, i: nat, p: Pattern, spans: seq<Span>) {
    && |spans| == |p|
    && (spans != [] ==> spans[0].start == i)
    && (forall j :: 0 <= j < |spans| ==> AtomMatches(s, p[j], spans[j]))
    && (forall j :: 0 < j < |spans| ==> spans[j].start == spans[j - 1].end)
  }

  lemma {:induction false} MatchFromSound(s: string, i: nat, p: Pattern)
    requires i <= |s|
    requires MatchFrom(s, i, p).Some?
    ensures SoundMatch(s, i, p, MatchFrom(s, i, p).value)
    decreases |p|, 1, 0
  {
    if p != [] {
      TryCountsSound(s, i, p, RunLength(s, i, p[0].cls, p[0].hi));
    }
  }

  lemma {:induction false} TryCountsSound(s: string, i: nat, p: Pattern, k: nat)
    requires p != [] && i + k <= |s|
    requires k <= RunLength(s, i, p[0].cls, p[0].hi)
    requires TryCounts(s, i, p, k).Some?
    ensures SoundMatch(s, i, p, TryCounts(s, i, p, k).value)
    decreases |p|, 0, k
  {
    match MatchFrom(s, i + k, p[1..])
    case Some(rest) =>
      MatchFromSound(s, i + k, p[1..]);
      RunLengthSound(s, i, p[0].cls, p[0].hi);
      var head := Span(i, i + k, s[i..i + k]);
      var spans := [head] + rest;
      assert spans == TryCounts(s, i, p, k).value;
      assert Within(k, p[0].hi) by {
        var n := RunLength(s, i, p[0].cls, p[0].hi);
        assert Within(n, p[0].hi);
      }
      forall j | 0 <= j < |spans|
        ensures AtomMatches(s, p[j], spans[j])
      {
        if j > 0 {
          assert spans[j] == rest[j - 1] && p[j] == p[1..][j - 1];
        }
      }
      forall j | 0 < j < |spans|
        ensures spans[j].start == spans[j - 1].end
      {
        if j > 1 {
          assert spans[j] == rest[j - 1] && spans[j - 1] == rest[j - 2];
        }
      }
    case None =>
      TryCountsSound(s, i, p, k - 1);
  }

  lemma SearchFromSound(s: string, p: Pattern, i: nat)
    requires i <= |s|
    requires SearchFrom(s, p, i).Some?
    ensures exists st :: i <= st <= |s| && SoundMatch(s, st, p, SearchFrom(s, p, i).value)
    decreases |s| - i
  {
    if MatchFrom(s, i, p).Some? {
      MatchFromSound(s, i, p);
    } else {
      SearchFromSound(s, p, i + 1);
    }
  }

  /** Every match `re.search` reports is a sound match at some start position. */
  lemma SearchSound(s: string, p: Pattern)
    requires Search(s, p).Some?
    ensures exists st :: 0 <= st <= |s| && SoundMatch(s, st, p, Search(s, p).value)
  {
    SearchFromSound(s, p, 0);
  }

  lemma {:induction false} SpansOrdered(s: string, i: nat, p: Pattern, spans: seq<Span>, a: nat, b: nat)
    requires SoundMatch(s, i, p, spans)
    requires a < b < |spans|
    ensures spans[a].end <= spans[b].start
    decreases b - a
  {
    if a + 1 < b {
      SpansOrdered(s, i, p, spans, a + 1, b);
    }
  }

  /** A match puts a character of every non-optional atom's class into the subject. */
  lemma ClassWitness(s: string, p: Pattern, j: nat) returns (x: nat)
    requires j < |p| && p[j].lo >= 1
    requires Search(s, p).Some?
    ensures x < |s| && InClass(s[x], p[j].cls)
  {
    SearchSound(s, p);
    var st :| 0 <= st <= |s| && SoundMatch(s, st, p, Search(s, p).value);
    var sp := Search(s, p).value[j];
    assert AtomMatches(s, p[j], sp);
    x := sp.start;
  }

  /**
   * An atom that must consume at least one character of a class the subject
   * never contains rules out every match.
   */
  lemma SearchNeedsClass(s: string, p: Pattern, j: nat)
    requires j < |p| && p[j].lo >= 1
    requires forall x :: 0 <= x < |s| ==> !InClass(s[x], p[j].cls)
    ensures Search(s, p) == None
  {
    if Search(s, p).Some? {
      var x := ClassWitness(s, p, j);
    }
  }

  /** A match puts a character of `p[a].cls` strictly before one of `p[b].cls`. */
  lemma PairWitness(s: string, p: Pattern, a: nat, b: nat) returns (x: nat, y: nat)
    requires a < b < |p| && p[a].lo >= 1 && p[b].lo >= 1
    requires Search(s, p).Some?
    ensures x < y < |s| && InClass(s[x], p[a].cls) && InClass(s[y], p[b].cls)
  {
    SearchSound(s, p);
    var spans := Search(s, p).value;
    var st :| 0 <= st <= |s| && SoundMatch(s, st, p, spans);
    assert AtomMatches(s, p[a], spans[a]) && AtomMatches(s, p[b], spans[b]);
    SpansOrdered(s, st, p, spans, a, b);
    x, y := spans[a].start, spans[b].start;
  }

  /**
   * Two atoms that each need a character, the first of class `p[a].cls`
   * strictly before one of class `p[b].cls`, rule out every match of a
   * subject without such a pair.
   */
  lemma SearchNeedsOrderedPair(s: string, p: Pattern, a: nat, b: nat)
    requires a < b < |p| && p[a].lo >= 1 && p[b].lo >= 1
    requires forall x, y :: 0 <= x < y < |s| ==> !(InClass(s[x], p[a].cls) && InClass(s[y], p[b].cls))
    ensures Search(s, p) == None
  {
    if Search(s, p).Some? {
      var x, y := PairWitness(s, p, a, b);
    }
  }

  // ---------------------------------------------------------------------
  // Computing particular matches

  /** A run that is as long as the class and the bound allow is what the matcher takes. */
  lemma {:induction false} RunLengthIs(s: string, i: nat, k: CharClass, hi: Bound, n: nat)
    requires i + n <= |s| && Within(n, hi)
    requires forall j :: i <= j < i + n ==> InClass(s[j], k)
    requires i + n == |s| || !InClass(s[i + n], k) || hi == AtMost(n)
    ensures RunLength(s, i, k, hi) == n
    decreases n
  {
    if n > 0 {
      RunLengthIs(s, i + 1, k, Lower1(hi), n - 1);
    }
  }

  /** The greedy count succeeds when the rest of the pattern matches right after it. */
  lemma TryFullRun(s: string, i: nat, p: Pattern, rest: seq<Span>)
    requires p != [] && i <= |s|
    requires i + RunLength(s, i, p[0].cls, p[0].hi) <= |s|
    requires RunLength(s, i, p[0].cls, p[0].hi) >= p[0].lo
    requires MatchFrom(s, i + RunLength(s, i, p[0].cls, p[0].hi), p[1..]) == Some(rest)
    ensures var n := RunLength(s, i, p[0].cls, p[0].hi);
            MatchFrom(s, i, p) == Some([Span(i, i + n, s[i..i + n])] + rest)
  {
  }

  /** A match at position 0 is the one `re.search` reports. */
  lemma SearchAtStart(s: string, p: Pattern)
    requires MatchFrom(s, 0, p).Some?
    ensures Search(s, p) == MatchFrom(s, 0, p)
  {
  }

  /** A match at any position means `re.search` reports one (perhaps further left). */
  lemma {:induction false} SearchFromComplete(s: string, p: Pattern, j: nat, i: nat)
    requires j <= i <= |s| && MatchFrom(s, i, p).Some?
    ensures SearchFrom(s, p, j).Some?
    decreases i - j
  {
    if MatchFrom(s, j, p).None? {
      SearchFromComplete(s, p, j + 1, i);
    }
  }

  lemma SearchComplete(s: string, p: Pattern, i: nat)
    requires i <= |s| && MatchFrom(s, i, p).Some?
    ensures Search(s, p).Some?
  {
    SearchFromComplete(s, p, 0, i);
  }

  /** A reported match has one span per atom. */
  lemma SearchLength(s: string, p: Pattern)
    requires Search(s, p).Some?
    ensures |Search(s, p).value| == |p|
  {
    SearchSound(s, p);
  }

  function CaptureCount(p: Pattern): nat {
    if p == [] then 0 else (if p[0].capture then 1 else 0) + CaptureCount(p[1..])
  }

  lemma {:induction false} GroupsLength(p: Pattern, spans: seq<Span>)
    requires |spans| == |p|
    ensures |Groups(p, spans)| == CaptureCount(p)
  {
    if p != [] {
      GroupsLength(p[1..], spans[1..]);
    }
  }

  /** Each group is the text of a capturing atom's span, at or after the group's own index. */
  lemma {:induction false} GroupSpan(p: Pattern, spans: seq<Span>, x: nat) returns (j: nat)
    requires |spans| == |p| && x < |Groups(p, spans)|
    ensures x <= j < |p| && p[j].capture && Groups(p, spans)[x] == spans[j].text
  {
    var rest := Groups(p[1..], spans[1..]);
    if p[0].capture && x == 0 {
      j := 0;
    } else {
      var x' := if p[0].capture then x - 1 else x;
      assert x' < |rest|;
      var j' := GroupSpan(p[1..], spans[1..], x');
      j := j' + 1;
    }
  }

  /** `match.groups()` of the first match, when there is one. */
  function SearchGroups(s: string, p: Pattern): (r: Option<seq<string>>)
    ensures r.Some? <==> Search(s, p).Some?
    ensures r.Some? ==> |r.value| == CaptureCount(p)
  {
    match Search(s, p)
    case None => None
    case Some(spans) =>
      SearchLength(s, p);
      GroupsLength(p, spans);
      Some(Groups(p, spans))
  }

  /**
   * Each atom, in turn, takes exactly `lens[k]` characters as its longest
   * allowed run, and that is at least its minimum: the matcher needs no
   * backtracking and the greedy counts are the match.
   */
  predicate GreedyFit(s: string, i: nat, p: Pattern, lens: seq<nat>)
    decreases |p|
  {
    && i <= |s|
    && |lens| == |p|
    && (p != [] ==>
          && RunLength(s, i, p[0].cls, p[0].hi) == lens[0]
          && lens[0] >= p[0].lo
          && GreedyFit(s, i + lens[0], p[1..], lens[1..]))
  }

  function GreedySpans(s: string, i: nat, p: Pattern, lens: seq<nat>): (r: seq<Span>)
    requires GreedyFit(s, i, p, lens)
    ensures |r| == |p|
    decreases |p|
  {
    if p == [] then [] else [Span(i, i + lens[0], s[i..i + lens[0]])] + GreedySpans(s, i + lens[0], p[1..], lens[1..])
  }

  lemma {:induction false} GreedyFitMatches(s: string, i: nat, p: Pattern, lens: seq<nat>)
    requires GreedyFit(s, i, p, lens)
    ensures MatchFrom(s, i, p) == Some(GreedySpans(s, i, p, lens))
    decreases |p|
  {
    if p != [] {
      GreedyFitMatches(s, i + lens[0], p[1..], lens[1..]);
      TryFullRun(s, i, p, GreedySpans(s, i + lens[0], p[1..], lens[1..]));
    }
  }

  /** A greedy fit from the first character is the match `re.search` reports, and its groups are the groups. */
  lemma GreedySearch(s: string, p: Pattern, lens: seq<nat>)
    requires GreedyFit(s, 0, p, lens)
    ensures Search(s, p) == Some(GreedySpans(s, 0, p, lens))
    ensures SearchGroups(s, p) == Some(Groups(p, GreedySpans(s, 0, p, lens)))
  {
    GreedyFitMatches(s, 0, p, lens);
  }
}

=== FILE: regulatory_decision.dfy ===
/** The catalyst record the scraper produces and the store holds. */
module RegulatoryDecisions {
  import opened Wrappers
  import opened Calendar

  /**
   * A regulatory decision event. The company name, ticker, drug and date
   * are required; the rest have defaults.
   */
  datatype RegulatoryDecision = RegulatoryDecision(
    companyName: string,
    ticker: string,
    drugName: string,
    pdufaDate: CalendarDate,
    decision: Option<string>,
    description: string,
    status: string,
    useu: Option<string>)

  const Pending: string := "pending"
  const Decided: string := "decided"

  /** The dataclass constructor, with its keyword defaults. */
  function NewDecision(
    companyName: string, ticker: string, drugName: string, pdufaDate: CalendarDate,
    decision: Option<string> := None, description: string := "",
    status: string := Pending, useu: Option<string> := Some("US")): (r: RegulatoryDecision)
    ensures r.companyName == companyName && r.ticker == ticker
    ensures r.drugName == drugName && r.pdufaDate == pdufaDate
    ensures r.decision == decision && r.description == description
    ensures r.status == status && r.useu == useu
  {
    RegulatoryDecision(companyName, ticker, drugName, pdufaDate, decision, description, status, useu)
  }

  /** Leaving out the optional fields gives no decision, no description, a pending status and the US market. */
  lemma NewDecisionDefaults(companyName: string, ticker: string, drugName: string, pdufaDate: CalendarDate)
    ensures var r := NewDecision(companyName, ticker, drugName, pdufaDate);
            && r.decision == None && r.description == "" && r.status == "pending" && r.useu == Some("US")
            && r == RegulatoryDecision(companyName, ticker, drugName, pdufaDate, None, "", "pending", Some("US"))
  {
  }
}

=== FILE: study.dfy ===
/** A clinical-trial study as the ingestion code builds it. */
module Studies {
  import opened Wrappers
  import opened Calendar

  /**
   * `pcd` is the primary completion date; it is absent when the registry
   * text could not be read as a date.
   */
  datatype Study = Study(
    nctid: string,
    title: string,
    phase: string,
    pcd: Option<CalendarDate>,
    primarySponsor: string,
    conditions: string)
}

=== FILE: text.dfy ===
/**
 * The pieces of Python's `str` behaviour the model relies on: character classes,
 * `strip`, `lower`, `in`, `replace`, `join`, `split(...)[0]` and `int(...)`.
 *
 * Character classes are stated for the characters the modelled inputs use:
 * decimal digits are the ASCII digits, letters outside ASCII are the Latin
 * letters U+00C0..U+024F, and white space is exactly the set `str.isspace` accepts.
 */
module Text {
  import opened Wrappers

  predicate IsDigit(c: char) { '0' <= c <= '9' }

  predicate IsUpper(c: char) { 'A' <= c <= 'Z' }

  predicate IsLower(c: char) { 'a' <= c <= 'z' }

  /** Python's `str.isspace` (and the regular-expression class `\s`). */
  predicate IsSpace(c: char) {
    || c == ' ' || c == '\t' || c == '\n' || c == '\r' || c == '\U{B}' || c == '\U{C}'
    || ('\U{1C}' <= c <= '\U{1F}') || c == '\U{85}' || c == '\U{A0}' || c == '\U{1680}'
    || ('\U{2000}' <= c <= '\U{200A}') || c == '\U{2028}' || c == '\U{2029}' || c == '\U{202F}'
    || c == '\U{205F}' || c == '\U{3000}'
  }

  /** The regular-expression class `\w`: letters, digits and the underscore. */
  predicate IsWordChar(c: char) {
    || IsDigit(c) || IsUpper(c) || IsLower(c) || c == '_'
    || ('\U{C0}' <= c <= '\U{24F}' && c != '\U{D7}' && c != '\U{F7}')
  }

  function ToLower(c: char): (r: char)
    ensures IsUpper(c) ==> IsLower(r)
    ensures !IsUpper(c) ==> r == c
  {
    if IsUpper(c) then (c as int + 32) as char else c
  }

  /** `s.lower()`; only ASCII capitals change (see the module comment). */
  function Lower(s: string): (r: string)
    ensures |r| == |s|
    ensures forall i :: 0 <= i < |s| ==> r[i] == ToLower(s[i])
  {
    if s == [] then [] else [ToLower(s[0])] + Lower(s[1..])
  }

  /** Lower-casing twice is lower-casing once. */
  lemma LowerIdempotent(s: string)
    ensures Lower(Lower(s)) == Lower(s)
  {
    assert forall i :: 0 <= i < |s| ==> ToLower(ToLower(s[i])) == ToLower(s[i]);
  }

  function StripLeft(s: string): (r: string)
    ensures |r| <= |s| && r == s[|s| - |r|..]
    ensures r != [] ==> !IsSpace(r[0])
    ensures forall i :: 0 <= i < |s| - |r| ==> IsSpace(s[i])
  {
    if s != [] && IsSpace(s[0]) then StripLeft(s[1..]) else s
  }

  function StripRight(s: string): (r: string)
    ensures |r| <= |s| && r == s[..|r|]
    ensures r != [] ==> !IsSpace(r[|r| - 1])
    ensures forall i :: |r| <= i < |s| ==> IsSpace(s[i])
  {
    if s != [] && IsSpace(s[|s| - 1]) then StripRight(s[..|s| - 1]) else s
  }

  /** `s.strip()`: the longest infix that neither starts nor ends with white space. */
  function Strip(s: string): (r: string)
    ensures |r| <= |s|
    ensures r != [] ==> !IsSpace(r[0]) && !IsSpace(r[|r| - 1])
    ensures forall c :: c in r ==> c in s
  {
    StripRight(StripLeft(s))
  }

  /** What `strip` removes is exactly the leading and the trailing white space. */
  lemma StripIsInfix(s: string)
    ensures StrippedAt(s, Strip(s), |s| - |StripLeft(s)|)
  {
    var l := StripLeft(s);
    var i := |s| - |l|;
    var r := StripRight(l);
    assert r == s[i..i + |r|] by {
      assert l == s[i..];
      assert r == l[..|r|];
      assert s[i..][..|r|] == s[i..i + |r|];
    }
    forall k | i + |r| <= k < |s|
      ensures IsSpace(s[k])
    {
      assert s[k] == l[k - i];
    }
  }

  /**
   * `r` is the infix of `s` at `i`, and everything before and after it is
   * white space: what `strip` removes is exactly the leading and trailing
   * white space.
   */
  predicate StrippedAt(s: string, r: string, i: int) {
    && 0 <= i && i + |r| <= |s|
    && r == s[i..i + |r|]
    && (forall k :: 0 <= k < i ==> IsSpace(s[k]))
    && (forall k :: i + |r| <= k < |s| ==> IsSpace(s[k]))
  }

  lemma StripUnchanged(s: string)
    requires s == [] || (!IsSpace(s[0]) && !IsSpace(s[|s| - 1]))
    ensures Strip(s) == s
  {
  }

  predicate StartsWith(s: string, prefix: string) {
    |prefix| <= |s| && s[..|prefix|] == prefix
  }

  /** `sub in s` */
  predicate Contains(s: string, sub: string)
    decreases |s|
  {
    StartsWith(s, sub) || (s != [] && Contains(s[1..], sub))
  }

  lemma {:induction false} ContainsAt(s: string, sub: string, i: nat)
    requires i + |sub| <= |s| && s[i..i + |sub|] == sub
    ensures Contains(s, sub)
    decreases i
  {
    if i == 0 {
      assert StartsWith(s, sub);
    } else {
      assert s[1..][i - 1..i - 1 + |sub|] == sub;
      ContainsAt(s[1..], sub, i - 1);
    }
  }

  lemma {:induction false} ContainsWitness(s: string, sub: string) returns (i: nat)
    requires Contains(s, sub)
    ensures i + |sub| <= |s| && s[i..i + |sub|] == sub
    decreases |s|
  {
    if StartsWith(s, sub) {
      i := 0;
    } else {
      var j := ContainsWitness(s[1..], sub);
      i := j + 1;
      assert s[i..i + |sub|] == s[1..][j..j + |sub|];
    }
  }

  /** A text containing `a + b` contains `b`. */
  lemma ContainsSuffix(s: string, a: string, b: string)
    requires Contains(s, a + b)
    ensures Contains(s, b)
  {
    var i := ContainsWitness(s, a + b);
    assert s[i + |a|..i + |a| + |b|] == (a + b)[|a|..];
    ContainsAt(s, b, i + |a|);
  }

  /** A one-character needle occurs exactly when the character does. */
  lemma ContainsChar(s: string, c: char)
    ensures Contains(s, [c]) <==> c in s
  {
    if Contains(s, [c]) {
      var i := ContainsWitness(s, [c]);
      assert s[i] == s[i..i + 1][0];
    }
    if c in s {
      var i :| 0 <= i < |s| && s[i] == c;
      assert s[i..i + 1] == [c];
      ContainsAt(s, [c], i);
    }
  }

  /** `s.replace(pat, rep)`: every non-overlapping occurrence, scanning left to right. */
  function Replace(s: string, pat: string, rep: string): string
    decreases |s|, |pat|
  {
    if |pat| == 0 then
      (if s == [] then rep else rep + [s[0]] + Replace(s[1..], pat, rep))
    else if |s| < |pat| then s
    else if s[..|pat|] == pat then rep + Replace(s[|pat|..], pat, rep)
    else [s[0]] + Replace(s[1..], pat, rep)
  }

  /** Deleting every occurrence of one character leaves none of it. */
  lemma {:induction false} ReplaceRemovesChar(s: string, c: char)
    ensures c !in Replace(s, [c], "")
    decreases |s|
  {
    if |s| < 1 {
    } else if s[..1] == [c] {
      ReplaceRemovesChar(s[1..], c);
    } else {
      assert s[0] != c by { assert s[..1][0] == s[0]; }
      ReplaceRemovesChar(s[1..], c);
    }
  }

  /** Deleting a substring never adds a character that was not there. */
  lemma {:induction false} ReplaceDeleteKeeps(s: string, pat: string, c: char)
    requires |pat| > 0
    ensures c in Replace(s, pat, "") ==> c in s
    decreases |s|
  {
    if |s| < |pat| {
    } else if s[..|pat|] == pat {
      ReplaceDeleteKeeps(s[|pat|..], pat, c);
    } else {
      ReplaceDeleteKeeps(s[1..], pat, c);
    }
  }

  /** `sep.join(parts)` */
  function Join(parts: seq<string>, sep: string): string {
    if parts == [] then ""
    else if |parts| == 1 then parts[0]
    else parts[0] + sep + Join(parts[1..], sep)
  }

  /** `s.split(c)[0]`: the text before the first `c`, or all of `s`. */
  function Before(s: string, c: char): (r: string)
    ensures StartsWith(s, r) && c !in r
    ensures |r| < |s| ==> s[|r|] == c
  {
    if s == [] then []
    else if s[0] == c then []
    else [s[0]] + Before(s[1..], c)
  }

  /** The text before `c` in `a + b`, when `a` has no `c` and `b` is empty or starts with `c`, is `a`. */
  lemma {:induction false} BeforeConcat(a: string, b: string, c: char)
    requires c !in a && (b == [] || b[0] == c)
    ensures Before(a + b, c) == a
  {
    if a != [] {
      assert (a + b)[1..] == a[1..] + b;
      BeforeConcat(a[1..], b, c);
    }
  }

  /** Python's `s[lo:hi]` for non-negative bounds: clamped to the string, empty when crossed. */
  function Slice(s: string, lo: nat, hi: nat): (r: string)
    ensures |r| <= |s|
    ensures lo <= hi <= |s| ==> r == s[lo..hi]
    ensures hi <= lo || |s| <= lo ==> r == []
  {
    var a := if lo < |s| then lo else |s|;
    var b := if hi < |s| then hi else |s|;
    if b <= a then [] else s[a..b]
  }

  /** Python's `s[lo:]`. */
  function Drop(s: string, lo: nat): (r: string)
    ensures lo <= |s| ==> r == s[lo..]
    ensures |s| <= lo ==> r == []
  {
    if lo < |s| then s[lo..] else []
  }

  predicate AllDigits(s: string) {
    forall i :: 0 <= i < |s| ==> IsDigit(s[i])
  }

  function DigitValue(c: char): nat
    requires IsDigit(c)
  {
    c as int - '0' as int
  }

  function DigitChar(d: nat): (c: char)
    requires d < 10
    ensures IsDigit(c) && DigitValue(c) == d
  {
    ('0' as int + d) as char
  }

  /** The number a string of decimal digits denotes, most significant first. */
  function DigitsValue(s: string): nat
    requires AllDigits(s)
  {
    if s == [] then 0 else DigitsValue(s[..|s| - 1]) * 10 + DigitValue(s[|s| - 1])
  }

  function Pow10(n: nat): nat {
    if n == 0 then 1 else 10 * Pow10(n - 1)
  }

  /** `n` written with exactly `width` digits, left-padded with zeros. */
  function PadDigits(n: nat, width: nat): (r: string)
    ensures |r| == width && AllDigits(r)
  {
    if width == 0 then [] else PadDigits(n / 10, width - 1) + [DigitChar(n % 10)]
  }

  /** Reading back a zero-padded number gives the number. */
  lemma {:induction false} PadDigitsValue(n: nat, width: nat)
    requires n < Pow10(width)
    ensures DigitsValue(PadDigits(n, width)) == n
  {
    if width > 0 {
      var p := PadDigits(n / 10, width - 1);
      var r := PadDigits(n, width);
      assert r[..|r| - 1] == p;
      PadDigitsValue(n / 10, width - 1);
    }
  }

  /** A value of `width` digits is below `10^width`. */
  lemma {:induction false} DigitsValueBound(s: string)
    requires AllDigits(s)
    ensures DigitsValue(s) < Pow10(|s|)
  {
    if s != [] {
      DigitsValueBound(s[..|s| - 1]);
    }
  }

  /** A value whose leading digit is not zero has all its digits. */
  lemma {:induction false} DigitsValueLeading(s: string)
    requires AllDigits(s) && s != [] && s[0] != '0'
    ensures DigitsValue(s) >= Pow10(|s| - 1)
  {
    if |s| > 1 {
      DigitsValueLeading(s[..|s| - 1]);
    }
  }

  predicate DigitsOrUnderscores(t: string) {
    forall i :: 0 <= i < |t| ==> IsDigit(t[i]) || t[i] == '_'
  }

  /** Digits separated by single underscores, as `int()` accepts them. */
  predicate IsGroupedDigits(t: string) {
    && t != []
    && IsDigit(t[0])
    && IsDigit(t[|t| - 1])
    && DigitsOrUnderscores(t)
    && forall i, j :: 0 <= i < |t| && 0 <= j < |t| && j == i + 1 && t[i] == '_' ==> t[j] != '_'
  }

  function DropUnderscores(t: string): (r: string)
    ensures DigitsOrUnderscores(t) ==> AllDigits(r)
    ensures AllDigits(t) ==> r == t
  {
    if t == [] then [] else (if t[0] == '_' then [] else [t[0]]) + DropUnderscores(t[1..])
  }

  /** Python's `int(s)` on a string: surrounding white space, an optional sign, grouped digits. */
  function PyInt(s: string): Option<int> {
    var t := Strip(s);
    if t != [] && (t[0] == '+' || t[0] == '-') then
      var body := t[1..];
      if IsGroupedDigits(body) then
        var v: int := DigitsValue(DropUnderscores(body));
        Some(if t[0] == '-' then -v else v)
      else None
    else if IsGroupedDigits(t) then Some(DigitsValue(DropUnderscores(t)))
    else None
  }

  /** A plain run of digits reads as its decimal value. */
  lemma PyIntOfDigits(s: string)
    requires AllDigits(s) && s != []
    ensures PyInt(s) == Some(DigitsValue(s))
  {
    assert Strip(s) == s by {
      assert !IsSpace(s[0]) && !IsSpace(s[|s| - 1]);
      StripUnchanged(s);
    }
    assert s[0] != '+' && s[0] != '-';
    assert IsGroupedDigits(s) by {
      assert DigitsOrUnderscores(s);
      assert forall i :: 0 <= i < |s| ==> s[i] != '_';
    }
    assert DropUnderscores(s) == s;
  }

  /** `int` accepts nothing that lacks a digit. */
  lemma PyIntNeedsDigit(s: string)
    requires PyInt(s).Some?
    ensures exists j :: 0 <= j < |s| && IsDigit(s[j])
  {
    var t := Strip(s);
    var body := if t != [] && (t[0] == '+' || t[0] == '-') then t[1..] else t;
    assert IsGroupedDigits(body);
    assert IsDigit(body[0]);
    StripInside(s);
    if body == t {
      assert t == s[|s| - |StripLeft(s)|..][..|t|];
    } else {
      assert body[0] == t[1];
    }
  }

  lemma StripInside(s: string)
    ensures forall j :: 0 <= j < |Strip(s)| ==> Strip(s)[j] in s
  {
  }
}

=== FILE: wrappers.dfy ===
/** The optional-value datatype used throughout the model for Python's `None`. */
module Wrappers {

  datatype Option<+T> = None | Some(value: T) {

    /** The wrapped value, or `default` when there is none (Python's `x if x is not None else default`). */
    function GetOr(default: T): T {
      match this
      case Some(v) => v
      case None => default
    }
  }
}
